=== FILE: README.md ===
# Business Knowledge Platform: the retrieval-augmented answer pipeline, in Dafny

This project models the deterministic core of the platform's backend. The backend turns
uploaded documents into searchable chunks and answers questions about them, and the
model covers the following parts:

- **Ingestion.** `chunk_text` splits extracted text into paragraphs at blank lines. It
  packs them greedily into chunks of at most `chunk_size` characters and cuts an
  oversize paragraph into overlapping windows. The upload endpoint guards the file size
  and a blank extraction, and it builds the positional ids (`"<doc>:<i>"`) and metadata
  the chunks are indexed with.
- **Embedding and retrieval.** `_hash_embed_batch` is a feature-hashing embedder. Each
  `[A-Za-z0-9]+` token of the lower-cased text adds one to bucket
  `adler32(token) mod dim`. Adler-32 is the checksum of section 2.2 of RFC 1950. The
  vector store reshapes Chroma's column-wise results into hits.
- **Grounded answers.** `ask` deduplicates hits by their normalised text, keeping at
  most 8. It numbers them as `[k] text` context, asks the provider, and shapes the
  answer as `plain`, `one_line`, `lines` or `text`. `summarize` answers over a
  document's first 20 chunks.
- **The LLM service.** This covers `_format_context`, `_used_sources`,
  `answer_with_context` with its no-key template and its error text, and the stage
  order of `stream_answer` with its 64-character re-slicing. It also covers
  `complete_with_fallback`, which falls back to Ollama only on quota errors.
- **Providers.** For Ollama this is the message list, `_compose_prompt`, the delta
  filter of the streamed NDJSON body, and the sticky switch from `/api/chat` to
  `/api/generate` after a 404. For OpenAI it is the input shaping and the output
  extraction of the Responses API.
- **Chat endpoints.** The `chat_stream` and `chat_complete` decisions, and the backup
  `/chat/stream` generator. These write server-sent events. A decoder written after
  section 9.2.6 of the WHATWG HTML Living Standard ("Interpreting an event stream")
  states what a client reads back from the wire.

Provider calls, HTTP replies, Chroma and Mongo results, and `datetime.fromisoformat`
are parameters of the model: functions, or values of small outcome datatypes.

Files: `wrappers.dfy` (Option), `text.dfy` (Python string helpers: whitespace, strip,
lower, join, split, slicing, decimal), `chunk.dfy`, `embed.dfy`, `store.dfy`,
`knowledge.dfy`, `llm.dfy`, `providers.dfy`, `sse.dfy`, `chat.dfy`, `chat_backup.dfy`
and `documents.dfy`.

## Model

| member | source | states |
|---|---|---|
| Chunker.ParagraphsAreStripped | backend/app/ingestion/chunk.py:3-5 | every paragraph is non-empty and equal to its own strip |
| Chunker.ParagraphsKeepText | backend/app/ingestion/chunk.py:3-5 | splitting at blank lines loses no non-space character: the paragraphs' non-space characters are the text's, in order |
| Chunker.ParagraphsHaveNoBlankLine | backend/app/ingestion/chunk.py:5 | no paragraph still contains a `\n\s*\n` match, so the split is complete |
| Chunker.BlankTextHasNoParagraphs | backend/app/ingestion/chunk.py:5 | whitespace-only text has no paragraphs |
| Chunker.ChunkTextEdgeCases | backend/app/ingestion/chunk.py:12-14 | the empty text gives exactly one empty chunk numbered 0; non-empty whitespace-only text gives no chunk at all |
| Chunker.ChunkText | backend/app/ingestion/chunk.py:33 | chunk `i` carries index `i` and the `i`-th emitted text, so indices run 0..N-1 in emission order |
| Chunker.HardSplitBounded | backend/app/ingestion/chunk.py:24-27 | every window of the hard split is non-empty and at most `chunk_size` long |
| Chunker.ChunksAreBounded | backend/app/ingestion/chunk.py:17-32 | for `chunk_size >= 1` every chunk of a non-empty text is non-empty and at most `chunk_size` long |
| Chunker.OversizeParagraphIsHardSplit | backend/app/ingestion/chunk.py:20-28 | an oversize paragraph flushes the buffer, then emits `p[k*step : k*step+size]` for every `k*step < len(p)` with `step = max(1, size-overlap)`, and leaves the buffer empty |
| Chunker.HardSplitCovers | backend/app/ingestion/chunk.py:25-27 | every character of an oversize paragraph lies in some window at its own offset |
| Chunker.ChunkShape | backend/app/ingestion/chunk.py:17-32 | every chunk is either consecutive paragraphs joined by a blank line or a window of one paragraph |
| Chunker.ChunksCoverParagraphs | backend/app/ingestion/chunk.py:17-32 | no paragraph is dropped: each is packed whole into some chunk, or it is oversize and every window of its hard split is a chunk |
| Chunker.ChunksCoverCharacters | backend/app/ingestion/chunk.py:17-32 | for `chunk_size >= 1` and `chunk_overlap >= 0` every character of every paragraph lies in some chunk: inside the paragraph packed whole, or inside a window at its own offset |
| Chunker.NegativeOverlapSkips | backend/app/ingestion/chunk.py:25-27 | a negative overlap makes the step exceed the size, so `"abc"` at size 1 and overlap -1 splits into `"a"` and `"c"` and `"b"` is lost |
| Chunker.TwoParagraphsSplit | backend/app/ingestion/chunk.py:5 | two stripped newline-free paragraphs joined by a blank line split back into exactly those two |
| Chunker.TwoParagraphsOneChunk | backend/app/ingestion/chunk.py:18-19 | two paragraphs whose lengths plus 2 fit in `chunk_size` give one chunk equal to the input |
| Chunker.HelloWorldIsOneChunk | backend/app/ingestion/chunk.py:31-33 | `"Hello world.\n\nThis is a test."` at size 1000 is the single chunk 0 holding the input |
| Embedder.Adler32Incremental | backend/app/services/vector_store.py:13 | the byte-at-a-time loop of section 9 of RFC 1950, reducing modulo 65521 at each step, computes the closed form of section 2.2, which fits in 32 bits |
| Embedder.TokensAreMaximalRuns | backend/app/services/vector_store.py:12 | the tokens are exactly the non-empty pieces between non-alphanumeric characters, i.e. the maximal `[A-Za-z0-9]` runs |
| Embedder.CountsAreOccurrences | backend/app/services/vector_store.py:13-14 | coordinate `b` of the count vector is the number of tokens whose Adler-32 checksum is `b` modulo `dim` |
| Embedder.CountsSumToTokenCount | backend/app/services/vector_store.py:13-14 | each token adds exactly one, so the counts sum to the token count |
| Embedder.ZeroNormGuard | backend/app/services/vector_store.py:15-16 | a text with no token has the all-zero vector and norm 0, which is when the `or 1.0` guard applies; a text with tokens has a squared norm of at least 1 |
| Embedder.EmbedCountsTokens | backend/app/services/vector_store.py:11-14 | the embedding of a text counts the tokens of its lower-cased form, bucket by bucket |
| Embedder.HashEmbedBatch | backend/app/services/vector_store.py:8-17 | one vector per input text, each of length `dim` |
| Embedder.BatchIsPerText | backend/app/services/vector_store.py:9-16 | a text's vector is the same whatever batch it appears in and at whatever position |
| Embedder.NoneIsEmptyText | backend/app/services/vector_store.py:12 | a missing text embeds like `""`, as the zero vector |
| VectorStore.DocumentFilter | backend/app/services/vector_store.py:25 | the `document_id` filter is present iff the id is truthy, and then it is that id |
| VectorStore.SearchQuery | backend/app/services/vector_store.py:23-26 | the query asks for `top_k` results, has an embedding of `EMBED_DIM` coordinates and filters iff the id is truthy |
| VectorStore.SearchQueryEmbedsQuery | backend/app/services/vector_store.py:24 | the query vector is the hash embedding of the query text |
| VectorStore.SearchHits | backend/app/services/vector_store.py:27-35 | falsy `ids` gives no hits; otherwise there is one hit per id of the first query, and it exists iff the document and metadata rows can be read |
| VectorStore.SearchHitsArePositional | backend/app/services/vector_store.py:29-34 | hit `i` pairs `ids[0][i]`, `documents[0][i]` and `metadatas[0][i]` |
| VectorStore.DocumentChunks | backend/app/services/vector_store.py:43-49 | missing columns read as empty lists; there is exactly one hit per id, with the same-position text and metadata; it fails iff a column is shorter than `ids` |
| VectorStore.NoIdsNoChunks | backend/app/services/vector_store.py:44 | a result without ids gives no chunks |
| Knowledge.OneLineText | backend/app/api/knowledge.py:13 | the `one_line` text contains no line feed and has no leading or trailing whitespace |
| Knowledge.CollapseNewlineRuns | backend/app/api/knowledge.py:13 | the `\s*\n\s*` substitution leaves no line feed |
| Knowledge.CollapseAroundRun | backend/app/api/knowledge.py:13 | for any text, a maximal whitespace run between non-space neighbours becomes one space when it holds a line feed and stays as it is otherwise, and the text on either side is rewritten independently |
| Knowledge.CollapseExample | backend/app/api/knowledge.py:13 | in `"a  b\nc"` the two spaces stay and the line feed becomes a space |
| Knowledge.OneLineKeepsText | backend/app/api/knowledge.py:13 | `one_line` keeps every non-space character in order, and newline-free text comes out merely stripped |
| Knowledge.OneLineExample | backend/app/api/knowledge.py:13 | `"a \n b"` becomes `"a b"` |
| Knowledge.SplitLines | backend/app/api/knowledge.py:15 | `splitlines()`: no piece holds a line boundary |
| Knowledge.SplitLinesAtBoundary | backend/app/api/knowledge.py:15 | a one-line prefix followed by a whole line boundary (`\r\n`, or one boundary character that is not a `\r` before `\n`) is one piece, and the split goes on after the boundary |
| Knowledge.SplitLinesKeepText | backend/app/api/knowledge.py:15 | the line split loses no non-space character |
| Knowledge.LinesOf | backend/app/api/knowledge.py:15 | every `lines` element is non-empty, on one line, and starts and ends with a non-space character |
| Knowledge.LinesOfAtBoundary | backend/app/api/knowledge.py:15 | one element per non-blank line: the elements of a one-line text, a boundary and the rest are those of the line followed by those of the rest |
| Knowledge.TwoLines | backend/app/api/knowledge.py:15 | two stripped, non-blank, single-line texts joined by `"\n"` give exactly `[a, b]` |
| Knowledge.LinesExample | backend/app/api/knowledge.py:15 | `"a\nb"` gives `["a", "b"]` |
| Knowledge.LinesShape | backend/app/api/knowledge.py:14-15 | every `lines` element is non-empty, equal to its strip and on one line, and together they keep the text's non-space characters in order |
| Knowledge.SingleLine | backend/app/api/knowledge.py:15 | a one-line text gives no element if blank and its strip otherwise |
| Knowledge.ShapeAnswer | backend/app/api/knowledge.py:11-17 | `one_line` gives a newline-free string, `lines` a list, both keeping the non-space text; `plain` and `text` return the text unchanged |
| Knowledge.FirstsDistinct | backend/app/api/knowledge.py:28-34 | the kept hits have non-empty, pairwise distinct normalised texts |
| Knowledge.FirstsCoverKeys | backend/app/api/knowledge.py:29-34 | every non-empty normalised text of the scanned hits is represented among the kept hits |
| Knowledge.FirstIndices | backend/app/api/knowledge.py:28-34 | the kept hits are exactly the first occurrences of their keys, in increasing raw order |
| Knowledge.KeptIffUnseen | backend/app/api/knowledge.py:30-33 | a hit is kept iff its key is non-empty and not in the `seen` set built from the hits before it |
| Knowledge.Dedup | backend/app/api/knowledge.py:28-36 | the loop keeps the first occurrences of the scanned hits, keeps at most 8, stops early only at the 8th, and yields the first 8 first occurrences overall |
| Knowledge.NumberedContextEmptyIffNoHits | backend/app/api/knowledge.py:38 | the numbered context is empty exactly when no hit is kept |
| Knowledge.NumberedContextListsHits | backend/app/api/knowledge.py:38 | the context contains `"[k] text"` for the `k`-th kept hit |
| Knowledge.AskPromptQuotes | backend/app/api/knowledge.py:40-48 | the prompt quotes the context and the question verbatim |
| Knowledge.AskSources | backend/app/api/knowledge.py:57-64 | one source per kept hit with its id, and `filename` and `chunk_index` always null, because they are read from the hit's top level |
| Knowledge.AskSourcesDropMetadata | backend/app/api/knowledge.py:57-64 | a hit carrying a filename in its metadata gets a null filename from `ask` but the filename from `_used_sources` |
| Knowledge.Ask | backend/app/api/knowledge.py:22-70 | a query that is blank after trimming is rejected with 400, and only then; a JSON answer lists at most 8 sources |
| Knowledge.Respond | backend/app/api/knowledge.py:66-70 | `text` gives a plain-text body (empty for a `None` answer) and only `text` does; JSON carries the sources and a null answer iff the answer is `None`; a `None` answer under `one_line` or `lines` raises |
| Knowledge.AskNullReply | backend/app/api/knowledge.py:51-70 | when Ollama answers with a JSON null, `ask` returns an empty text body, `{"answer": null}` for `plain`, and a 500 for `one_line` and `lines` |
| Knowledge.BlankQueryRejectedFirst | backend/app/api/knowledge.py:24-27 | a blank query is rejected whatever the search and providers do, so none of them is consulted |
| Knowledge.AskSearchesStrippedQuery | backend/app/api/knowledge.py:27 | the answer depends on the search only through its result for the stripped query, top 12, in the document |
| Knowledge.AskSourcesAreKeptHits | backend/app/api/knowledge.py:57-70 | a JSON answer's sources are those of the deduplicated hits, with null filenames |
| Knowledge.Summarize | backend/app/api/knowledge.py:76-85 | 404 iff the document has no chunks; a JSON answer has at most 20 sources |
| Knowledge.SummaryUsesFirstChunks | backend/app/api/knowledge.py:80-85 | the summary answers the style, or the default instruction when the style is falsy, over the first 20 chunks |
| Llm.ContextParts | backend/app/services/llm.py:6 | each context part is between 1 and 1000 characters long |
| Llm.ContextPartsAreTruncatedTexts | backend/app/services/llm.py:6 | the parts are the hits' non-empty texts, in order, each cut to its first 1000 characters |
| Llm.ContextHoldsEveryText | backend/app/services/llm.py:6 | the context contains the first 1000 characters of every hit that has text |
| Llm.ContextEmptyIffNoText | backend/app/services/llm.py:6 | the context is empty iff no hit has a truthy text |
| Llm.UsedSources | backend/app/services/llm.py:7-16 | one source per hit, textless ones included, in order, with the hit's id |
| Llm.UsedSourcesReadMetadata | backend/app/services/llm.py:10-14 | filename and chunk index come from the metadata, and are null when it or the field is missing |
| Llm.AnswerWithContext | backend/app/services/llm.py:17-53 | every path returns `_used_sources(hits)` as the sources, and without a key the answer is the fallback template |
| Llm.NoKeyAnswer | backend/app/services/llm.py:25-32 | the template starts with the fallback prefix, the stripped query and the preview header; the rest is `(no context)` for an empty context, otherwise a non-empty prefix of the context of at most 400 characters, the whole context when it fits |
| Llm.NoKeyAnswerIsTemplate | backend/app/services/llm.py:25-32 | without a key the call is never made; the answer is `"Summary (fallback): " + strip(query) + "\n\nContext preview:\n"` followed by the first 400 context characters, or `"(no context)"` when no hit has text |
| Llm.FailedCallAnswersWithError | backend/app/services/llm.py:51-53 | a failed call answers with the error text and the first 500 context characters |
| Llm.OllamaRun | backend/app/services/llm.py:114-126 | the Ollama stage yields only non-empty pieces, and finishes iff the body did not raise when every line parses as an object |
| Llm.StreamAnswer | backend/app/services/llm.py:62-91 | the pieces begin with everything the OpenAI stage yielded, even when it then raised |
| Llm.StreamAnswerStages | backend/app/services/llm.py:62-133 | after the OpenAI pieces comes nothing when that stage finished; otherwise the Ollama pieces, then, when Ollama did not finish either, the 64-character slices of `answer_with_context`; a raised stage keeps what it yielded, and the OpenAI stage finishes iff a key is set and its stream did not raise |
| Llm.RaisedStreamFallsBack | backend/app/services/llm.py:89-133 | with the shipped settings, a keyed OpenAI stream that raises gives its non-empty deltas followed by the slices of the whole non-streaming answer |
| Llm.FinishedStreamIsWholeAnswer | backend/app/services/llm.py:81-89 | a finished OpenAI stream is the whole answer: its non-empty deltas in order |
| Llm.ShippedSettingsNeverStreamOllama | backend/app/services/llm.py:93-94 | `Settings` has no `llm_provider`, so the Ollama stage never runs; without a key the answer is the template re-sliced |
| Llm.DefaultProviderIsNotOllama | backend/app/services/llm.py:93 | the default provider name is not `ollama` |
| Llm.Slices64Tile | backend/app/services/llm.py:130-133 | the slices concatenate back to the answer; each has 1 to 64 characters and all but the last exactly 64 |
| Llm.FirstTruthy | backend/app/services/llm.py:145 | `a or b or default`: the first truthy choice |
| Llm.CompleteWithFallback | backend/app/services/llm.py:137-153 | OpenAI is tried iff `LLM_PRIMARY` is `openai` and the key is non-empty; Ollama is asked iff OpenAI is not tried or fails with a quota error |
| Llm.FallbackOnlyOnQuota | backend/app/services/llm.py:144-153 | OpenAI's success is returned and Ollama is not consulted; a non-quota error is re-raised; a quota error returns Ollama's outcome, a JSON null (`None`) included |
| Llm.NoPrimaryIsOllama | backend/app/services/llm.py:142-153 | when OpenAI is not primary, the OpenAI provider is never consulted and the result is Ollama's |
| Llm.QuotaExamples | backend/app/services/llm.py:148 | a 429 message and `insufficient_quota` are quota errors; `invalid_api_key` is not |
| Providers.BuildMessages | backend/app/services/llm_providers.py:18-21 | a system message comes first iff `system` is truthy, and the user prompt is always last |
| Providers.FirstSystem | backend/app/services/llm_providers.py:11 | the content of the first system message: one at some index with no system message before it, and nothing exactly when no message is a system one |
| Providers.ComposePromptHoldsMessages | backend/app/services/llm_providers.py:10-16 | the prompt begins with the first system message's stripped text when it is truthy, and contains every user message's stripped text |
| Providers.ComposeBuiltMessages | backend/app/services/llm_providers.py:10-16 | the generate prompt of a built list is the stripped system text and a blank line (if truthy), then the stripped prompt |
| Providers.UseGenerateSettingExamples | backend/app/services/llm_providers.py:9 | `TRUE`, `Yes` and `1` switch to generate; unset, `on` and `0` do not |
| Providers.StreamDeltas | backend/app/services/llm_providers.py:32-36 | only non-empty deltas are yielded, at most one per line |
| Providers.ParsedStreamYieldsDeltas | backend/app/services/llm_providers.py:32-36 | a body whose lines all parse yields the non-empty deltas in line order, skipping blank lines, and does not raise |
| Providers.Stream | backend/app/services/llm_providers.py:17-50 | the generate endpoint is used iff the switch was on or `/api/chat` answered 404; the chat endpoint is posted first iff the switch was off |
| Providers.SwitchIsSticky | backend/app/services/llm_providers.py:28-29 | once a call switched, every later call on the instance posts only to `/api/generate` |
| Providers.SwitchedStaysSwitched | backend/app/services/llm_providers.py:22 | with the switch on, every call posts only to `/api/generate` |
| Providers.Complete | backend/app/services/llm_providers.py:51-77 | the generate endpoint is used iff the switch was on or `/api/chat` answered 404, and the last request posted is a generate request exactly then |
| Providers.NotFoundFallsBackToGenerate | backend/app/services/llm_providers.py:62-77 | a 404 from `/api/chat` posts the composed prompt to `/api/generate` next |
| Providers.OpenAIInputFor | backend/app/services/llm_providers.py:85-91 | a truthy system gives the two-message structured input, otherwise the raw prompt |
| Providers.FirstOfKindSpec | backend/app/services/llm_providers.py:94-97 | the scan returns the text of the first `output_text` part, and fails only when there is none |
| Providers.NestedScanIsFlatScan | backend/app/services/llm_providers.py:94-97 | the nested loop finds the same part as a scan of the flattened parts |
| Providers.OpenAIOutputIsFirstText | backend/app/services/llm_providers.py:93-98 | the reply is the first `output_text` part's text, else `resp.output_text` |
| ServerSentEvents.Frame | backend/app/api/chat.py:12-13 | when neither type nor data holds a line end, the frame reads as three lines: `event: <type>`, `data: <data>` and the empty line that dispatches |
| ServerSentEvents.StreamLinesOfTerminated | backend/app/api/chat.py:13 | lines free of line ends, each ended by LF, read back as the same lines |
| ServerSentEvents.RunFrame | backend/app/api/chat.py:12-13 | one frame dispatches exactly its event |
| ServerSentEvents.WireRoundTrip | backend/app/api/chat.py:12-13 | a client reads back exactly the events written, when no type or data holds a line end |
| ServerSentEvents.MultiLineDataIsCut | backend/app/api/chat.py:12-13 | a payload `a + "\n" + b` reaches the client as `a`: the rest is a line of its own that the client ignores |
| ServerSentEvents.MultiLineTokenExample | backend/app/api/chat.py:12-13 | `sse("token", "a\nb")` is read as a token `a` |
| ServerSentEvents.WireMultiLineRoundTrip | backend/app/api/chat.py:12-13 | framed with one data line per payload line, every stream reads back whole, line feeds included, when no data holds a carriage return |
| ServerSentEvents.FrameMultiLineRoundTrip | backend/app/api/chat.py:12-13 | a single corrected frame reads back its event, line feeds included |
| ServerSentEvents.FrameMultiLineAgrees | backend/app/api/chat.py:12-13 | on a payload without a line feed the corrected frame is byte for byte the frame `sse` writes |
| Chat.ProviderModel | backend/app/api/chat.py:22 | the provider model is the setting, else the request's model, else the default, unless the setting is the empty string |
| Chat.ChatStream | backend/app/api/chat.py:14-45 | typing first, done last and once, tokens between, at most one error, just before done, and only with a fixed code; OpenAI is built iff primary and keyed; Ollama is built iff OpenAI is not primary, replied empty or failed on quota |
| Chat.OpenAIReplyIsOneToken | backend/app/api/chat.py:23-27 | a non-empty OpenAI reply is one token carrying the whole text |
| Chat.OpenAIFailureIsReported | backend/app/api/chat.py:28-34 | a non-quota OpenAI failure writes typing, `openai_failed`, done, and Ollama is not consulted |
| Chat.OllamaEvents | backend/app/api/chat.py:37-44 | after typing, one token per delta in order, then `ollama_failed` iff the stream raised, then done |
| Chat.OllamaTokensAreDeltas | backend/app/api/chat.py:37-44 | once Ollama answers, the tokens are its deltas in order, and an error is written iff its stream raised |
| Chat.ChatStreamReadsBack | backend/app/api/chat.py:12-45 | whatever happens, a client reads back the events written, when no data holds a line end |
| Chat.ChatStreamReadsBackCorrected | backend/app/api/chat.py:12-45 | with one data line per payload line, every stream reads back whole, multi-line tokens included |
| Chat.ChatComplete | backend/app/api/chat.py:46-63 | a reply or a fixed error with status 500, never both; `openai_failed` iff primary OpenAI fails off quota; a primary success is returned as is |
| Chat.CompleteFallsBackOnQuota | backend/app/api/chat.py:53-63 | when OpenAI is not primary or fails on quota, the reply is Ollama's, and its failure gives `ollama_failed` |
| Chat.EmptyReplyEndpointsDisagree | backend/app/api/chat.py:23-27 | an empty OpenAI reply is returned as is by `chat_complete` but sends `chat_stream` on to Ollama |
| ChatBackup.TokenTexts | backend/app/api/chat.backup-20250813-141439.py:18-21 | one token per non-empty answer fragment, in order, each that fragment with every carriage return removed |
| ChatBackup.BackupChatStream | backend/app/api/chat.backup-20250813-141439.py:7-24 | an empty `q` is refused with 422; no hits give 404 before any event; otherwise the stream is typing, tokens, done, with no error |
| ChatBackup.TokenTextsSpellAnswer | backend/app/api/chat.backup-20250813-141439.py:18-22 | the token texts concatenate to the answer with every carriage return removed, empty fragments skipped |
| ChatBackup.AnswerEvents | backend/app/api/chat.backup-20250813-141439.py:17-23 | the stream is well formed, has no error, and its token data are the token texts |
| ChatBackup.AnswerEventsSpellAnswer | backend/app/api/chat.backup-20250813-141439.py:17-23 | the token events of the stream spell the answer with carriage returns removed |
| ChatBackup.AnswerEventsReadBack | backend/app/api/chat.backup-20250813-141439.py:17-23 | when no piece holds a line feed, a client reads back the events written |
| ChatBackup.AnswerEventsReadBackCorrected | backend/app/api/chat.backup-20250813-141439.py:17-23 | with one data line per payload line, the backup stream always reads back whole |
| ChatBackup.BackupTokensAreAnswer | backend/app/api/chat.backup-20250813-141439.py:12-23 | past validation and retrieval, there is one token per non-empty piece of the streamed answer over the top 8 hits, that piece with carriage returns removed |
| Documents.ChunkIdRoundTrip | backend/app/api/documents.py:37 | the chunk id `"<doc>:<i>"` parses back, at its last colon, into the document id and the position |
| Documents.ChunkIdsAreDistinct | backend/app/api/documents.py:37 | distinct (document, position) pairs get distinct chunk ids |
| Documents.SplitExt | backend/app/api/documents.py:25 | `os.path.splitext`: root and extension concatenate to the name, and the extension is empty or one dot followed by no dot or slash |
| Documents.Extension | backend/app/api/documents.py:25 | the stored extension has no dot and no slash |
| Documents.ExtensionOfName | backend/app/api/documents.py:25 | `base.e` with a non-hidden base gives `e` lower-cased |
| Documents.HiddenFileHasNoExtension | backend/app/api/documents.py:25 | a dot file such as `.env` has no extension |
| Documents.ExtensionExamples | backend/app/api/documents.py:25 | `Report.PDF` gives `pdf`: the suffix after the last dot, lower-cased |
| Documents.BatchFor | backend/app/api/documents.py:37-39 | ids, texts and metadata align with the chunks: `ids[i]` is `"<doc>:<i>"` and metadata `i` carries the document, `i` and the filename |
| Documents.Upload | backend/app/api/documents.py:12-41 | 413 iff the declared size exceeds 100 MiB; 400 iff the size passes and the text is blank; an upload stores `chunk_count` equal to the returned `chunks`, the normalised extension and the aligned batch |
| Documents.IndexedChunksPointBack | backend/app/api/documents.py:36-38 | every indexed chunk's id and metadata point back at its document and position |
| Documents.NonBlankTextHasChunks | backend/app/api/documents.py:21-23 | text that passes the blank guard gives at least one chunk |
| Documents.ParseErrorIsIndexed | backend/app/api/documents.py:20-23 | a `[PARSE_ERROR]` marker passes the blank guard and is chunked and indexed |
| Documents.Bound | backend/app/api/documents.py:60-65 | a date bound is present iff the parameter is truthy and parses |
| Documents.ListQueryFor | backend/app/api/documents.py:42-67 | 422 iff page < 1 or size outside 1..100; filename pattern iff `search` is truthy; `ext` lower-cased; date range iff a bound parsed; skip `(page-1)*size`, limit `size` |
| Documents.ExtFilterIsCaseInsensitive | backend/app/api/documents.py:55-56 | the extension filter (line 56) equals the extension stored at upload (line 25) of any file whose extension matches case-insensitively |
| Documents.Window | backend/app/api/documents.py:67 | the window holds at most `limit` items, exactly `limit` when enough remain, and item `i` is match `skip + i` |
| Documents.PagesTile | backend/app/api/documents.py:67 | pages 1..n together are the first `n*size` matches: no gap and no repeat |
| Documents.ListDocuments | backend/app/api/documents.py:42-80 | no response iff the parameters are invalid; otherwise the total is the match count and the items are page `page` of the tiling |

## Left out

- Network and database I/O is not modelled: the Chroma client, `requests`, the OpenAI SDK and Mongo (motor). Their results are parameters: search functions, `HttpReply` values, provider functions returning `Outcome`, stored columns, and the sorted list of matches.
- File writes and `storage_path`, `uploaded_at` and the `isoformat` of listed items are left out. They are file-system and wall-clock values.
- `extract_text` and the parsers are left out. Only their `[PARSE_ERROR]` marker is modelled, as extracted text.
- Float L2 normalisation in `_hash_embed_batch` is left out because it is floating point. The integer counts, the norm's square and the zero guard are modelled.
- Embedder.HashEmbed: requires `dim >= 1`. `dim` is always `EMBED_DIM = 384`, and `% 0` raises in Python.
- Text.Lower: lower-cases ASCII letters only. Python's `str.lower` also maps non-ASCII letters, and that can change a token's boundaries.
- The UTF-8 encoding of frames is left out. The SSE model works on characters, since encoding and decoding cancel out.
- `async`, `asyncio.sleep(0)`, timeouts and client disconnects are left out. They affect scheduling, not the order of events.
- Exceptions are modelled as outcome values: `Err`, `Threw`, `Raised` and `raised` flags. Tracebacks and exception types are not modelled.
- Chunker.ChunksCoverParagraphs: per-character coverage (ChunksCoverCharacters) holds only for `chunk_size >= 1` and `chunk_overlap >= 0`. With a negative overlap the step exceeds the size and the hard split skips characters (NegativeOverlapSkips).
- Knowledge.Ask: a search that raises (a Chroma failure, which reaches the client as a 500) is not modelled. `Search` always returns hits.
- Providers.OpenAIOutputIsFirstText: a part's `text` is always a string. An `output_text` part whose `text` is `None` is not modelled.
- Regex filename search and Mongo's matching and sorting are taken as given. `ListDocuments` receives the sorted matches of the filter.
- `datetime.fromisoformat` is a parameter `parse`, returning `None` where it raises.
- The OpenAI chat-completion calls inside `answer_with_context` and `stream_answer` are parameters. The first returns a reply or a failure; the second returns chunks and whether the stream raised.
- `backend/app/services/llm.backup-20250813-190537.py` duplicates the first 133 lines of `llm.py`, so the `llm.py` model covers it.
- Authentication, users, analytics, `main.py`, `db.py` and `config.py` are not part of this model. They are wiring, cryptography and database aggregation. Only the absence of an `llm_provider` setting is used.
- FastAPI validation is modelled only where the core relies on it: 422 for `q` shorter than 1, and for `page` and `size` out of range.

## Findings

| source | as written | input that shows it | evidently intended | confidence | as-written member | corrected member |
|---|---|---|---|---|---|---|
| backend/app/api/chat.py:12-13 | `sse` puts the whole payload after one `data: ` prefix, so a payload with a line feed spans several lines | `sse("token", "a\nb")` is read by a client as the token `a`, because `b` is a line with no recognised field and is ignored | one `data:` line per payload line, which a client joins back with line feeds | not executed | ServerSentEvents.MultiLineDataIsCut | ServerSentEvents.WireMultiLineRoundTrip |

`chat.py`'s endpoints write frames with `sse`, and the backup generator writes the same
frames inline (chat.backup-20250813-141439.py:17, :22-23), so both keep the as-written framing. `Chat.ChatStreamReadsBack` and
`ChatBackup.AnswerEventsReadBack` state when that framing is still faithful. The
corrected framing (`ServerSentEvents.FrameMultiLine` and `WireMultiLine`) agrees with
`sse` on every payload without a line feed (`ServerSentEvents.FrameMultiLineAgrees`).
With it, every chat stream reads back whole (`Chat.ChatStreamReadsBackCorrected`), and
so does every backup stream, unconditionally (`ChatBackup.AnswerEventsReadBackCorrected`).

=== FILE: chat.dfy ===
/**
 * The chat endpoints: `/chat/stream` writes a typing event, then either OpenAI's whole
 * reply as one token or Ollama's streamed deltas, then `done`; `/chat/complete` returns
 * one reply. OpenAI is tried first when it is the primary and a key is set; a quota
 * failure (and, when streaming, an empty reply) hands over to Ollama.
 */
module Chat {
  import opened Wrappers
  import opened Text
  import opened ServerSentEvents
  import opened Providers
  import opened Llm

  /** The request body: a prompt, an optional system text and an optional model. */
  datatype ChatIn = ChatIn(prompt: string, system: Option<string>, model: Option<string>)

  /** The settings the endpoints read: those of the completion and `OLLAMA_USE_GENERATE`. */
  datatype ChatEnv = ChatEnv(keys: Env, ollamaUseGenerate: Option<string>)

  const TOKEN := "token"
  const ERROR := "error"
  const TYPING := Event("typing", "start")
  const DONE := Event("done", "end")
  const OPENAI_FAILED := Event(ERROR, "openai_failed")
  const OLLAMA_FAILED := Event(ERROR, "ollama_failed")

  /**
   * The model a provider ends up with when the endpoint passes `setting or requested`
   * and the provider falls back to `setting` with a default: the setting when truthy,
   * else the requested model when truthy, else the setting as read (so an empty one stays
   * empty), else the default.
   */
  function ProviderModel(setting: Option<string>, requested: Option<string>, default: string): (m: string)
    ensures setting != Some("") ==> m == FirstTruthy(setting, requested, default)
    ensures setting == Some("") && !Truthy(requested) ==> m == ""
  {
    if Truthy(setting) then setting.value
    else if Truthy(requested) then requested.value
    else setting.GetOr(default)
  }

  function OpenAIModel(body: ChatIn, env: ChatEnv): string {
    ProviderModel(env.keys.openaiModel, body.model, "o4-mini")
  }

  function OllamaModel(body: ChatIn, env: ChatEnv): string {
    ProviderModel(env.keys.llmModel, body.model, "llama3.1:8b")
  }

  /** A token event per text, in order. */
  function TokenEvents(texts: seq<string>): (r: seq<Event>)
    ensures |r| == |texts|
    ensures forall k | 0 <= k < |r| :: r[k] == Event(TOKEN, texts[k])
  {
    seq(|texts|, k requires 0 <= k < |texts| => Event(TOKEN, texts[k]))
  }

  /**
   * The shape of every reply stream: typing first, done last and nowhere else, tokens in
   * between, and at most one error, just before done.
   */
  predicate WellFormed(evs: seq<Event>) {
    && |evs| >= 2 && evs[0] == TYPING && evs[|evs| - 1] == DONE
    && forall k | 1 <= k < |evs| - 1 :: evs[k].name == TOKEN || (evs[k].name == ERROR && k == |evs| - 2)
  }

  /** The data of the token events, in order. */
  function TokenData(evs: seq<Event>): seq<string>
    decreases |evs|
  {
    if |evs| == 0 then []
    else (if evs[0].name == TOKEN then [evs[0].data] else []) + TokenData(evs[1..])
  }

  /** Whether some event is an error. */
  predicate HasError(evs: seq<Event>) {
    exists k | 0 <= k < |evs| :: evs[k].name == ERROR
  }

  /** What the stream endpoint wrote, and the model each provider was built with, if any. */
  datatype StreamTrace = StreamTrace(events: seq<Event>, openaiModel: Option<string>, ollamaModel: Option<string>)

  /** OpenAI's outcome hands over to Ollama: an empty reply or a quota failure. */
  predicate FallsThrough(o: Outcome) {
    (o.Ok? && o.text == "") || (o.Err? && IsQuota(o.message))
  }

  /** The Ollama stream the endpoint reads, built from the request and the settings. */
  function OllamaCall(body: ChatIn, env: ChatEnv, chat: HttpReply, generate: HttpReply): StreamCall {
    Stream(UseGenerateSetting(env.ollamaUseGenerate), OllamaModel(body, env), body.prompt, body.system, chat, generate)
  }

  /** The events after typing when Ollama answers: each delta, an error if it raised, done. */
  function OllamaEvents(call: StreamCall): (r: seq<Event>)
    ensures |r| >= 1 && r[|r| - 1] == DONE
    ensures |r| == |call.deltas| + (if call.raised then 2 else 1)
    ensures forall k | 0 <= k < |call.deltas| :: r[k] == Event(TOKEN, call.deltas[k])
    ensures call.raised ==> r[|r| - 2] == OLLAMA_FAILED
  {
    TokenEvents(call.deltas) + (if call.raised then [OLLAMA_FAILED] else []) + [DONE]
  }

  lemma OllamaEventsWellFormed(call: StreamCall)
    ensures WellFormed([TYPING] + OllamaEvents(call))
  {
    var evs := [TYPING] + OllamaEvents(call);
    var n := |call.deltas|;
    forall k | 1 <= k < |evs| - 1
      ensures evs[k].name == TOKEN || (evs[k].name == ERROR && k == |evs| - 2)
    {
      if k <= n {
        assert evs[k] == TokenEvents(call.deltas)[k - 1];
      } else {
        assert call.raised && evs[k] == OLLAMA_FAILED;
      }
    }
  }

  /** `/chat/stream`. */
  function ChatStream(body: ChatIn, env: ChatEnv, openai: Provider, chat: HttpReply, generate: HttpReply): (t: StreamTrace)
    ensures WellFormed(t.events)
    ensures t.openaiModel.Some? <==> UsesOpenAI(env.keys)
    ensures t.ollamaModel.Some? <==>
      !UsesOpenAI(env.keys) || FallsThrough(openai(OpenAIModel(body, env), body.prompt, body.system))
    ensures forall k | 0 <= k < |t.events| :: t.events[k].name == ERROR ==> t.events[k] in {OPENAI_FAILED, OLLAMA_FAILED}
  {
    var ollama := OllamaCall(body, env, chat, generate);
    OllamaEventsWellFormed(ollama);
    var fallback := StreamTrace([TYPING] + OllamaEvents(ollama), None, Some(OllamaModel(body, env)));
    if UsesOpenAI(env.keys) then
      var m := OpenAIModel(body, env);
      match openai(m, body.prompt, body.system)
      case Ok(text) =>
        if text != "" then StreamTrace([TYPING, Event(TOKEN, text), DONE], Some(m), None)
        else fallback.(openaiModel := Some(m))
      case Err(e) =>
        if !IsQuota(e) then StreamTrace([TYPING, OPENAI_FAILED, DONE], Some(m), None)
        else fallback.(openaiModel := Some(m))
    else fallback
  }

  /** A non-empty OpenAI reply is written whole, as the only token. */
  lemma OpenAIReplyIsOneToken(body: ChatIn, env: ChatEnv, openai: Provider, chat: HttpReply, generate: HttpReply)
    requires UsesOpenAI(env.keys)
    requires var o := openai(OpenAIModel(body, env), body.prompt, body.system); o.Ok? && o.text != ""
    ensures ChatStream(body, env, openai, chat, generate).events
         == [TYPING, Event(TOKEN, openai(OpenAIModel(body, env), body.prompt, body.system).text), DONE]
  {
  }

  /** Any OpenAI failure other than a quota one ends the stream with `openai_failed`. */
  lemma OpenAIFailureIsReported(body: ChatIn, env: ChatEnv, openai: Provider, chat: HttpReply, generate: HttpReply)
    requires UsesOpenAI(env.keys)
    requires var o := openai(OpenAIModel(body, env), body.prompt, body.system); o.Err? && !IsQuota(o.message)
    ensures ChatStream(body, env, openai, chat, generate).events == [TYPING, OPENAI_FAILED, DONE]
  {
  }

  lemma {:induction false} TokenDataAppend(a: seq<Event>, b: seq<Event>)
    ensures TokenData(a + b) == TokenData(a) + TokenData(b)
    decreases |a|
  {
    if |a| == 0 {
      assert a + b == b;
    } else {
      assert (a + b)[0] == a[0];
      assert (a + b)[1..] == a[1..] + b;
      TokenDataAppend(a[1..], b);
    }
  }

  lemma {:induction false} TokenDataOfTokens(texts: seq<string>)
    ensures TokenData(TokenEvents(texts)) == texts
    decreases |texts|
  {
    if |texts| > 0 {
      assert TokenEvents(texts)[1..] == TokenEvents(texts[1..]);
      TokenDataOfTokens(texts[1..]);
    }
  }

  /** The Ollama part of a stream carries the deltas as tokens and an error iff it raised. */
  lemma OllamaEventsCarryDeltas(call: StreamCall)
    ensures TokenData([TYPING] + OllamaEvents(call)) == call.deltas
    ensures HasError([TYPING] + OllamaEvents(call)) <==> call.raised
  {
    var tokens := TokenEvents(call.deltas);
    var tail := (if call.raised then [OLLAMA_FAILED] else []) + [DONE];
    var evs := [TYPING] + tokens + tail;
    assert [TYPING] + OllamaEvents(call) == evs;
    TokenDataAppend([TYPING], tokens);
    TokenDataAppend([TYPING] + tokens, tail);
    TokenDataOfTokens(call.deltas);
    assert TokenData([TYPING]) == [];
    assert TokenData([DONE]) == [];
    if call.raised {
      assert tail == [OLLAMA_FAILED, DONE] && tail[1..] == [DONE];
      assert TokenData(tail) == [];
      assert evs[|evs| - 2] == OLLAMA_FAILED;
    } else {
      assert TokenData(tail) == [];
      forall k | 0 <= k < |evs|
        ensures evs[k].name != ERROR
      {
        if 1 <= k <= |tokens| {
          assert evs[k] == tokens[k - 1];
        }
      }
    }
  }

  /**
   * When Ollama answers, the tokens are its deltas in order, those sent before a failure
   * included, and an error is written exactly when its stream raised.
   */
  lemma OllamaTokensAreDeltas(body: ChatIn, env: ChatEnv, openai: Provider, chat: HttpReply, generate: HttpReply)
    requires ChatStream(body, env, openai, chat, generate).ollamaModel.Some?
    ensures var evs := ChatStream(body, env, openai, chat, generate).events;
      && TokenData(evs) == OllamaCall(body, env, chat, generate).deltas
      && (HasError(evs) <==> OllamaCall(body, env, chat, generate).raised)
  {
    var call := OllamaCall(body, env, chat, generate);
    assert ChatStream(body, env, openai, chat, generate).events == [TYPING] + OllamaEvents(call);
    OllamaEventsCarryDeltas(call);
  }

  /** In a well-formed stream every event name is one line and not empty. */
  lemma WellFormedNames(evs: seq<Event>)
    requires WellFormed(evs)
    ensures forall k | 0 <= k < |evs| :: evs[k].name != [] && NoEol(evs[k].name)
  {
    assert NoEol("typing") && NoEol(TOKEN) && NoEol(ERROR) && NoEol("done");
    forall k | 0 <= k < |evs|
      ensures evs[k].name != [] && NoEol(evs[k].name)
    {
      if k == 0 || k == |evs| - 1 {
      } else {
        assert evs[k].name == TOKEN || evs[k].name == ERROR;
      }
    }
  }

  /** Whatever happens, a client reads back the events written, if no token spans lines. */
  lemma ChatStreamReadsBack(body: ChatIn, env: ChatEnv, openai: Provider, chat: HttpReply, generate: HttpReply)
    requires var evs := ChatStream(body, env, openai, chat, generate).events;
      forall k | 0 <= k < |evs| :: NoEol(evs[k].data)
    ensures var evs := ChatStream(body, env, openai, chat, generate).events;
      Decode(Wire(evs)) == evs
  {
    var evs := ChatStream(body, env, openai, chat, generate).events;
    WellFormedNames(evs);
    WireRoundTrip(evs);
  }

  /**
   * Framed one data line per payload line, every stream reads back whole, multi-line
   * tokens included, provided no data holds a carriage return.
   */
  lemma ChatStreamReadsBackCorrected(body: ChatIn, env: ChatEnv, openai: Provider, chat: HttpReply, generate: HttpReply)
    requires var evs := ChatStream(body, env, openai, chat, generate).events;
      forall k | 0 <= k < |evs| :: '\r' !in evs[k].data
    ensures var evs := ChatStream(body, env, openai, chat, generate).events;
      Decode(WireMultiLine(evs)) == evs
  {
    var evs := ChatStream(body, env, openai, chat, generate).events;
    WellFormedNames(evs);
    WireMultiLineRoundTrip(evs);
  }

  /** The JSON answer of `/chat/complete`: a reply (possibly `null`), or an error with status 500. */
  datatype Response = JsonReply(reply: Option<string>) | JsonError(status: nat, error: string)

  /** The Ollama completion the endpoint asks for. */
  function OllamaCompleteCall(body: ChatIn, env: ChatEnv, chat: HttpReply, generate: HttpReply): CompleteCall {
    Complete(UseGenerateSetting(env.ollamaUseGenerate), OllamaModel(body, env), body.prompt, body.system, chat, generate)
  }

  /** `/chat/complete`. */
  function ChatComplete(body: ChatIn, env: ChatEnv, openai: Provider, chat: HttpReply, generate: HttpReply): (r: Response)
    ensures r.JsonError? ==> r.status == 500 && r.error in {"openai_failed", "ollama_failed"}
    ensures r == JsonError(500, "openai_failed") <==>
      UsesOpenAI(env.keys) && openai(OpenAIModel(body, env), body.prompt, body.system).Err?
      && !IsQuota(openai(OpenAIModel(body, env), body.prompt, body.system).message)
    ensures UsesOpenAI(env.keys) && openai(OpenAIModel(body, env), body.prompt, body.system).Ok? ==>
      r == JsonReply(Some(openai(OpenAIModel(body, env), body.prompt, body.system).text))
  {
    var ollama := match OllamaCompleteCall(body, env, chat, generate).result
      case Returned(v) => JsonReply(v)
      case Raised => JsonError(500, "ollama_failed");
    if UsesOpenAI(env.keys) then
      match openai(OpenAIModel(body, env), body.prompt, body.system)
      case Ok(text) => JsonReply(Some(text))
      case Err(e) => if IsQuota(e) then ollama else JsonError(500, "openai_failed")
    else ollama
  }

  /**
   * Ollama answers `/chat/complete` exactly when OpenAI is not the primary or failed on
   * quota; its `null` content reaches the client as a `null` reply.
   */
  lemma CompleteFallsBackOnQuota(body: ChatIn, env: ChatEnv, openai: Provider, chat: HttpReply, generate: HttpReply)
    requires !UsesOpenAI(env.keys) || (openai(OpenAIModel(body, env), body.prompt, body.system).Err?
                                       && IsQuota(openai(OpenAIModel(body, env), body.prompt, body.system).message))
    ensures var res := OllamaCompleteCall(body, env, chat, generate).result;
      ChatComplete(body, env, openai, chat, generate)
        == if res.Returned? then JsonReply(res.value) else JsonError(500, "ollama_failed")
  {
  }

  /**
   * The two endpoints disagree on an empty OpenAI reply: `/chat/complete` returns it,
   * while `/chat/stream` asks Ollama instead.
   */
  lemma EmptyReplyEndpointsDisagree(body: ChatIn, env: ChatEnv, openai: Provider, chat: HttpReply, generate: HttpReply)
    requires UsesOpenAI(env.keys) && openai(OpenAIModel(body, env), body.prompt, body.system) == Ok("")
    ensures ChatComplete(body, env, openai, chat, generate) == JsonReply(Some(""))
    ensures ChatStream(body, env, openai, chat, generate).ollamaModel == Some(OllamaModel(body, env))
  {
  }
}

=== FILE: chat_backup.dfy ===
/**
 * The earlier `GET /chat/stream`: it answers a question about one document from the
 * document's chunks, streaming the pieces of `stream_answer` as token events.
 */
module ChatBackup {
  import opened Text
  import opened ServerSentEvents
  import opened VectorStore
  import opened Llm
  import Chat
  import Knowledge

  /** How many chunks the question retrieves. */
  const BACKUP_TOP_K: nat := 8

  /** The response: a validation error, a 404 with its detail, or the event stream. */
  datatype Reply = Invalid(status: nat) | NotFound(status: nat, detail: string) | EventStream(events: seq<Event>)

  /**
   * The data of the token events: one per non-empty piece, in order, that piece without
   * its carriage returns.
   */
  function TokenTexts(pieces: seq<string>): (r: seq<string>)
    ensures |r| == |NonEmpty(pieces)|
    ensures forall k | 0 <= k < |r| :: r[k] == Remove(NonEmpty(pieces)[k], '\r')
    ensures forall k | 0 <= k < |r| :: '\r' !in r[k]
    decreases |pieces|
  {
    if |pieces| == 0 then []
    else
      var rest := TokenTexts(pieces[1..]);
      if pieces[0] != "" then
        assert NonEmpty(pieces) == [pieces[0]] + NonEmpty(pieces[1..]);
        [Remove(pieces[0], '\r')] + rest
      else
        assert NonEmpty(pieces) == NonEmpty(pieces[1..]);
        rest
  }

  /** `chat_stream(document_id, q)`. */
  function BackupChatStream(documentId: string, q: string, search: Knowledge.Search, env: StreamEnv): (r: Reply)
    ensures r.Invalid? <==> q == ""
    ensures r.Invalid? ==> r.status == 422
    ensures r.NotFound? <==> q != "" && search(q, BACKUP_TOP_K, documentId) == []
    ensures r.EventStream? ==> Chat.WellFormed(r.events) && !Chat.HasError(r.events)
  {
    if q == "" then Invalid(422)
    else
      var hits := search(q, BACKUP_TOP_K, documentId);
      if hits == [] then NotFound(404, "No context for this document")
      else
        EventStream(AnswerEvents(StreamAnswer(q, hits, env)))
  }

  /** The events written for the answer's pieces: typing, a token per non-empty piece, done. */
  function AnswerEvents(pieces: seq<string>): (evs: seq<Event>)
    ensures Chat.WellFormed(evs) && !Chat.HasError(evs)
    ensures Chat.TokenData(evs) == TokenTexts(pieces)
  {
    var texts := TokenTexts(pieces);
    TokenStreamShape(texts);
    TokenDataOfStream(texts);
    [Chat.TYPING] + Chat.TokenEvents(texts) + [Chat.DONE]
  }

  /** Between typing and done, the token data are the texts written. */
  lemma TokenDataOfStream(texts: seq<string>)
    ensures Chat.TokenData([Chat.TYPING] + Chat.TokenEvents(texts) + [Chat.DONE]) == texts
  {
    Chat.TokenDataAppend([Chat.TYPING], Chat.TokenEvents(texts));
    Chat.TokenDataAppend([Chat.TYPING] + Chat.TokenEvents(texts), [Chat.DONE]);
    Chat.TokenDataOfTokens(texts);
    assert Chat.TokenData([Chat.TYPING]) == [] && Chat.TokenData([Chat.DONE]) == [];
    assert [] + texts + [] == texts;
  }

  lemma TokenStreamShape(texts: seq<string>)
    ensures var evs := [Chat.TYPING] + Chat.TokenEvents(texts) + [Chat.DONE];
      Chat.WellFormed(evs) && !Chat.HasError(evs)
  {
    var evs := [Chat.TYPING] + Chat.TokenEvents(texts) + [Chat.DONE];
    forall k | 0 <= k < |evs|
      ensures evs[k].name == "token" || k == 0 || k == |evs| - 1
    {
      if 1 <= k < |evs| - 1 {
        assert evs[k] == Chat.TokenEvents(texts)[k - 1];
      }
    }
  }

  /** The tokens spell the answer's pieces with carriage returns removed. */
  lemma {:induction false} TokenTextsSpellAnswer(pieces: seq<string>)
    ensures Concat(TokenTexts(pieces)) == Remove(Concat(pieces), '\r')
    decreases |pieces|
  {
    if |pieces| > 0 {
      var head := if pieces[0] != "" then [Remove(pieces[0], '\r')] else [];
      TokenTextsSpellAnswer(pieces[1..]);
      RemoveAppend(pieces[0], Concat(pieces[1..]), '\r');
      ConcatAppend(head, TokenTexts(pieces[1..]));
    }
  }

  /** The tokens written are the pieces with carriage returns removed. */
  lemma AnswerEventsSpellAnswer(pieces: seq<string>)
    ensures Concat(Chat.TokenData(AnswerEvents(pieces))) == Remove(Concat(pieces), '\r')
  {
    TokenTextsSpellAnswer(pieces);
  }

  /**
   * Removing carriage returns leaves line feeds as the only threat to the framing: when
   * no piece holds one, a client reads back the events written.
   */
  lemma AnswerEventsReadBack(pieces: seq<string>)
    requires forall k | 0 <= k < |AnswerEvents(pieces)| :: '\n' !in AnswerEvents(pieces)[k].data
    ensures Decode(Wire(AnswerEvents(pieces))) == AnswerEvents(pieces)
  {
    var evs := AnswerEvents(pieces);
    TokenStreamFields(TokenTexts(pieces));
    assert SingleLineEvents(evs) by {
      forall k | 0 <= k < |evs| ensures NoEol(evs[k].data) {
        assert '\n' !in evs[k].data;
      }
    }
    WireRoundTrip(evs);
  }

  /**
   * Framed one data line per payload line, the backup stream always reads back whole:
   * its tokens carry no carriage return, so nothing is left to break the framing.
   */
  lemma AnswerEventsReadBackCorrected(pieces: seq<string>)
    ensures Decode(WireMultiLine(AnswerEvents(pieces))) == AnswerEvents(pieces)
  {
    TokenStreamFields(TokenTexts(pieces));
    WireMultiLineRoundTrip(AnswerEvents(pieces));
  }

  /** A token stream whose texts hold no carriage return has well-named events, and data a line feed alone can break. */
  lemma TokenStreamFields(texts: seq<string>)
    requires forall k | 0 <= k < |texts| :: '\r' !in texts[k]
    ensures var evs := [Chat.TYPING] + Chat.TokenEvents(texts) + [Chat.DONE];
      && LineFeedEvents(evs)
      && forall k | 0 <= k < |evs| :: '\n' !in evs[k].data ==> NoEol(evs[k].data)
  {
    var evs := [Chat.TYPING] + Chat.TokenEvents(texts) + [Chat.DONE];
    assert NoEol("typing") && NoEol("token") && NoEol("done") && NoEol("start") && NoEol("end");
    forall k | 0 <= k < |evs|
      ensures evs[k].name != [] && NoEol(evs[k].name) && '\r' !in evs[k].data
      ensures '\n' !in evs[k].data ==> NoEol(evs[k].data)
    {
      if 1 <= k < |evs| - 1 {
        assert evs[k] == Event("token", texts[k - 1]);
      }
    }
  }

  /**
   * Once the question passes validation and retrieval, the tokens written are exactly the
   * streamed answer, carriage returns removed.
   */
  lemma BackupTokensAreAnswer(documentId: string, q: string, search: Knowledge.Search, env: StreamEnv)
    requires q != "" && search(q, BACKUP_TOP_K, documentId) != []
    ensures var r := BackupChatStream(documentId, q, search, env);
      var pieces := NonEmpty(StreamAnswer(q, search(q, BACKUP_TOP_K, documentId), env));
      && r.EventStream?
      && |Chat.TokenData(r.events)| == |pieces|
      && (forall k | 0 <= k < |pieces| :: Chat.TokenData(r.events)[k] == Remove(pieces[k], '\r'))
      && Concat(Chat.TokenData(r.events)) == Remove(Concat(StreamAnswer(q, search(q, BACKUP_TOP_K, documentId), env)), '\r')
  {
    AnswerEventsSpellAnswer(StreamAnswer(q, search(q, BACKUP_TOP_K, documentId), env));
  }
}

=== FILE: chunk.dfy ===
/**
 * The paragraph chunker (`_split_paragraphs`, `chunk_text`): blank-line splitting,
 * greedy packing of paragraphs up to `chunk_size`, and the overlapping hard split of
 * paragraphs that are longer than `chunk_size`.
 */
module Chunker {
  import opened Wrappers
  import opened Text

  /** One emitted passage, `{"chunk_index": index, "text": text}`. */
  datatype Chunk = Chunk(index: nat, text: string)

  const DEFAULT_CHUNK_SIZE: int := 1200
  const DEFAULT_OVERLAP: int := 200
  const PARAGRAPH_SEPARATOR: string := "\n\n"

  // ---------------------------------------------------------------------------
  // re.split(r"\n\s*\n", text)
  // ---------------------------------------------------------------------------

  /** The last index in `[lo, hi)` holding `'\n'`, if any. */
  function LastNewline(s: string, lo: nat, hi: nat): (r: Option<nat>)
    requires lo <= hi <= |s|
    ensures r.Some? ==> lo <= r.value < hi && s[r.value] == '\n'
    ensures r.None? ==> forall t | lo <= t < hi :: s[t] != '\n'
    decreases hi - lo
  {
    if hi == lo then None
    else if s[hi - 1] == '\n' then Some(hi - 1)
    else LastNewline(s, lo, hi - 1)
  }

  /**
   * The end of the match of `\n\s*\n` that starts at index `i`, if one does. The greedy
   * `\s*` runs to the end of the whitespace run and backs off to its last newline.
   */
  function BlankLineAt(s: string, i: nat): (r: Option<nat>)
    requires i < |s|
    ensures r.Some? ==> i + 2 <= r.value <= |s| && s[i] == '\n' && IsBlank(s[i..r.value])
  {
    if s[i] != '\n' then None
    else
      var runEnd := FirstNonSpace(s, i + 1);
      match LastNewline(s, i + 1, runEnd)
      case None => None
      case Some(j) =>
        assert forall t | i <= t < j + 1 :: IsSpace(s[t]);
        Some(j + 1)
  }

  /** The pieces `re.split` returns for `s[start..]`, scanning for a match from `i` on. */
  function SplitBlankLines(s: string, start: nat, i: nat): (r: seq<string>)
    requires start <= i <= |s|
    ensures |r| >= 1
    decreases |s| - i
  {
    if i == |s| then [s[start..]]
    else
      match BlankLineAt(s, i)
      case Some(e) => [s[start..i]] + SplitBlankLines(s, e, e)
      case None => SplitBlankLines(s, start, i + 1)
  }

  /** `_split_paragraphs(text)`. */
  function Paragraphs(text: string): seq<string> {
    StrippedNonBlank(SplitBlankLines(text, 0, 0))
  }

  // ---------------------------------------------------------------------------
  // Greedy packing and the hard split
  // ---------------------------------------------------------------------------

  /** The state of the packing loop: the chunk texts emitted so far and the buffer `buf`. */
  datatype Packer = Packer(chunks: seq<string>, buf: string)

  /** `max(1, chunk_size - overlap)`. */
  function HardSplitStep(size: int, overlap: int): (step: nat)
    ensures step >= 1
    ensures 0 <= overlap ==> step <= size || step == 1
  {
    if size - overlap > 1 then size - overlap else 1
  }

  /** `len(buf) + len(p) + (2 if buf else 0) <= chunk_size`. */
  predicate Fits(buf: string, p: string, size: int) {
    |buf| + |p| + (if buf != [] then 2 else 0) <= size
  }

  /** The chunks with a non-empty buffer appended (`if buf: chunks.append(buf)`). */
  function Flushed(st: Packer): seq<string> {
    if st.buf != [] then st.chunks + [st.buf] else st.chunks
  }

  /** The windows `p[i:i + chunk_size]` of the hard split of `p`. */
  function HardSplit(p: string, size: int, overlap: int): seq<string> {
    Windows(p, size, HardSplitStep(size, overlap), 0)
  }

  /** One iteration of the packing loop, for paragraph `p`. */
  function Feed(st: Packer, p: string, size: int, overlap: int): Packer {
    if Fits(st.buf, p, size) then
      Packer(st.chunks, if st.buf != [] then st.buf + PARAGRAPH_SEPARATOR + p else p)
    else if |p| > size then
      Packer(Flushed(st) + HardSplit(p, size, overlap), [])
    else
      Packer(Flushed(st), p)
  }

  /** The packing loop after its first `n` paragraphs. */
  function FeedUpTo(paras: seq<string>, size: int, overlap: int, n: nat): Packer
    requires n <= |paras|
    decreases n
  {
    if n == 0 then Packer([], [])
    else Feed(FeedUpTo(paras, size, overlap, n - 1), paras[n - 1], size, overlap)
  }

  /** The chunk texts `chunk_text` emits, before numbering. */
  function ChunkTexts(text: string, size: int, overlap: int): seq<string> {
    if text == [] then [[]]
    else
      var paras := Paragraphs(text);
      Flushed(FeedUpTo(paras, size, overlap, |paras|))
  }

  /** `chunk_text(text, chunk_size, overlap)`: the chunk texts numbered 0..N-1 in emission order. */
  function ChunkText(text: string, size: int, overlap: int): (r: seq<Chunk>)
    ensures |r| == |ChunkTexts(text, size, overlap)|
    ensures forall i | 0 <= i < |r| :: r[i].index == i && r[i].text == ChunkTexts(text, size, overlap)[i]
  {
    var cs := ChunkTexts(text, size, overlap);
    seq(|cs|, i requires 0 <= i < |cs| => Chunk(i, cs[i]))
  }

  // ---------------------------------------------------------------------------
  // Paragraph properties
  // ---------------------------------------------------------------------------

  /** Every paragraph is non-empty and equal to its own strip. */
  lemma ParagraphsAreStripped(text: string)
    ensures forall k | 0 <= k < |Paragraphs(text)| ::
      Paragraphs(text)[k] != [] && Strip(Paragraphs(text)[k]) == Paragraphs(text)[k]
  {
    var ps := Paragraphs(text);
    forall k | 0 <= k < |ps| ensures Strip(ps[k]) == ps[k] {
      StripOfStripped(ps[k]);
    }
  }

  lemma {:induction false} SplitBlankLinesKeepText(s: string, start: nat, i: nat)
    requires start <= i <= |s|
    ensures NonSpace(Concat(SplitBlankLines(s, start, i))) == NonSpace(s[start..])
    decreases |s| - i
  {
    if i < |s| {
      match BlankLineAt(s, i)
      case Some(e) =>
        SplitBlankLinesKeepText(s, e, e);
        CutKeepsText(s, start, i, e, SplitBlankLines(s, e, e));
      case None =>
        SplitBlankLinesKeepText(s, start, i + 1);
    } else {
      assert Concat([s[start..]]) == s[start..];
    }
  }

  /** Splitting into paragraphs loses no non-whitespace character and invents none. */
  lemma ParagraphsKeepText(text: string)
    ensures NonSpace(Concat(Paragraphs(text))) == NonSpace(text)
  {
    SplitBlankLinesKeepText(text, 0, 0);
    StrippedNonBlankKeepText(SplitBlankLines(text, 0, 0));
    assert text[0..] == text;
  }

  /** `p[a]` and `p[b]` are newlines with only whitespace between them: a blank line. */
  predicate BlankLineBetween(p: string, a: nat, b: nat) {
    a < b < |p| && p[a] == '\n' && p[b] == '\n' && IsBlank(p[a + 1..b])
  }

  ghost predicate HasBlankLine(p: string) {
    exists a: nat, b: nat :: BlankLineBetween(p, a, b)
  }

  /** Newlines at `A` and `B` with only whitespace between: the scanner matches at `A`. */
  lemma BlankLineMatched(s: string, A: nat, B: nat)
    requires A < B < |s| && s[A] == '\n' && s[B] == '\n'
    requires forall t | A < t < B :: IsSpace(s[t])
    ensures BlankLineAt(s, A).Some?
  {
    var runEnd := FirstNonSpace(s, A + 1);
    assert B < runEnd;
    assert LastNewline(s, A + 1, runEnd).Some?;
  }

  /** A blank line inside `s[start..end]` would have been matched by the scanner. */
  lemma NoMatchNoBlankLine(s: string, start: nat, end: nat)
    requires start <= end <= |s|
    requires forall t | start <= t < end :: BlankLineAt(s, t).None?
    ensures !HasBlankLine(s[start..end])
  {
    if HasBlankLine(s[start..end]) {
      var a: nat, b: nat :| BlankLineBetween(s[start..end], a, b);
      var A, B := start + a, start + b;
      assert s[A] == '\n' && s[B] == '\n';
      forall t | A < t < B ensures IsSpace(s[t]) {
        var q := s[start..end];
        assert q[a + 1..b][t - A - 1] == q[t - start];
        assert q[t - start] == s[t];
      }
      BlankLineMatched(s, A, B);
      assert false;
    }
  }

  lemma {:induction false} SplitBlankLinesHaveNoBlankLine(s: string, start: nat, i: nat)
    requires start <= i <= |s|
    requires forall t | start <= t < i :: BlankLineAt(s, t).None?
    ensures forall k | 0 <= k < |SplitBlankLines(s, start, i)| :: !HasBlankLine(SplitBlankLines(s, start, i)[k])
    decreases |s| - i
  {
    var r := SplitBlankLines(s, start, i);
    if i == |s| {
      NoMatchNoBlankLine(s, start, |s|);
      assert s[start..|s|] == s[start..];
    } else {
      match BlankLineAt(s, i)
      case Some(e) =>
        NoMatchNoBlankLine(s, start, i);
        SplitBlankLinesHaveNoBlankLine(s, e, e);
        assert forall k | 1 <= k < |r| :: r[k] == SplitBlankLines(s, e, e)[k - 1];
      case None =>
        SplitBlankLinesHaveNoBlankLine(s, start, i + 1);
    }
  }

  /** A blank line of an infix is a blank line of the whole string. */
  lemma LiftBlankLine(p: string, o: nat, e: nat, a: nat, b: nat)
    requires o <= e <= |p| && BlankLineBetween(p[o..e], a, b)
    ensures BlankLineBetween(p, o + a, o + b)
  {
    var q := p[o..e];
    var inner, inner' := p[o + a + 1..o + b], q[a + 1..b];
    assert |inner| == |inner'|;
    forall t | 0 <= t < |inner| ensures inner[t] == inner'[t] {
      assert inner[t] == p[o + a + 1 + t];
      assert inner'[t] == q[a + 1 + t];
    }
    assert inner == inner';
  }

  /** Stripping cannot create a blank line. */
  lemma StripHasNoNewBlankLine(p: string)
    requires !HasBlankLine(p)
    ensures !HasBlankLine(Strip(p))
  {
    var q := Strip(p);
    if HasBlankLine(q) {
      var a: nat, b: nat :| BlankLineBetween(q, a, b);
      LiftBlankLine(p, StripStart(p), StripEnd(p), a, b);
      assert false;
    }
  }

  lemma {:induction false} StrippedNonBlankHaveNoBlankLine(pieces: seq<string>)
    requires forall k | 0 <= k < |pieces| :: !HasBlankLine(pieces[k])
    ensures forall k | 0 <= k < |StrippedNonBlank(pieces)| :: !HasBlankLine(StrippedNonBlank(pieces)[k])
    decreases |pieces|
  {
    if |pieces| > 0 {
      StripHasNoNewBlankLine(pieces[0]);
      StrippedNonBlankHaveNoBlankLine(pieces[1..]);
    }
  }

  /** The split is complete: no paragraph still contains a blank line. */
  lemma ParagraphsHaveNoBlankLine(text: string)
    ensures forall k | 0 <= k < |Paragraphs(text)| :: !HasBlankLine(Paragraphs(text)[k])
  {
    SplitBlankLinesHaveNoBlankLine(text, 0, 0);
    StrippedNonBlankHaveNoBlankLine(SplitBlankLines(text, 0, 0));
  }

  lemma {:induction false} NonBlankParagraphsExist(paras: seq<string>)
    requires forall k | 0 <= k < |paras| :: paras[k] != [] && !IsSpace(paras[k][0])
    requires NonSpace(Concat(paras)) == []
    ensures paras == []
  {
    if |paras| > 0 {
      NonSpaceAppend(paras[0], Concat(paras[1..]));
    }
  }

  /** Whitespace-only text has no paragraph. */
  lemma BlankTextHasNoParagraphs(text: string)
    requires IsBlank(text)
    ensures Paragraphs(text) == []
  {
    ParagraphsKeepText(text);
    NonSpaceOfBlank(text);
    NonBlankParagraphsExist(Paragraphs(text));
  }

  // ---------------------------------------------------------------------------
  // Chunk properties
  // ---------------------------------------------------------------------------

  /** The empty text gives the single sentinel chunk; non-empty whitespace-only text gives none. */
  lemma ChunkTextEdgeCases(text: string, size: int, overlap: int)
    ensures text == [] ==> ChunkText(text, size, overlap) == [Chunk(0, [])]
    ensures text != [] && IsBlank(text) ==> ChunkText(text, size, overlap) == []
  {
    if text != [] && IsBlank(text) {
      BlankTextHasNoParagraphs(text);
    }
  }

  ghost predicate Bounded(cs: seq<string>, size: int) {
    forall i | 0 <= i < |cs| :: 1 <= |cs[i]| <= size
  }

  lemma HardSplitBounded(p: string, size: int, overlap: int)
    requires size >= 1
    ensures Bounded(HardSplit(p, size, overlap), size)
  {
    var step := HardSplitStep(size, overlap);
    var w := HardSplit(p, size, overlap);
    forall k | 0 <= k < |w| ensures 1 <= |w[k]| <= size {
      WindowAt(p, size, step, 0, k);
      SliceLength(p, Times(k, step), size);
    }
  }

  lemma {:induction false} FeedUpToBounded(paras: seq<string>, size: int, overlap: int, n: nat)
    requires size >= 1 && n <= |paras|
    requires forall k | 0 <= k < |paras| :: paras[k] != []
    ensures Bounded(FeedUpTo(paras, size, overlap, n).chunks, size)
    ensures |FeedUpTo(paras, size, overlap, n).buf| <= size
    decreases n
  {
    if n > 0 {
      FeedUpToBounded(paras, size, overlap, n - 1);
      var p := paras[n - 1];
      if !Fits(FeedUpTo(paras, size, overlap, n - 1).buf, p, size) && |p| > size {
        HardSplitBounded(p, size, overlap);
      }
    }
  }

  /** For a positive `chunk_size`, every chunk of a non-empty text is non-empty and at most `chunk_size` long. */
  lemma ChunksAreBounded(text: string, size: int, overlap: int)
    requires size >= 1 && text != []
    ensures forall i | 0 <= i < |ChunkText(text, size, overlap)| ::
      1 <= |ChunkText(text, size, overlap)[i].text| <= size
  {
    var paras := Paragraphs(text);
    FeedUpToBounded(paras, size, overlap, |paras|);
  }

  /** The hard split emits the windows starting at 0, step, 2*step, ... before `len(p)`, and empties the buffer. */
  lemma OversizeParagraphIsHardSplit(st: Packer, p: string, size: int, overlap: int)
    requires |p| > size
    ensures var step := HardSplitStep(size, overlap);
      var st' := Feed(st, p, size, overlap);
      var w := st'.chunks[|Flushed(st)|..];
      && st'.buf == []
      && st'.chunks[..|Flushed(st)|] == Flushed(st)
      && (forall k | 0 <= k < |w| :: k * step < |p| && w[k] == PySlice(p, k * step, k * step + size))
      && |w| * step >= |p|
  {
    WindowsClosedForm(p, size, HardSplitStep(size, overlap), 0);
  }

  /** Window `w` starts at `lo` of `p`, and position `j` falls inside it. */
  predicate WindowCovers(p: string, w: string, lo: nat, j: nat) {
    lo <= j < lo + |w| && OccursAt(p, w, lo)
  }

  /** With a non-negative overlap and a positive size, the windows of the hard split cover every character. */
  lemma HardSplitCovers(p: string, size: int, overlap: int, j: nat)
    requires size >= 1 && overlap >= 0 && j < |p|
    ensures exists m | 0 <= m < |HardSplit(p, size, overlap)| ::
      WindowCovers(p, HardSplit(p, size, overlap)[m], m * HardSplitStep(size, overlap), j)
  {
    var step := HardSplitStep(size, overlap);
    var w := HardSplit(p, size, overlap);
    var m := WindowCovering(p, size, step, 0, j);
    WindowAt(p, size, step, 0, m);
    TimesIsProduct(m, step);
    WindowCoversAt(p, w[m], size, step, m * step, j);
  }

  lemma WindowCoversAt(p: string, w: string, size: int, step: nat, lo: nat, j: nat)
    requires 1 <= step <= size && lo <= j < lo + step && j < |p|
    requires w == PySlice(p, lo, lo + size)
    ensures WindowCovers(p, w, lo, j)
  {
    if lo + size <= |p| {
      assert w == p[lo..lo + size];
    } else {
      assert w == p[lo..];
    }
  }

  // ---------------------------------------------------------------------------
  // Shape and coverage of the packed chunks
  // ---------------------------------------------------------------------------

  /** `c` is paragraphs `a..b-1` (for some `a < b <= n`) joined by a blank line. */
  ghost predicate IsPacked(c: string, paras: seq<string>, n: nat) {
    exists a, b | 0 <= a < b <= n && b <= |paras| :: c == Join(paras[a..b], PARAGRAPH_SEPARATOR)
  }

  /** `c` is a hard-split window of an oversize paragraph among the first `n`. */
  ghost predicate IsWindow(c: string, paras: seq<string>, n: nat, size: int, overlap: int) {
    exists k | 0 <= k < n && k < |paras| :: |paras[k]| > size && c in HardSplit(paras[k], size, overlap)
  }

  /** `p` appears whole in some chunk, or it is oversize and all its windows are chunks. */
  ghost predicate Covered(p: string, chunks: seq<string>, size: int, overlap: int) {
    || (exists j | 0 <= j < |chunks| :: Contains(chunks[j], p))
    || (|p| > size && forall w | w in HardSplit(p, size, overlap) :: w in chunks)
  }

  /** Where the paragraphs held in the buffer start, after `n` paragraphs. */
  ghost function BufStart(paras: seq<string>, size: int, overlap: int, n: nat): nat
    requires n <= |paras|
    decreases n
  {
    if n == 0 then 0
    else
      var st := FeedUpTo(paras, size, overlap, n - 1);
      var p := paras[n - 1];
      if Fits(st.buf, p, size) then (if st.buf == [] then n - 1 else BufStart(paras, size, overlap, n - 1))
      else if |p| > size then n
      else n - 1
  }

  /**
   * The packing loop's invariant for state `st` after `n` paragraphs, with the buffer
   * holding paragraphs `b..n-1`.
   */
  ghost predicate PackInvariantOf(paras: seq<string>, st: Packer, b: nat, n: nat, size: int, overlap: int)
    requires n <= |paras|
  {
    && b <= n
    && (st.buf == [] <==> b == n)
    && (b < n ==> st.buf == Join(paras[b..n], PARAGRAPH_SEPARATOR))
    && (forall i | 0 <= i < |st.chunks| ::
          IsPacked(st.chunks[i], paras, n) || IsWindow(st.chunks[i], paras, n, size, overlap))
    && (forall k | 0 <= k < b :: Covered(paras[k], st.chunks, size, overlap))
  }

  ghost predicate PackInvariant(paras: seq<string>, size: int, overlap: int, n: nat)
    requires n <= |paras|
  {
    PackInvariantOf(paras, FeedUpTo(paras, size, overlap, n), BufStart(paras, size, overlap, n), n, size, overlap)
  }

  lemma CoveredGrows(p: string, chunks: seq<string>, more: seq<string>, size: int, overlap: int)
    requires Covered(p, chunks, size, overlap)
    ensures Covered(p, chunks + more, size, overlap)
  {
    if j :| 0 <= j < |chunks| && Contains(chunks[j], p) {
      assert (chunks + more)[j] == chunks[j];
    }
  }

  /** Flushing a buffer holding paragraphs `b..n-1` covers each of them. */
  lemma FlushCovers(paras: seq<string>, b: nat, n: nat, chunks: seq<string>, size: int, overlap: int, k: nat)
    requires b <= k < n <= |paras|
    requires |chunks| >= 1 && chunks[|chunks| - 1] == Join(paras[b..n], PARAGRAPH_SEPARATOR)
    ensures Covered(paras[k], chunks, size, overlap)
  {
    JoinContainsPart(paras[b..n], PARAGRAPH_SEPARATOR, k - b);
    assert paras[b..n][k - b] == paras[k];
    assert Contains(chunks[|chunks| - 1], paras[k]);
  }

  /** Chunk shapes established after `n - 1` paragraphs still hold after `n`. */
  lemma ShapesGrow(chunks: seq<string>, paras: seq<string>, n: nat, size: int, overlap: int)
    requires 0 < n <= |paras|
    requires forall i | 0 <= i < |chunks| ::
      IsPacked(chunks[i], paras, n - 1) || IsWindow(chunks[i], paras, n - 1, size, overlap)
    ensures forall i | 0 <= i < |chunks| ::
      IsPacked(chunks[i], paras, n) || IsWindow(chunks[i], paras, n, size, overlap)
  {
    forall i | 0 <= i < |chunks|
      ensures IsPacked(chunks[i], paras, n) || IsWindow(chunks[i], paras, n, size, overlap)
    {
      if IsPacked(chunks[i], paras, n - 1) {
        var a, c :| 0 <= a < c <= n - 1 && c <= |paras| && chunks[i] == Join(paras[a..c], PARAGRAPH_SEPARATOR);
      } else {
        var k :| 0 <= k < n - 1 && k < |paras| && |paras[k]| > size && chunks[i] in HardSplit(paras[k], size, overlap);
      }
    }
  }

  /** Paragraph `n - 1` fits in the buffer: it is appended, and no chunk is emitted. */
  lemma FitStep(paras: seq<string>, st: Packer, b: nat, n: nat, size: int, overlap: int)
    requires 0 < n <= |paras|
    requires paras[n - 1] != []
    requires PackInvariantOf(paras, st, b, n - 1, size, overlap)
    requires Fits(st.buf, paras[n - 1], size)
    ensures PackInvariantOf(paras, Feed(st, paras[n - 1], size, overlap), if st.buf == [] then n - 1 else b, n, size, overlap)
  {
    var p := paras[n - 1];
    ShapesGrow(st.chunks, paras, n, size, overlap);
    if st.buf != [] {
      assert paras[b..n] == paras[b..n - 1] + [p];
      JoinSnoc(paras[b..n - 1], PARAGRAPH_SEPARATOR, p);
    } else {
      assert paras[n - 1..n] == [p];
    }
  }

  /** Flushing the buffer (paragraphs `b..n-2`) before `p` keeps every earlier paragraph covered. */
  lemma FlushStepCovers(paras: seq<string>, b: nat, n: nat, st: Packer, size: int, overlap: int)
    requires 0 < n <= |paras| && b <= n - 1
    requires st.buf == [] <==> b == n - 1
    requires b < n - 1 ==> st.buf == Join(paras[b..n - 1], PARAGRAPH_SEPARATOR)
    requires forall k | 0 <= k < b :: Covered(paras[k], st.chunks, size, overlap)
    requires !Fits(st.buf, paras[n - 1], size)
    ensures var cs := Feed(st, paras[n - 1], size, overlap).chunks;
      forall k | 0 <= k < n - 1 :: Covered(paras[k], cs, size, overlap)
    ensures |paras[n - 1]| > size ==> Covered(paras[n - 1], Feed(st, paras[n - 1], size, overlap).chunks, size, overlap)
  {
    var cs := Feed(st, paras[n - 1], size, overlap).chunks;
    var fl := Flushed(st);
    assert cs[..|fl|] == fl;
    assert st.chunks + cs[|st.chunks|..] == cs;
    assert fl + cs[|fl|..] == cs;
    forall k | 0 <= k < n - 1 ensures Covered(paras[k], cs, size, overlap) {
      if k < b {
        CoveredGrows(paras[k], st.chunks, cs[|st.chunks|..], size, overlap);
      } else {
        FlushCovers(paras, b, n - 1, fl, size, overlap, k);
        CoveredGrows(paras[k], fl, cs[|fl|..], size, overlap);
      }
    }
    if |paras[n - 1]| > size {
      assert cs == fl + HardSplit(paras[n - 1], size, overlap);
    }
  }

  /** Flushing the buffer (paragraphs `b..n-2`) before `p` keeps every chunk in one of the two shapes. */
  lemma FlushStepShapes(paras: seq<string>, b: nat, n: nat, st: Packer, size: int, overlap: int)
    requires 0 < n <= |paras| && b <= n - 1
    requires b < n - 1 ==> st.buf == Join(paras[b..n - 1], PARAGRAPH_SEPARATOR)
    requires st.buf != [] ==> b < n - 1
    requires forall i | 0 <= i < |st.chunks| ::
      IsPacked(st.chunks[i], paras, n - 1) || IsWindow(st.chunks[i], paras, n - 1, size, overlap)
    requires !Fits(st.buf, paras[n - 1], size)
    ensures var cs := Feed(st, paras[n - 1], size, overlap).chunks;
      forall i | 0 <= i < |cs| :: IsPacked(cs[i], paras, n) || IsWindow(cs[i], paras, n, size, overlap)
  {
    var p := paras[n - 1];
    var cs := Feed(st, p, size, overlap).chunks;
    var fl := Flushed(st);
    ShapesGrow(st.chunks, paras, n, size, overlap);
    if st.buf != [] {
      assert fl[|fl| - 1] == Join(paras[b..n - 1], PARAGRAPH_SEPARATOR);
      assert IsPacked(fl[|fl| - 1], paras, n);
    }
    forall i | 0 <= i < |cs| ensures IsPacked(cs[i], paras, n) || IsWindow(cs[i], paras, n, size, overlap) {
      if i < |st.chunks| {
        assert cs[i] == st.chunks[i];
      } else if i < |fl| {
        assert cs[i] == st.buf;
      } else {
        assert cs[i] in HardSplit(p, size, overlap);
      }
    }
  }

  /** Paragraph `n - 1` does not fit but is not oversize: the buffer is flushed and `p` starts the next one. */
  lemma FlushStepBuffered(paras: seq<string>, st: Packer, b: nat, n: nat, size: int, overlap: int)
    requires 0 < n <= |paras|
    requires paras[n - 1] != [] && |paras[n - 1]| <= size
    requires PackInvariantOf(paras, st, b, n - 1, size, overlap)
    requires !Fits(st.buf, paras[n - 1], size)
    ensures PackInvariantOf(paras, Feed(st, paras[n - 1], size, overlap), n - 1, n, size, overlap)
  {
    var p := paras[n - 1];
    var st' := Feed(st, p, size, overlap);
    FlushStepCovers(paras, b, n, st, size, overlap);
    FlushStepShapes(paras, b, n, st, size, overlap);
    assert st'.buf == p;
    assert paras[n - 1..n] == [p];
    assert st'.buf == Join(paras[n - 1..n], PARAGRAPH_SEPARATOR);
  }

  /** Paragraph `n - 1` is oversize: the buffer is flushed, `p` is hard split and the buffer is left empty. */
  lemma FlushStepSplit(paras: seq<string>, st: Packer, b: nat, n: nat, size: int, overlap: int)
    requires 0 < n <= |paras|
    requires |paras[n - 1]| > size
    requires PackInvariantOf(paras, st, b, n - 1, size, overlap)
    requires !Fits(st.buf, paras[n - 1], size)
    ensures PackInvariantOf(paras, Feed(st, paras[n - 1], size, overlap), n, n, size, overlap)
  {
    var st' := Feed(st, paras[n - 1], size, overlap);
    var cs := st'.chunks;
    FlushStepCovers(paras, b, n, st, size, overlap);
    FlushStepShapes(paras, b, n, st, size, overlap);
    assert st'.buf == [];
    assert Covered(paras[n - 1], cs, size, overlap);
    forall k | 0 <= k < n ensures Covered(paras[k], cs, size, overlap) {
      if k < n - 1 {
        assert Covered(paras[k], cs, size, overlap);
      }
    }
  }

  lemma {:induction false} PackInvariantHolds(paras: seq<string>, size: int, overlap: int, n: nat)
    requires n <= |paras|
    requires forall k | 0 <= k < |paras| :: paras[k] != []
    ensures PackInvariant(paras, size, overlap, n)
    decreases n
  {
    if n > 0 {
      PackInvariantHolds(paras, size, overlap, n - 1);
      var st := FeedUpTo(paras, size, overlap, n - 1);
      var b := BufStart(paras, size, overlap, n - 1);
      var p := paras[n - 1];
      assert FeedUpTo(paras, size, overlap, n) == Feed(st, p, size, overlap);
      assert PackInvariantOf(paras, st, b, n - 1, size, overlap);
      if Fits(st.buf, p, size) {
        FitStep(paras, st, b, n, size, overlap);
        assert BufStart(paras, size, overlap, n) == if st.buf == [] then n - 1 else b;
      } else if |p| > size {
        FlushStepSplit(paras, st, b, n, size, overlap);
        assert BufStart(paras, size, overlap, n) == n;
      } else {
        FlushStepBuffered(paras, st, b, n, size, overlap);
        assert BufStart(paras, size, overlap, n) == n - 1;
      }
    }
  }

  /**
   * Every chunk of a non-empty text is either consecutive paragraphs joined by a blank line,
   * or a hard-split window of one oversize paragraph.
   */
  lemma ChunkShape(text: string, size: int, overlap: int)
    requires text != []
    ensures var paras := Paragraphs(text);
      forall i | 0 <= i < |ChunkText(text, size, overlap)| ::
        || IsPacked(ChunkText(text, size, overlap)[i].text, paras, |paras|)
        || IsWindow(ChunkText(text, size, overlap)[i].text, paras, |paras|, size, overlap)
  {
    var paras := Paragraphs(text);
    var n := |paras|;
    PackInvariantHolds(paras, size, overlap, n);
    var st := FeedUpTo(paras, size, overlap, n);
    var b := BufStart(paras, size, overlap, n);
    if st.buf != [] {
      assert IsPacked(st.buf, paras, n);
    }
  }

  /** Nothing is dropped: every paragraph lies whole inside a chunk, or is oversize and all its windows are chunks. */
  lemma ChunksCoverParagraphs(text: string, size: int, overlap: int)
    requires text != []
    ensures var paras := Paragraphs(text);
      forall k | 0 <= k < |paras| :: Covered(paras[k], ChunkTexts(text, size, overlap), size, overlap)
  {
    var paras := Paragraphs(text);
    var n := |paras|;
    PackInvariantHolds(paras, size, overlap, n);
    var st := FeedUpTo(paras, size, overlap, n);
    var b := BufStart(paras, size, overlap, n);
    var out := ChunkTexts(text, size, overlap);
    forall k | 0 <= k < n ensures Covered(paras[k], out, size, overlap) {
      if k < b {
        if st.buf != [] {
          CoveredGrows(paras[k], st.chunks, [st.buf], size, overlap);
        }
      } else {
        FlushCovers(paras, b, n, out, size, overlap, k);
      }
    }
  }

  /** Character `j` of paragraph `p` lies in some chunk: `p` is whole inside it, or it is the window at `lo` holding `j`. */
  ghost predicate CharCovered(p: string, j: nat, chunks: seq<string>) {
    exists c | 0 <= c < |chunks| ::
      Contains(chunks[c], p) || exists lo: nat | lo <= j :: WindowCovers(p, chunks[c], lo, j)
  }

  /** A paragraph covered in the sense of `Covered` has each of its characters in a chunk, when the windows overlap or touch. */
  lemma CoveredChars(p: string, chunks: seq<string>, size: int, overlap: int, j: nat)
    requires size >= 1 && overlap >= 0 && j < |p|
    requires Covered(p, chunks, size, overlap)
    ensures CharCovered(p, j, chunks)
  {
    if c :| 0 <= c < |chunks| && Contains(chunks[c], p) {
    } else {
      var w := HardSplit(p, size, overlap);
      HardSplitCovers(p, size, overlap, j);
      var m :| 0 <= m < |w| && WindowCovers(p, w[m], m * HardSplitStep(size, overlap), j);
      assert w[m] in chunks;
      var c :| 0 <= c < |chunks| && chunks[c] == w[m];
      assert WindowCovers(p, chunks[c], m * HardSplitStep(size, overlap), j);
    }
  }

  /**
   * Nothing is dropped, character by character: with a positive size and a non-negative
   * overlap, every character of every paragraph lies in some chunk, inside the paragraph
   * packed whole or inside a window at the character's own offset.
   */
  lemma ChunksCoverCharacters(text: string, size: int, overlap: int)
    requires text != [] && size >= 1 && overlap >= 0
    ensures var paras := Paragraphs(text);
      forall k, j | 0 <= k < |paras| && 0 <= j < |paras[k]| :: CharCovered(paras[k], j, ChunkTexts(text, size, overlap))
  {
    var paras := Paragraphs(text);
    ChunksCoverParagraphs(text, size, overlap);
    forall k, j | 0 <= k < |paras| && 0 <= j < |paras[k]|
      ensures CharCovered(paras[k], j, ChunkTexts(text, size, overlap))
    {
      CoveredChars(paras[k], ChunkTexts(text, size, overlap), size, overlap, j);
    }
  }

  /** With a negative overlap the step exceeds the size and the windows skip characters: `b` of `abc` is in none. */
  lemma NegativeOverlapSkips()
    ensures HardSplit("abc", 1, -1) == ["a", "c"]
  {
    var p := "abc";
    assert HardSplitStep(1, -1) == 2;
    WindowsCons(p, 1, 2, 0);
    WindowsCons(p, 1, 2, 2);
    assert PySlice(p, 0, 1) == "a";
    assert PySlice(p, 2, 3) == "c";
  }

  // ---------------------------------------------------------------------------
  // Two short paragraphs become one chunk
  // ---------------------------------------------------------------------------

  lemma {:induction false} SplitSkipsNewlineFree(s: string, start: nat, i: nat, j: nat)
    requires start <= i <= j <= |s|
    requires forall t | i <= t < j :: s[t] != '\n'
    ensures SplitBlankLines(s, start, i) == SplitBlankLines(s, start, j)
    decreases j - i
  {
    if i < j {
      SplitSkipsNewlineFree(s, start, i + 1, j);
    }
  }

  /** In `p1 + "\n\n" + p2` the scanner matches the separator exactly. */
  lemma SeparatorMatch(p1: string, p2: string)
    requires p1 != [] && p2 != [] && !IsSpace(p2[0])
    ensures BlankLineAt(p1 + PARAGRAPH_SEPARATOR + p2, |p1|) == Some(|p1| + 2)
  {
    var s := p1 + PARAGRAPH_SEPARATOR + p2;
    var i := |p1|;
    assert s[i] == '\n' && s[i + 1] == '\n' && s[i + 2] == p2[0];
    assert FirstNonSpace(s, i + 1) == i + 2;
    assert LastNewline(s, i + 1, i + 2) == Some(i + 1);
  }

  /** Two newline-free paragraphs separated by one blank line are split apart. */
  lemma TwoParagraphsSplit(p1: string, p2: string)
    requires p1 != [] && p2 != []
    requires !IsSpace(p1[0]) && !IsSpace(p1[|p1| - 1]) && !IsSpace(p2[0]) && !IsSpace(p2[|p2| - 1])
    requires '\n' !in p1 && '\n' !in p2
    ensures Paragraphs(p1 + PARAGRAPH_SEPARATOR + p2) == [p1, p2]
  {
    var s := p1 + PARAGRAPH_SEPARATOR + p2;
    var i := |p1|;
    assert s[..i] == p1;
    assert s[i + 2..] == p2;
    SplitSkipsNewlineFree(s, 0, 0, i);
    SeparatorMatch(p1, p2);
    assert SplitBlankLines(s, 0, i) == [p1] + SplitBlankLines(s, i + 2, i + 2);
    SplitSkipsNewlineFree(s, i + 2, i + 2, |s|);
    assert SplitBlankLines(s, 0, 0) == [p1, p2];
    StripOfStripped(p1);
    StripOfStripped(p2);
    assert StrippedNonBlank([p1, p2]) == [p1] + StrippedNonBlank([p2]);
    assert [p1, p2][1..] == [p2];
  }

  /** Two paragraphs whose combined length plus the separator fits give one chunk equal to the input. */
  lemma TwoParagraphsOneChunk(p1: string, p2: string, size: int, overlap: int)
    requires p1 != [] && p2 != []
    requires !IsSpace(p1[0]) && !IsSpace(p1[|p1| - 1]) && !IsSpace(p2[0]) && !IsSpace(p2[|p2| - 1])
    requires '\n' !in p1 && '\n' !in p2
    requires |p1| + |p2| + 2 <= size
    ensures ChunkText(p1 + PARAGRAPH_SEPARATOR + p2, size, overlap) == [Chunk(0, p1 + PARAGRAPH_SEPARATOR + p2)]
  {
    TwoParagraphsSplit(p1, p2);
    var paras := [p1, p2];
    assert FeedUpTo(paras, size, overlap, 1) == Packer([], p1);
    assert FeedUpTo(paras, size, overlap, 2) == Packer([], p1 + PARAGRAPH_SEPARATOR + p2);
  }

  /** "Hello world.\n\nThis is a test." at size 1000 is a single chunk holding the whole text. */
  lemma HelloWorldIsOneChunk()
    ensures ChunkText("Hello world.\n\nThis is a test.", 1000, DEFAULT_OVERLAP)
      == [Chunk(0, "Hello world.\n\nThis is a test.")]
  {
    var p1, p2 := "Hello world.", "This is a test.";
    assert p1 + PARAGRAPH_SEPARATOR + p2 == "Hello world.\n\nThis is a test.";
    TwoParagraphsOneChunk(p1, p2, 1000, DEFAULT_OVERLAP);
  }
}

=== FILE: documents.dfy ===
/**
 * Document ingestion bookkeeping: the guards of `upload_document`, the record it stores
 * and the id/text/metadata batch it indexes, the extension it derives from the file name,
 * and the query and page window of `list_documents`. File writes, text extraction, Mongo
 * and the vector store are parameters or outputs.
 */
module Documents {
  import opened Wrappers
  import opened Text
  import opened Chunker
  import opened VectorStore

  /** The largest declared upload size accepted: 100 MiB. */
  const MAX_UPLOAD_BYTES: nat := 100 * 1024 * 1024

  /** The uploaded file as the endpoint sees it; `size` is `None` when not declared. */
  datatype UploadFile = UploadFile(filename: string, contentType: Option<string>, size: Option<nat>)

  /** The document record inserted in Mongo (storage path and upload time left out). */
  datatype DocumentRecord = DocumentRecord(
    filename: string, ext: string, contentType: Option<string>, size: Option<nat>, chunkCount: nat)

  /** The three parallel lists handed to `add_documents`. */
  datatype IndexBatch = IndexBatch(ids: seq<string>, documents: seq<string>, metadatas: seq<Metadata>)

  /** The outcome of an upload: an HTTP error, or what was stored, indexed and returned. */
  datatype UploadOutcome =
    | Rejected(status: nat, detail: string)
    | Uploaded(record: DocumentRecord, batch: IndexBatch, documentId: string, chunks: nat)

  /** `f"{doc_id}:{i}"`. */
  function ChunkId(documentId: string, i: nat): string {
    documentId + ":" + Decimal(i)
  }

  /** Reads a chunk id back: the part before the last colon, and the number after it. */
  function ParseChunkId(id: string): (r: Option<(string, nat)>) {
    match LastIndex(id, ':')
    case None => None
    case Some(k) =>
      var digits := id[k + 1..];
      if digits != [] && forall i | 0 <= i < |digits| :: '0' <= digits[i] <= '9' then Some((id[..k], ParseDecimal(digits)))
      else None
  }

  /** A chunk id reads back as its document and position, whatever the document id holds. */
  lemma ChunkIdRoundTrip(documentId: string, i: nat)
    ensures ParseChunkId(ChunkId(documentId, i)) == Some((documentId, i))
  {
    var id := ChunkId(documentId, i);
    var digits := Decimal(i);
    assert ':' !in digits;
    assert id == documentId + [':'] + digits;
    LastIndexJoin(documentId, ':', digits);
    assert id[|documentId| + 1..] == digits;
    assert id[..|documentId|] == documentId;
    DecimalRoundTrip(i);
  }

  /** Distinct chunks of distinct documents never share an id. */
  lemma ChunkIdsAreDistinct(d1: string, i1: nat, d2: string, i2: nat)
    requires ChunkId(d1, i1) == ChunkId(d2, i2)
    ensures d1 == d2 && i1 == i2
  {
    ChunkIdRoundTrip(d1, i1);
    ChunkIdRoundTrip(d2, i2);
  }

  /** Some character of `s` is not a dot. */
  predicate HasNonDot(s: string) {
    exists i | 0 <= i < |s| :: s[i] != '.'
  }

  /**
   * `posixpath.splitext`: the extension runs from the last dot of the last path component,
   * unless everything before that dot in the component is dots (a hidden file).
   */
  function SplitExt(p: string): (r: (string, string))
    ensures r.0 + r.1 == p
    ensures r.1 == [] || (r.1[0] == '.' && '.' !in r.1[1..] && '/' !in r.1)
  {
    var nameStart := match LastIndex(p, '/') case Some(s) => s + 1 case None => 0;
    match LastIndex(p, '.')
    case Some(dot) =>
      if dot >= nameStart && HasNonDot(p[nameStart..dot]) then
        assert forall j | 0 <= j < |p[dot..]| :: p[dot..][j] == p[dot + j];
        (p[..dot], p[dot..])
      else (p, [])
    case None => (p, [])
  }

  /** `s.lstrip(c)`. */
  function LStrip(s: string, c: char): (r: string)
    ensures |r| <= |s| && (r == [] || r[0] != c)
    decreases |s|
  {
    if |s| > 0 && s[0] == c then LStrip(s[1..], c) else s
  }

  /** `os.path.splitext(filename)[1].lstrip(".").lower()`. */
  function Extension(filename: string): (e: string)
    ensures '.' !in e && '/' !in e
  {
    var ext := SplitExt(filename).1;
    ExtStripsOneDot(ext);
    Lower(LStrip(ext, '.'))
  }

  /** An extension from `SplitExt` loses exactly its one dot to `lstrip`. */
  lemma ExtStripsOneDot(ext: string)
    requires ext == [] || (ext[0] == '.' && '.' !in ext[1..] && '/' !in ext)
    ensures LStrip(ext, '.') == if ext == [] then [] else ext[1..]
    ensures '.' !in Lower(LStrip(ext, '.')) && '/' !in Lower(LStrip(ext, '.'))
  {
    if ext != [] {
      var rest := ext[1..];
      assert rest == [] || rest[0] in rest;
      assert LStrip(ext, '.') == LStrip(rest, '.') == rest;
      forall i | 0 <= i < |rest|
        ensures LowerChar(rest[i]) != '.' && LowerChar(rest[i]) != '/'
      {
        assert rest[i] in rest && rest[i] == ext[i + 1];
      }
    }
  }

  /** A plain name with an extension: the extension, lower-cased and without its dot. */
  lemma ExtensionOfName(base: string, e: string)
    requires '/' !in base && HasNonDot(base) && '.' !in e && '/' !in e
    ensures Extension(base + "." + e) == Lower(e)
  {
    var p := base + "." + e;
    assert p == base + ['.'] + e;
    LastIndexJoin(base, '.', e);
    assert '/' !in p;
    assert p[0..|base|] == base;
    assert p[|base|..] == "." + e;
    assert LStrip("." + e, '.') == LStrip(e, '.');
  }

  /** A name whose only dot starts it, like `.env`, has no extension. */
  lemma HiddenFileHasNoExtension(name: string)
    requires '.' !in name && '/' !in name
    ensures Extension("." + name) == ""
  {
    var p := "." + name;
    assert forall j | 1 <= j < |p| :: p[j] == name[j - 1];
    assert LastIndex(p, '.') == Some(0);
    assert LastIndex(p, '/') == None;
    assert !HasNonDot(p[0..0]);
  }

  /** `Report.PDF` has the extension `pdf`: the suffix is lower-cased. */
  lemma ExtensionExamples()
    ensures Extension("Report" + "." + "PDF") == "pdf"
  {
    var base, e := "Report", "PDF";
    assert base[0] != '.';
    assert '/' !in base && '.' !in e && '/' !in e;
    ExtensionOfName(base, e);
    assert Lower(e) == "pdf";
  }

  /** The default chunking of `upload_document`. */
  function UploadChunks(text: string): seq<Chunk> {
    ChunkText(text, DEFAULT_CHUNK_SIZE, DEFAULT_OVERLAP)
  }

  /** The batch indexed for a document's chunks: positional ids, texts and metadata. */
  function BatchFor(documentId: string, filename: string, chunks: seq<Chunk>): (b: IndexBatch)
    ensures |b.ids| == |b.documents| == |b.metadatas| == |chunks|
    ensures forall i | 0 <= i < |chunks| ::
      && b.ids[i] == ChunkId(documentId, i)
      && b.documents[i] == chunks[i].text
      && b.metadatas[i] == Metadata(Some(documentId), Some(i), Some(filename))
  {
    IndexBatch(
      seq(|chunks|, i requires 0 <= i < |chunks| => ChunkId(documentId, i)),
      seq(|chunks|, i requires 0 <= i < |chunks| => chunks[i].text),
      seq(|chunks|, i requires 0 <= i < |chunks| => Metadata(Some(documentId), Some(i), Some(filename))))
  }

  /**
   * `upload_document` for the file, the text extracted from it and the id Mongo assigns
   * to the inserted record.
   */
  function Upload(file: UploadFile, extracted: string, insertedId: string): (r: UploadOutcome)
    ensures r == Rejected(413, "File too large") <==> file.size.Some? && file.size.value > MAX_UPLOAD_BYTES
    ensures r == Rejected(400, "No text extracted") <==>
      !(file.size.Some? && file.size.value > MAX_UPLOAD_BYTES) && IsBlank(extracted)
    ensures r.Rejected? || r.Uploaded?
    ensures r.Uploaded? ==>
      && r.documentId == insertedId
      && r.record.chunkCount == r.chunks == |UploadChunks(extracted)|
      && r.record.ext == Extension(file.filename)
      && r.batch == BatchFor(insertedId, file.filename, UploadChunks(extracted))
  {
    if file.size.Some? && file.size.value > MAX_UPLOAD_BYTES then Rejected(413, "File too large")
    else if IsBlank(extracted) then Rejected(400, "No text extracted")
    else
      var chunks := UploadChunks(extracted);
      var record := DocumentRecord(file.filename, Extension(file.filename), file.contentType, file.size, |chunks|);
      Uploaded(record, BatchFor(insertedId, file.filename, chunks), insertedId, |chunks|)
  }

  /** Every indexed chunk points back at its document, position and file. */
  lemma IndexedChunksPointBack(file: UploadFile, extracted: string, insertedId: string, i: nat)
    requires Upload(file, extracted, insertedId).Uploaded?
    requires i < Upload(file, extracted, insertedId).chunks
    ensures var b := Upload(file, extracted, insertedId).batch;
      && ParseChunkId(b.ids[i]) == Some((insertedId, i))
      && b.metadatas[i].documentId == Some(insertedId) && b.metadatas[i].chunkIndex == Some(i)
  {
    ChunkIdRoundTrip(insertedId, i);
  }

  /** Text that is not blank gives at least one chunk. */
  lemma NonBlankTextHasChunks(text: string)
    requires !IsBlank(text)
    ensures |UploadChunks(text)| >= 1
  {
    var paras := Paragraphs(text);
    ParagraphsKeepText(text);
    NonBlankHasNonSpace(text);
    assert paras != [];
    ChunksCoverParagraphs(text, DEFAULT_CHUNK_SIZE, DEFAULT_OVERLAP);
    var cs := ChunkTexts(text, DEFAULT_CHUNK_SIZE, DEFAULT_OVERLAP);
    assert Covered(paras[0], cs, DEFAULT_CHUNK_SIZE, DEFAULT_OVERLAP);
    if |paras[0]| > DEFAULT_CHUNK_SIZE {
      HardSplitCovers(paras[0], DEFAULT_CHUNK_SIZE, DEFAULT_OVERLAP, 0);
    }
  }

  /** The marker `extract_text` returns when a parser raises. */
  function ParseErrorText(message: string): string {
    "[PARSE_ERROR] " + message
  }

  /**
   * A parse failure is not caught by the blank-text guard: its marker is stored and
   * indexed like any extracted text.
   */
  lemma ParseErrorIsIndexed(file: UploadFile, message: string, insertedId: string)
    requires !(file.size.Some? && file.size.value > MAX_UPLOAD_BYTES)
    ensures Upload(file, ParseErrorText(message), insertedId).Uploaded?
    ensures Upload(file, ParseErrorText(message), insertedId).chunks >= 1
  {
    var t := ParseErrorText(message);
    assert t[0] == '[' && !IsSpace(t[0]);
    NonBlankTextHasChunks(t);
  }

  // ---------------------------------------------------------------------------
  // list_documents
  // ---------------------------------------------------------------------------

  /** The query parameters; absent ones are `None`, `page` and `size` default to 1 and 20. */
  datatype ListParams = ListParams(
    search: Option<string>, ext: Option<string>, dateFrom: Option<string>, dateTo: Option<string>,
    page: int, size: int)

  /** An upload time, as `datetime.fromisoformat` yields it. */
  datatype Timestamp = Timestamp(value: int)

  /** `{"$gte": …, "$lte": …}` with the bounds that parsed. */
  datatype DateRange = DateRange(from: Option<Timestamp>, to: Option<Timestamp>)

  /** The Mongo filter: a case-insensitive filename pattern, an extension, an upload-time range. */
  datatype Filter = Filter(filenamePattern: Option<string>, ext: Option<string>, uploadedAt: Option<DateRange>)

  datatype ListQuery = ListQuery(filter: Filter, skip: nat, limit: nat)

  datatype ListOutcome = InvalidParams(status: nat) | Listed(query: ListQuery)

  /** A date bound: present when the parameter is truthy and parses. */
  function Bound(param: Option<string>, parse: string -> Option<Timestamp>): (b: Option<Timestamp>)
    ensures b.Some? <==> Truthy(param) && parse(param.value).Some?
    ensures b.Some? ==> b == parse(param.value)
  {
    if Truthy(param) then parse(param.value) else None
  }

  /** The filter and page window of `list_documents`; `parse` is `datetime.fromisoformat`, `None` where it raises. */
  function ListQueryFor(p: ListParams, parse: string -> Option<Timestamp>): (r: ListOutcome)
    ensures r.InvalidParams? <==> p.page < 1 || p.size < 1 || p.size > 100
    ensures r.InvalidParams? ==> r.status == 422
    ensures r.Listed? ==>
      && (r.query.filter.filenamePattern.Some? <==> Truthy(p.search))
      && (r.query.filter.filenamePattern.Some? ==> r.query.filter.filenamePattern == p.search)
      && (r.query.filter.ext.Some? <==> Truthy(p.ext))
      && (r.query.filter.ext.Some? ==> r.query.filter.ext.value == Lower(p.ext.value))
      && (r.query.filter.uploadedAt.Some? <==> Bound(p.dateFrom, parse).Some? || Bound(p.dateTo, parse).Some?)
      && (r.query.filter.uploadedAt.Some? ==>
            r.query.filter.uploadedAt.value == DateRange(Bound(p.dateFrom, parse), Bound(p.dateTo, parse)))
      && r.query.skip == (p.page - 1) * p.size && r.query.limit == p.size
  {
    if p.page < 1 || p.size < 1 || p.size > 100 then InvalidParams(422)
    else
      var pattern := if Truthy(p.search) then p.search else None;
      var ext := if Truthy(p.ext) then Some(Lower(p.ext.value)) else None;
      var from, to := Bound(p.dateFrom, parse), Bound(p.dateTo, parse);
      var range := if from.Some? || to.Some? then Some(DateRange(from, to)) else None;
      Listed(ListQuery(Filter(pattern, ext, range), (p.page - 1) * p.size, p.size))
  }

  /** The extension filter matches an upload's stored extension whatever the case of either. */
  lemma ExtFilterIsCaseInsensitive(p: ListParams, parse: string -> Option<Timestamp>, base: string, e: string)
    requires ListQueryFor(p, parse).Listed? && Truthy(p.ext) && Lower(p.ext.value) == Lower(e)
    requires '/' !in base && HasNonDot(base) && '.' !in e && '/' !in e
    ensures ListQueryFor(p, parse).query.filter.ext == Some(Extension(base + "." + e))
  {
    ExtensionOfName(base, e);
  }

  function Min(a: nat, b: nat): nat {
    if a <= b then a else b
  }

  /** `.skip(skip).limit(limit)` on the sorted matches. */
  function Window<T>(items: seq<T>, skip: nat, limit: nat): (w: seq<T>)
    ensures |w| <= limit
    ensures skip + limit <= |items| ==> |w| == limit
    ensures forall i | 0 <= i < |w| :: skip + i < |items| && w[i] == items[skip + i]
  {
    items[Min(skip, |items|)..Min(skip + limit, |items|)]
  }

  /** The items of pages `1..n` of `size`, in page order. */
  function FirstPages<T>(items: seq<T>, size: nat, n: nat): (r: seq<T>)
    ensures |r| == Min(n * size, |items|)
  {
    if n == 0 then []
    else
      assert (n - 1) * size + size == n * size;
      FirstPages(items, size, n - 1) + Window(items, (n - 1) * size, size)
  }

  /** Consecutive pages tile the matches: pages `1..n` are the first `n * size` items, no gap, no repeat. */
  lemma {:induction false} PagesTile<T>(items: seq<T>, size: nat, n: nat)
    ensures FirstPages(items, size, n) == items[..Min(n * size, |items|)]
  {
    if n > 0 {
      PagesTile(items, size, n - 1);
      var a := Min((n - 1) * size, |items|);
      var b := Min(n * size, |items|);
      assert (n - 1) * size + size == n * size;
      assert items[..a] + items[a..b] == items[..b];
    }
  }

  /** The response of `list_documents`: the page, its size, the match count and the page's items. */
  datatype ListResponse<T> = ListResponse(page: nat, size: nat, total: nat, items: seq<T>)

  /** `list_documents` over the store's matches for the filter, newest first. */
  function ListDocuments<T>(p: ListParams, parse: string -> Option<Timestamp>, matches: seq<T>): (r: Option<ListResponse<T>>)
    ensures r.None? <==> ListQueryFor(p, parse).InvalidParams?
    ensures r.Some? ==> r.value.total == |matches| && r.value.page == p.page && r.value.size == p.size
    ensures r.Some? ==>
      (r.value.items == FirstPages(matches, p.size as nat, p.page as nat)[Min((p.page - 1) * p.size, |matches|)..])
  {
    match ListQueryFor(p, parse)
    case InvalidParams(_) => None
    case Listed(q) =>
      var items := Window(matches, q.skip, q.limit);
      PageIsLastOfFirstPages(matches, p.size as nat, p.page as nat);
      Some(ListResponse(p.page as nat, p.size as nat, |matches|, items))
  }

  lemma PageIsLastOfFirstPages<T>(items: seq<T>, size: nat, n: nat)
    requires n >= 1
    ensures |FirstPages(items, size, n - 1)| == Min((n - 1) * size, |items|)
    ensures Window(items, (n - 1) * size, size) == FirstPages(items, size, n)[Min((n - 1) * size, |items|)..]
  {
    PagesTile(items, size, n - 1);
  }
}

=== FILE: embed.dfy ===
/**
 * The feature-hashing embedder (`_hash_embed_batch`): lower-case the text, take its
 * `[A-Za-z0-9]+` tokens, and add one to coordinate `adler32(token) mod dim` per token.
 * The integer count vector is modelled; the float L2 normalisation is not, only its
 * zero-norm guard.
 */
module Embedder {
  import opened Wrappers
  import opened Text

  newtype byte = x: int | 0 <= x < 256

  /** `EMBED_DIM`, the dimension the store uses. */
  const EMBED_DIM: nat := 384

  /** BASE of section 2.2 of RFC 1950: the largest prime smaller than 65536. */
  const ADLER_BASE: nat := 65521

  // ---------------------------------------------------------------------------
  // UTF-8 (`tok.encode("utf-8")`)
  // ---------------------------------------------------------------------------

  function Utf8Char(c: char): (r: seq<byte>)
    ensures 1 <= |r| <= 4
    ensures (c as int) < 0x80 ==> r == [c as int as byte]
  {
    var n := c as int;
    if n < 0x80 then [n as byte]
    else if n < 0x800 then [(0xC0 + n / 0x40) as byte, (0x80 + n % 0x40) as byte]
    else if n < 0x1_0000 then
      [(0xE0 + n / 0x1000) as byte, (0x80 + (n / 0x40) % 0x40) as byte, (0x80 + n % 0x40) as byte]
    else
      [(0xF0 + n / 0x4_0000) as byte, (0x80 + (n / 0x1000) % 0x40) as byte,
       (0x80 + (n / 0x40) % 0x40) as byte, (0x80 + n % 0x40) as byte]
  }

  function Utf8(s: string): seq<byte>
    decreases |s|
  {
    if |s| == 0 then [] else Utf8Char(s[0]) + Utf8(s[1..])
  }

  // ---------------------------------------------------------------------------
  // Adler-32 (RFC 1950)
  // ---------------------------------------------------------------------------

  /** D1 + D2 + ... + Dn. */
  function ByteSum(d: seq<byte>): nat
    decreases |d|
  {
    if |d| == 0 then 0 else ByteSum(d[..|d| - 1]) + d[|d| - 1] as nat
  }

  /** (1 + D1) + (1 + D1 + D2) + ... + (1 + D1 + ... + Dn). */
  function RunningSums(d: seq<byte>): nat
    decreases |d|
  {
    if |d| == 0 then 0 else RunningSums(d[..|d| - 1]) + 1 + ByteSum(d)
  }

  /**
   * Adler-32 as defined in section 2.2 of RFC 1950: A = 1 + the byte sum and B = the
   * sum of the successive values of A, both modulo 65521, stored as B * 65536 + A.
   */
  function Adler32(d: seq<byte>): nat {
    (RunningSums(d) % ADLER_BASE) * 65536 + (1 + ByteSum(d)) % ADLER_BASE
  }

  /** Reducing a summand modulo BASE first does not change the sum modulo BASE. */
  lemma ModAdd(x: nat, y: nat)
    ensures (x % ADLER_BASE + y) % ADLER_BASE == (x + y) % ADLER_BASE
  {
    var q := x / ADLER_BASE;
    assert x == q * ADLER_BASE + x % ADLER_BASE;
  }

  /** One byte of the incremental computation, in terms of the reduced sums. */
  lemma AdlerStep(d: seq<byte>, n: nat)
    requires n < |d|
    ensures (1 + ByteSum(d[..n + 1])) % ADLER_BASE == ((1 + ByteSum(d[..n])) % ADLER_BASE + d[n] as nat) % ADLER_BASE
    ensures RunningSums(d[..n + 1]) % ADLER_BASE
         == (RunningSums(d[..n]) % ADLER_BASE + (1 + ByteSum(d[..n + 1])) % ADLER_BASE) % ADLER_BASE
  {
    assert d[..n + 1][..n] == d[..n];
    ModAdd(1 + ByteSum(d[..n]), d[n] as nat);
    var a := (1 + ByteSum(d[..n + 1])) % ADLER_BASE;
    ModAdd(RunningSums(d[..n]), a);
    ModAdd(1 + ByteSum(d[..n + 1]), RunningSums(d[..n]));
  }

  /**
   * The incremental computation of section 9 of RFC 1950 (`update_adler32` started
   * from 1): both sums are reduced modulo BASE after every byte. It computes the
   * checksum of section 2.2, which fits in 32 bits.
   */
  method Adler32Incremental(d: seq<byte>) returns (checksum: nat)
    ensures checksum == Adler32(d)
    ensures checksum < 0x1_0000_0000
  {
    var s1: nat := 1;
    var s2: nat := 0;
    var n := 0;
    while n < |d|
      invariant 0 <= n <= |d|
      invariant s1 == (1 + ByteSum(d[..n])) % ADLER_BASE
      invariant s2 == RunningSums(d[..n]) % ADLER_BASE
    {
      AdlerStep(d, n);
      s1 := (s1 + d[n] as nat) % ADLER_BASE;
      s2 := (s2 + s1) % ADLER_BASE;
      n := n + 1;
    }
    assert d[..n] == d;
    checksum := s2 * 65536 + s1;
  }

  // ---------------------------------------------------------------------------
  // Tokens (`re.findall(r"[A-Za-z0-9]+", text)`)
  // ---------------------------------------------------------------------------

  predicate IsAlnum(c: char) {
    'A' <= c <= 'Z' || 'a' <= c <= 'z' || '0' <= c <= '9'
  }

  predicate NotAlnum(c: char) {
    !IsAlnum(c)
  }

  /** The first index at or after `i` that does not hold an ASCII letter or digit. */
  function AlnumRunEnd(s: string, i: nat): (e: nat)
    requires i <= |s|
    ensures i <= e <= |s|
    ensures forall t | i <= t < e :: IsAlnum(s[t])
    ensures e == |s| || !IsAlnum(s[e])
    decreases |s| - i
  {
    if i == |s| || !IsAlnum(s[i]) then i else AlnumRunEnd(s, i + 1)
  }

  /** The leftmost-longest matches of `[A-Za-z0-9]+`, in order. */
  function Tokens(s: string): (r: seq<string>)
    ensures forall k | 0 <= k < |r| :: r[k] != [] && forall t | 0 <= t < |r[k]| :: IsAlnum(r[k][t])
    decreases |s|
  {
    if |s| == 0 then []
    else if !IsAlnum(s[0]) then Tokens(s[1..])
    else
      var e := AlnumRunEnd(s, 0);
      [s[..e]] + Tokens(s[e..])
  }

  /** The tokens are exactly the non-empty pieces between non-alphanumeric characters: the maximal runs. */
  lemma {:induction false} TokensAreMaximalRuns(s: string)
    ensures Tokens(s) == NonEmpty(SplitOn(s, NotAlnum))
    decreases |s|
  {
    if |s| > 0 {
      if !IsAlnum(s[0]) {
        TokensAreMaximalRuns(s[1..]);
        var rest := SplitOn(s[1..], NotAlnum);
        assert SplitOn(s, NotAlnum) == [[]] + rest;
        assert ([[]] + rest)[1..] == rest;
      } else {
        var e := AlnumRunEnd(s, 0);
        SplitOnRun(s, NotAlnum, e);
        if e < |s| {
          TokensAreMaximalRuns(s[e + 1..]);
          assert s[e..][1..] == s[e + 1..];
        }
        var tail := if e == |s| then [] else SplitOn(s[e + 1..], NotAlnum);
        assert ([s[..e]] + tail)[1..] == tail;
      }
    }
  }

  // ---------------------------------------------------------------------------
  // Count vectors
  // ---------------------------------------------------------------------------

  /** `zlib.adler32(tok.encode("utf-8")) % dim`. */
  function Bucket(tok: string, dim: nat): (h: nat)
    requires dim >= 1
    ensures h < dim
  {
    Adler32(Utf8(tok)) % dim
  }

  /** `v[h] += 1` for each token in turn, starting from the zero vector. */
  function Counts(toks: seq<string>, dim: nat): (v: seq<nat>)
    requires dim >= 1
    ensures |v| == dim
    decreases |toks|
  {
    if |toks| == 0 then seq(dim, _ => 0)
    else
      var v := Counts(toks[..|toks| - 1], dim);
      var h := Bucket(toks[|toks| - 1], dim);
      v[h := v[h] + 1]
  }

  /** The integer vector for one text, before normalisation; `None` stands for the text `""`. */
  function HashEmbed(text: Option<string>, dim: nat): (v: seq<nat>)
    requires dim >= 1
    ensures |v| == dim
  {
    Counts(Tokens(Lower(text.GetOr(""))), dim)
  }

  /** `_hash_embed_batch(texts, dim)` before normalisation: one vector per text, each of length `dim`. */
  function HashEmbedBatch(texts: seq<Option<string>>, dim: nat): (vs: seq<seq<nat>>)
    requires dim >= 1
    ensures |vs| == |texts|
    ensures forall i | 0 <= i < |vs| :: |vs[i]| == dim
  {
    seq(|texts|, i requires 0 <= i < |texts| => HashEmbed(texts[i], dim))
  }

  /** How many of `toks` fall in bucket `b`. */
  function Occurrences(toks: seq<string>, dim: nat, b: nat): nat
    requires dim >= 1
    decreases |toks|
  {
    if |toks| == 0 then 0
    else (if Bucket(toks[0], dim) == b then 1 else 0) + Occurrences(toks[1..], dim, b)
  }

  lemma {:induction false} OccurrencesSnoc(toks: seq<string>, t: string, dim: nat, b: nat)
    requires dim >= 1
    ensures Occurrences(toks + [t], dim, b) == Occurrences(toks, dim, b) + (if Bucket(t, dim) == b then 1 else 0)
    decreases |toks|
  {
    if |toks| > 0 {
      assert (toks + [t])[1..] == toks[1..] + [t];
      OccurrencesSnoc(toks[1..], t, dim, b);
    } else {
      assert ([] + [t])[1..] == [];
    }
  }

  /** Coordinate `b` counts exactly the tokens whose bucket is `b`. */
  lemma {:induction false} CountsAreOccurrences(toks: seq<string>, dim: nat, b: nat)
    requires dim >= 1 && b < dim
    ensures Counts(toks, dim)[b] == Occurrences(toks, dim, b)
    decreases |toks|
  {
    if |toks| > 0 {
      var init := toks[..|toks| - 1];
      CountsAreOccurrences(init, dim, b);
      OccurrencesSnoc(init, toks[|toks| - 1], dim, b);
      assert init + [toks[|toks| - 1]] == toks;
    }
  }

  function SeqSum(v: seq<nat>): nat
    decreases |v|
  {
    if |v| == 0 then 0 else v[0] + SeqSum(v[1..])
  }

  /** The sum of squares `sum(x*x for x in v)`. */
  function NormSquared(v: seq<nat>): nat
    decreases |v|
  {
    if |v| == 0 then 0 else v[0] * v[0] + NormSquared(v[1..])
  }

  lemma {:induction false} SeqSumUpdate(v: seq<nat>, h: nat)
    requires h < |v|
    ensures SeqSum(v[h := v[h] + 1]) == SeqSum(v) + 1
    decreases |v|
  {
    if h > 0 {
      assert v[h := v[h] + 1][1..] == v[1..][h - 1 := v[h] + 1];
      SeqSumUpdate(v[1..], h - 1);
    } else {
      assert v[h := v[h] + 1][1..] == v[1..];
    }
  }

  lemma {:induction false} SeqSumZeros(n: nat)
    ensures SeqSum(seq(n, _ => 0)) == 0
    decreases n
  {
    if n > 0 {
      assert seq(n, _ => 0)[1..] == seq(n - 1, _ => 0);
      SeqSumZeros(n - 1);
    }
  }

  /** The counts add up to the number of tokens. */
  lemma {:induction false} CountsSumToTokenCount(toks: seq<string>, dim: nat)
    requires dim >= 1
    ensures SeqSum(Counts(toks, dim)) == |toks|
    decreases |toks|
  {
    if |toks| == 0 {
      SeqSumZeros(dim);
    } else {
      CountsSumToTokenCount(toks[..|toks| - 1], dim);
      SeqSumUpdate(Counts(toks[..|toks| - 1], dim), Bucket(toks[|toks| - 1], dim));
    }
  }

  lemma {:induction false} NormSquaredZero(v: seq<nat>)
    ensures NormSquared(v) == 0 <==> SeqSum(v) == 0
    ensures NormSquared(v) >= SeqSum(v)
    decreases |v|
  {
    if |v| > 0 {
      NormSquaredZero(v[1..]);
      assert v[0] * v[0] >= v[0];
    }
  }

  /**
   * The `or 1.0` guard: a text without tokens gives the all-zero vector, whose squared
   * norm is 0 (so the divisor is 1.0 and the vector stays zero); a text with tokens
   * has a squared norm of at least 1, so the division is by a non-zero norm.
   */
  lemma ZeroNormGuard(text: Option<string>, dim: nat)
    requires dim >= 1
    ensures var toks := Tokens(Lower(text.GetOr("")));
      var v := HashEmbed(text, dim);
      && (toks == [] ==> NormSquared(v) == 0 && forall i | 0 <= i < dim :: v[i] == 0)
      && (toks != [] ==> NormSquared(v) >= |toks| >= 1)
  {
    var toks := Tokens(Lower(text.GetOr("")));
    var v := HashEmbed(text, dim);
    CountsSumToTokenCount(toks, dim);
    NormSquaredZero(v);
    if toks == [] {
      assert v == seq(dim, _ => 0);
    }
  }

  /** Each token adds exactly one to the coordinate of its bucket. */
  lemma EmbedCountsTokens(text: Option<string>, dim: nat, b: nat)
    requires dim >= 1 && b < dim
    ensures HashEmbed(text, dim)[b] == Occurrences(Tokens(Lower(text.GetOr(""))), dim, b)
    ensures SeqSum(HashEmbed(text, dim)) == |Tokens(Lower(text.GetOr("")))|
  {
    CountsAreOccurrences(Tokens(Lower(text.GetOr(""))), dim, b);
    CountsSumToTokenCount(Tokens(Lower(text.GetOr(""))), dim);
  }

  /** A text's vector does not depend on the rest of the batch or on its position in it. */
  lemma BatchIsPerText(texts1: seq<Option<string>>, texts2: seq<Option<string>>, dim: nat, i: nat, j: nat)
    requires dim >= 1 && i < |texts1| && j < |texts2| && texts1[i] == texts2[j]
    ensures HashEmbedBatch(texts1, dim)[i] == HashEmbedBatch(texts2, dim)[j]
  {
  }

  /** `None` and the empty text embed alike, to the zero vector. */
  lemma NoneIsEmptyText(dim: nat)
    requires dim >= 1
    ensures HashEmbed(None, dim) == HashEmbed(Some(""), dim) == seq(dim, _ => 0)
  {
  }
}

=== FILE: knowledge.dfy ===
/**
 * The knowledge endpoints: answer shaping (`_shape_answer`), the grounded `ask`
 * (retrieval, deduplication, numbered context, prompt, sources) and `summarize`.
 */
module Knowledge {
  import opened Wrappers
  import opened Text
  import opened VectorStore
  import opened Llm

  // ---------------------------------------------------------------------------
  // _shape_answer
  // ---------------------------------------------------------------------------

  /** The `format` field: "plain", "one_line", "lines" or "text". */
  datatype Format = Plain | OneLine | Lines | AsText

  /** A shaped answer: a string, the list the "lines" format returns, or JSON null. */
  datatype Shaped = Str(s: string) | LineList(lines: seq<string>) | Null

  /**
   * `re.sub(r"\s*\n+\s*", " ", s)`. A match can only start at the beginning of a
   * maximal whitespace run and, when the run holds a `'\n'`, it spans the whole run;
   * so every maximal whitespace run that holds a `'\n'` becomes one space and the
   * others stay as they are.
   */
  function CollapseNewlineRuns(s: string): (r: string)
    ensures '\n' !in r
    decreases |s|
  {
    if |s| == 0 then []
    else if !IsSpace(s[0]) then
      LineBreakIsSpace('\n');
      [s[0]] + CollapseNewlineRuns(s[1..])
    else
      var e := FirstNonSpace(s, 0);
      (if '\n' in s[..e] then " " else s[..e]) + CollapseNewlineRuns(s[e..])
  }

  /** The "one_line" shape: collapse, then strip. */
  function OneLineText(s: string): (r: string)
    ensures '\n' !in r
    ensures r == [] || (!IsSpace(r[0]) && !IsSpace(r[|r| - 1]))
  {
    var c := CollapseNewlineRuns(s);
    var r := Strip(c);
    assert forall k | 0 <= k < |r| :: r[k] == c[StripStart(c) + k];
    r
  }

  /** Text without a `'\n'` is left as it is: whitespace runs without a newline are untouched. */
  lemma {:induction false} CollapseWithoutNewline(s: string)
    requires '\n' !in s
    ensures CollapseNewlineRuns(s) == s
    decreases |s|
  {
    if |s| > 0 {
      if !IsSpace(s[0]) {
        CollapseWithoutNewline(s[1..]);
      } else {
        var e := FirstNonSpace(s, 0);
        assert '\n' !in s[..e];
        assert '\n' !in s[e..];
        CollapseWithoutNewline(s[e..]);
        assert s[..e] + s[e..] == s;
      }
    }
  }

  /** A run of whitespace from `i` that ends at `|s|` or at a non-whitespace character is the one `FirstNonSpace` finds. */
  lemma FirstNonSpaceAt(s: string, i: nat, k: nat)
    requires i <= k <= |s|
    requires forall j | i <= j < k :: IsSpace(s[j])
    requires k == |s| || !IsSpace(s[k])
    ensures FirstNonSpace(s, i) == k
  {
  }

  /** What collapsing makes of one maximal whitespace run. */
  function RunImage(w: string): string {
    if '\n' in w then " " else w
  }

  /** A text that starts with a whitespace run collapses that run, then the rest. */
  lemma CollapseLeadingRun(w: string, b: string)
    requires w != [] && IsBlank(w)
    requires b == [] || !IsSpace(b[0])
    ensures CollapseNewlineRuns(w + b) == RunImage(w) + CollapseNewlineRuns(b)
  {
    var s := w + b;
    assert forall j | 0 <= j < |w| :: s[j] == w[j];
    assert |w| < |s| ==> s[|w|] == b[0];
    FirstNonSpaceAt(s, 0, |w|);
    assert s[..|w|] == w && s[|w|..] == b;
  }

  /** Unfolding the collapse of a text that starts with a non-whitespace character. */
  lemma CollapseUnfoldChar(s: string)
    requires |s| > 0 && !IsSpace(s[0])
    ensures CollapseNewlineRuns(s) == [s[0]] + CollapseNewlineRuns(s[1..])
  {
  }

  /** Unfolding the collapse of a text that starts with whitespace up to `e`. */
  lemma CollapseUnfoldRun(s: string, e: nat)
    requires 0 < e < |s| && (forall j | 0 <= j < e :: IsSpace(s[j])) && !IsSpace(s[e])
    ensures CollapseNewlineRuns(s) == RunImage(s[..e]) + CollapseNewlineRuns(s[e..])
  {
    FirstNonSpaceAt(s, 0, e);
  }

  /** Dropping or taking at most `|a|` characters of `a + c` only touches `a`. */
  lemma SliceOfAppend(a: string, c: string, k: nat)
    requires k <= |a|
    ensures (a + c)[k..] == a[k..] + c
    ensures (a + c)[..k] == a[..k]
  {
  }

  lemma AppendAssoc(p: string, x: string, y: string)
    ensures p + (x + y) == p + x + y
  {
  }

  /** The inductive step past a leading non-whitespace character, for any tail `t` collapsing to `ct` after `a[1..]`. */
  lemma CollapseCharStep(a: string, t: string, ct: string)
    requires |a| > 0 && !IsSpace(a[0])
    requires CollapseNewlineRuns(a[1..] + t) == CollapseNewlineRuns(a[1..]) + ct
    ensures CollapseNewlineRuns(a + t) == CollapseNewlineRuns(a) + ct
  {
    var s := a + t;
    assert s[0] == a[0];
    SliceOfAppend(a, t, 1);
    CollapseUnfoldChar(s);
    CollapseUnfoldChar(a);
    AppendAssoc([a[0]], CollapseNewlineRuns(a[1..]), ct);
  }

  /** The inductive step past a leading whitespace run `a[..e]`. */
  lemma CollapseRunStep(a: string, t: string, ct: string, e: nat)
    requires 0 < e < |a| && (forall j | 0 <= j < e :: IsSpace(a[j])) && !IsSpace(a[e])
    requires CollapseNewlineRuns(a[e..] + t) == CollapseNewlineRuns(a[e..]) + ct
    ensures CollapseNewlineRuns(a + t) == CollapseNewlineRuns(a) + ct
  {
    var s := a + t;
    assert forall j | 0 <= j <= e :: s[j] == a[j];
    SliceOfAppend(a, t, e);
    CollapseUnfoldRun(s, e);
    CollapseUnfoldRun(a, e);
    AppendAssoc(RunImage(a[..e]), CollapseNewlineRuns(a[e..]), ct);
  }

  /** `CollapseAroundRun`, with the run and the rest taken together as one tail. */
  lemma {:induction false} CollapseBeforeRun(a: string, w: string, b: string)
    requires w != [] && IsBlank(w)
    requires a == [] || !IsSpace(a[|a| - 1])
    requires b == [] || !IsSpace(b[0])
    ensures CollapseNewlineRuns(a + (w + b)) == CollapseNewlineRuns(a) + (RunImage(w) + CollapseNewlineRuns(b))
    decreases |a|
  {
    if |a| == 0 {
      assert a + (w + b) == w + b;
      CollapseLeadingRun(w, b);
    } else if !IsSpace(a[0]) {
      var tail := a[1..];
      assert tail == [] || tail[|tail| - 1] == a[|a| - 1];
      CollapseBeforeRun(tail, w, b);
      CollapseCharStep(a, w + b, RunImage(w) + CollapseNewlineRuns(b));
    } else {
      var e := FirstNonSpace(a, 0);
      var rest := a[e..];
      assert e < |a|;
      assert rest[|rest| - 1] == a[|a| - 1];
      CollapseBeforeRun(rest, w, b);
      CollapseRunStep(a, w + b, RunImage(w) + CollapseNewlineRuns(b), e);
    }
  }

  /**
   * Collapsing works run by run: a whitespace run `w` between non-whitespace characters
   * (or the ends of the text) becomes one space when it holds a `'\n'` and stays as it is
   * otherwise, and the text on either side is collapsed on its own.
   */
  lemma CollapseAroundRun(a: string, w: string, b: string)
    requires w != [] && IsBlank(w)
    requires a == [] || !IsSpace(a[|a| - 1])
    requires b == [] || !IsSpace(b[0])
    ensures CollapseNewlineRuns(a + w + b) == CollapseNewlineRuns(a) + RunImage(w) + CollapseNewlineRuns(b)
  {
    CollapseBeforeRun(a, w, b);
    AppendAssoc(a, w, b);
    AppendAssoc(CollapseNewlineRuns(a), RunImage(w), CollapseNewlineRuns(b));
  }

  /** `"a  b\nc"` keeps its double space, and the newline becomes one space. */
  lemma CollapseExample()
    ensures CollapseNewlineRuns("a" + "  " + ("b" + "\n" + "c")) == "a" + "  " + ("b" + " " + "c")
  {
    var a, b, c, tail := "a", "b", "c", "b" + "\n" + "c";
    CollapseWithoutNewline(a);
    CollapseWithoutNewline(b);
    CollapseWithoutNewline(c);
    assert RunImage("\n") == " " && RunImage("  ") == "  ";
    CollapseAroundRun(b, "\n", c);
    assert tail[0] == 'b';
    CollapseAroundRun(a, "  ", tail);
  }

  /** Collapsing changes whitespace only. */
  lemma {:induction false} CollapseKeepsNonSpace(s: string)
    ensures NonSpace(CollapseNewlineRuns(s)) == NonSpace(s)
    decreases |s|
  {
    if |s| > 0 {
      if !IsSpace(s[0]) {
        CollapseKeepsNonSpace(s[1..]);
        assert CollapseNewlineRuns(s) == [s[0]] + CollapseNewlineRuns(s[1..]);
        HeadKeepsNonSpace(s, CollapseNewlineRuns(s[1..]));
      } else {
        var e := FirstNonSpace(s, 0);
        var run := if '\n' in s[..e] then " " else s[..e];
        CollapseKeepsNonSpace(s[e..]);
        assert CollapseNewlineRuns(s) == run + CollapseNewlineRuns(s[e..]);
        assert IsBlank(s[..e]);
        RunKeepsNonSpace(s, e, run, CollapseNewlineRuns(s[e..]));
      }
    }
  }

  /** A kept first character followed by a text with the rest's non-whitespace. */
  lemma HeadKeepsNonSpace(s: string, c: string)
    requires |s| > 0 && NonSpace(c) == NonSpace(s[1..])
    ensures NonSpace([s[0]] + c) == NonSpace(s)
  {
    NonSpaceCongruence([s[0]], [s[0]], c, s[1..]);
    assert [s[0]] + s[1..] == s;
  }

  /** A blank prefix replaced by one space, or kept, followed by a text with the rest's non-whitespace. */
  lemma RunKeepsNonSpace(s: string, e: nat, run: string, c: string)
    requires e <= |s| && IsBlank(s[..e]) && (run == " " || run == s[..e])
    requires NonSpace(c) == NonSpace(s[e..])
    ensures NonSpace(run + c) == NonSpace(s)
  {
    NonSpaceOfBlank(s[..e]);
    assert IsBlank(" ");
    NonSpaceOfBlank(" ");
    NonSpaceCongruence(run, s[..e], c, s[e..]);
    assert s[..e] + s[e..] == s;
  }

  /** The "one_line" shape keeps every non-whitespace character, in order, and on newline-free text it is `strip`. */
  lemma OneLineKeepsText(s: string)
    ensures NonSpace(OneLineText(s)) == NonSpace(s)
    ensures '\n' !in s ==> OneLineText(s) == Strip(s)
  {
    CollapseKeepsNonSpace(s);
    StripKeepsNonSpace(CollapseNewlineRuns(s));
    if '\n' !in s {
      CollapseWithoutNewline(s);
    }
  }

  /** A newline with its surrounding spaces becomes one space. */
  lemma OneLineExample()
    ensures OneLineText("a \n b") == "a b"
  {
    assert FirstNonSpace(" \n b", 0) == 3;
    assert (" \n b")[..3] == " \n ";
    assert CollapseNewlineRuns("b") == "b";
    assert CollapseNewlineRuns(" \n b") == " b";
    assert CollapseNewlineRuns("a \n b") == "a b";
    assert StripStart("a b") == 0;
    assert StripEnd("a b") == 3;
  }

  /** The first index at or after `i` holding a line boundary character, or `|s|`. */
  function FirstLineBreak(s: string, i: nat): (k: nat)
    requires i <= |s|
    ensures i <= k <= |s|
    ensures forall j | i <= j < k :: !IsLineBreak(s[j])
    ensures k == |s| || IsLineBreak(s[k])
    decreases |s| - i
  {
    if i == |s| || IsLineBreak(s[i]) then i else FirstLineBreak(s, i + 1)
  }

  /** `s` holds no line boundary character. */
  predicate OnOneLine(s: string) {
    forall j | 0 <= j < |s| :: !IsLineBreak(s[j])
  }

  /** How many characters the line boundary at `e` takes: two for `"\r\n"`, otherwise one. */
  function BreakWidth(s: string, e: nat): (w: nat)
    requires e < |s|
    ensures 1 <= w <= 2 && e + w <= |s|
  {
    if s[e] == '\r' && e + 1 < |s| && s[e + 1] == '\n' then 2 else 1
  }

  /**
   * Python's `s.splitlines()`: the lines between line boundaries, `"\r\n"` counting
   * as one boundary, and no empty last line after a final boundary.
   */
  function SplitLines(s: string): (r: seq<string>)
    ensures forall k | 0 <= k < |r| :: OnOneLine(r[k])
    decreases |s|
  {
    if |s| == 0 then []
    else
      var e := FirstLineBreak(s, 0);
      if e == |s| then [s]
      else [s[..e]] + SplitLines(s[e + BreakWidth(s, e)..])
  }

  /** A line boundary holds whitespace only. */
  lemma BoundaryIsBlank(s: string, e: nat)
    requires e < |s| && IsLineBreak(s[e])
    ensures IsBlank(s[e..e + BreakWidth(s, e)])
  {
    var brk := s[e..e + BreakWidth(s, e)];
    forall j | 0 <= j < |brk| ensures IsSpace(brk[j]) {
      LineBreakIsSpace(brk[j]);
    }
  }

  /** The lines hold every character of the text except the line boundaries. */
  lemma {:induction false} SplitLinesKeepText(s: string)
    ensures NonSpace(Concat(SplitLines(s))) == NonSpace(s)
    decreases |s|
  {
    if |s| > 0 {
      var e := FirstLineBreak(s, 0);
      if e == |s| {
        assert Concat([s]) == s;
      } else {
        var next := e + BreakWidth(s, e);
        assert SplitLines(s) == [s[..e]] + SplitLines(s[next..]);
        SplitLinesKeepText(s[next..]);
        BoundaryIsBlank(s, e);
        CutKeepsText(s, 0, e, next, SplitLines(s[next..]));
        assert s[0..e] == s[..e] && s[0..] == s;
      }
    }
  }

  /** The "lines" shape: `[ln.strip() for ln in text.splitlines() if ln.strip()]`. */
  function LinesOf(s: string): (r: seq<string>)
    ensures forall k | 0 <= k < |r| :: OnOneLine(r[k]) && r[k] != []
    ensures forall k | 0 <= k < |r| :: !IsSpace(r[k][0]) && !IsSpace(r[k][|r[k]| - 1])
  {
    StrippedNonBlankOnOneLine(SplitLines(s));
    StrippedNonBlank(SplitLines(s))
  }

  /** Stripped non-blank pieces keep the line-boundary-free property of the pieces. */
  lemma {:induction false} StrippedNonBlankOnOneLine(pieces: seq<string>)
    requires forall k | 0 <= k < |pieces| :: OnOneLine(pieces[k])
    ensures forall k | 0 <= k < |StrippedNonBlank(pieces)| :: OnOneLine(StrippedNonBlank(pieces)[k])
    decreases |pieces|
  {
    if |pieces| > 0 {
      StrippedNonBlankOnOneLine(pieces[1..]);
      var p := pieces[0];
      var r := StrippedNonBlank(pieces);
      var tail := StrippedNonBlank(pieces[1..]);
      if Strip(p) != [] {
        assert r == [Strip(p)] + tail;
        assert OnOneLine(p);
        assert OnOneLine(Strip(p)) by {
          forall j | 0 <= j < |Strip(p)| ensures !IsLineBreak(Strip(p)[j]) {
            assert Strip(p)[j] == p[StripStart(p) + j];
          }
        }
        forall k | 0 <= k < |r| ensures OnOneLine(r[k]) {
          if k > 0 {
            assert r[k] == tail[k - 1];
          }
        }
      } else {
        assert r == tail;
      }
    }
  }

  /**
   * The "lines" shape: every element is non-empty, its own strip and free of line
   * boundaries, and together the elements keep every non-whitespace character of the
   * text, in order.
   */
  lemma LinesShape(s: string)
    ensures var r := LinesOf(s);
      && (forall k | 0 <= k < |r| :: r[k] != [] && Strip(r[k]) == r[k])
      && (forall k | 0 <= k < |r| :: OnOneLine(r[k]))
      && NonSpace(Concat(r)) == NonSpace(s)
  {
    var r := LinesOf(s);
    forall k | 0 <= k < |r| ensures Strip(r[k]) == r[k] {
      StripOfStripped(r[k]);
    }
    StrippedNonBlankOnOneLine(SplitLines(s));
    StrippedNonBlankKeepText(SplitLines(s));
    SplitLinesKeepText(s);
  }

  /** Text on one line gives one element, its strip, unless it is blank. */
  lemma SingleLine(s: string)
    requires OnOneLine(s)
    ensures LinesOf(s) == if IsBlank(s) then [] else [Strip(s)]
  {
    if |s| > 0 {
      assert SplitLines(s) == [s];
      assert StrippedNonBlank([s]) == (if Strip(s) == [] then [] else [Strip(s)]) + StrippedNonBlank([]);
    }
  }

  /**
   * `brk` is one whole line boundary in front of `next`: `"\r\n"`, or a single boundary
   * character that is not a `'\r'` which `next` would extend to `"\r\n"`.
   */
  predicate IsBoundary(brk: string, next: string) {
    || brk == "\r\n"
    || (|brk| == 1 && IsLineBreak(brk[0]) && !(brk[0] == '\r' && next != [] && next[0] == '\n'))
  }

  /** A stretch from `i` free of boundaries that ends at `|s|` or at a boundary is the one `FirstLineBreak` finds. */
  lemma FirstLineBreakAt(s: string, i: nat, k: nat)
    requires i <= k <= |s|
    requires forall j | i <= j < k :: !IsLineBreak(s[j])
    requires k == |s| || IsLineBreak(s[k])
    ensures FirstLineBreak(s, i) == k
  {
  }

  /** Unfolding `splitlines` at its first boundary `e`, of width `w`. */
  lemma SplitLinesUnfold(s: string, e: nat, w: nat)
    requires e < |s| && (forall j | 0 <= j < e :: !IsLineBreak(s[j])) && IsLineBreak(s[e])
    requires BreakWidth(s, e) == w
    ensures SplitLines(s) == [s[..e]] + SplitLines(s[e + w..])
  {
    FirstLineBreakAt(s, 0, e);
  }

  /** A whole boundary after `a` is read with its own width. */
  lemma BoundaryWidth(a: string, brk: string, b: string)
    requires IsBoundary(brk, b)
    ensures |a| < |a + (brk + b)| && IsLineBreak((a + (brk + b))[|a|])
    ensures BreakWidth(a + (brk + b), |a|) == |brk|
  {
    var s := a + (brk + b);
    var e := |a|;
    assert s[e] == brk[0];
    if brk == "\r\n" {
      assert s[e + 1] == '\n';
    } else if e + 1 < |s| {
      assert s[e + 1] == b[0];
    }
  }

  /** `splitlines` ends the first line at the first boundary and goes on after it. */
  lemma SplitLinesAtBoundary(a: string, brk: string, b: string)
    requires OnOneLine(a) && IsBoundary(brk, b)
    ensures SplitLines(a + (brk + b)) == [a] + SplitLines(b)
  {
    var s := a + (brk + b);
    assert forall j | 0 <= j < |a| :: s[j] == a[j];
    BoundaryWidth(a, brk, b);
    SplitLinesUnfold(s, |a|, |brk|);
    DropPrefix(a, brk + b);
    AppendAssoc(a, brk, b);
    DropPrefix(a + brk, b);
  }

  /** A concatenation cut at the length of its first part gives back both parts. */
  lemma DropPrefix(p: string, c: string)
    ensures (p + c)[..|p|] == p && (p + c)[|p|..] == c
  {
  }

  /** Stripping and dropping blanks works piece by piece. */
  lemma StrippedNonBlankCons(p: string, rest: seq<string>)
    ensures StrippedNonBlank([p] + rest) == StrippedNonBlank([p]) + StrippedNonBlank(rest)
  {
    assert ([p] + rest)[1..] == rest;
    assert [p][1..] == [];
  }

  /**
   * The "lines" shape works line by line: a line `a` followed by a boundary gives its
   * stripped text (nothing if blank), then the lines of the rest. With `SingleLine`, this
   * determines `LinesOf` on every text: one element per non-blank line, in order.
   */
  lemma LinesOfAtBoundary(a: string, brk: string, b: string)
    requires OnOneLine(a) && IsBoundary(brk, b)
    ensures LinesOf(a + brk + b) == LinesOf(a) + LinesOf(b)
  {
    AppendAssoc(a, brk, b);
    SplitLinesAtBoundary(a, brk, b);
    StrippedNonBlankCons(a, SplitLines(b));
    SingleLine(a);
    if a != [] {
      assert SplitLines(a) == [a];
    }
  }

  /** Two stripped, non-blank lines joined by a newline give exactly those two lines. */
  lemma TwoLines(a: string, b: string)
    requires OnOneLine(a) && OnOneLine(b) && a != [] && b != []
    requires !IsSpace(a[0]) && !IsSpace(a[|a| - 1]) && !IsSpace(b[0]) && !IsSpace(b[|b| - 1])
    ensures LinesOf(a + "\n" + b) == [a, b]
  {
    assert IsLineBreak("\n"[0]);
    assert IsBoundary("\n", b);
    LinesOfAtBoundary(a, "\n", b);
    assert !IsBlank(a) && !IsBlank(b);
    SingleLine(a);
    SingleLine(b);
    StripOfStripped(a);
    StripOfStripped(b);
  }

  /** `"a\nb"` gives two lines. */
  lemma LinesExample()
    ensures LinesOf("a" + "\n" + "b") == ["a", "b"]
  {
    assert !IsSpace('a') && !IsSpace('b') && !IsLineBreak('a') && !IsLineBreak('b');
    TwoLines("a", "b");
  }

  /** `_shape_answer(text, fmt)`; "plain" and "text" return the text unchanged. */
  function ShapeAnswer(text: string, fmt: Format): (r: Shaped)
    ensures fmt == OneLine ==> r.Str? && '\n' !in r.s && NonSpace(r.s) == NonSpace(text)
    ensures fmt == Lines ==> r.LineList? && NonSpace(Concat(r.lines)) == NonSpace(text)
    ensures fmt == Plain || fmt == AsText ==> r == Str(text)
  {
    match fmt
    case OneLine => OneLineKeepsText(text); Str(OneLineText(text))
    case Lines => LinesShape(text); LineList(LinesOf(text))
    case _ => Str(text)
  }

  // ---------------------------------------------------------------------------
  // ask: deduplication
  // ---------------------------------------------------------------------------

  /** `(h.get("text") or "").strip().lower()`. */
  function NormKey(h: Hit): string {
    Lower(Strip(TextOf(h)))
  }

  /** The dedup key of every hit, in order. */
  function Keys(raw: seq<Hit>): (ks: seq<string>)
    ensures |ks| == |raw|
  {
    seq(|raw|, i requires 0 <= i < |raw| => NormKey(raw[i]))
  }

  /** Key `i` is kept by the scan: it is non-empty and no earlier key equals it. */
  predicate IsFirst(keys: seq<string>, i: nat)
    requires i < |keys|
  {
    keys[i] != "" && forall j | 0 <= j < i :: keys[j] != keys[i]
  }

  /** The positions among the first `n` keys that are first occurrences, in increasing order. */
  function FirstIndices(keys: seq<string>, n: nat): (r: seq<nat>)
    requires n <= |keys|
    ensures forall k | 0 <= k < |r| :: r[k] < n && IsFirst(keys, r[k])
    ensures forall a, b | 0 <= a < b < |r| :: r[a] < r[b]
    ensures forall i | 0 <= i < n && IsFirst(keys, i) :: i in r
    decreases n
  {
    if n == 0 then []
    else
      var r := FirstIndices(keys, n - 1);
      if IsFirst(keys, n - 1) then r + [n - 1] else r
  }

  /**
   * The first occurrences among the first `n` hits, `keys` holding the key of each hit:
   * the order-preserving subsequence the scan keeps.
   */
  function Firsts(raw: seq<Hit>, keys: seq<string>, n: nat): seq<Hit>
    requires n <= |raw| == |keys|
    decreases n
  {
    if n == 0 then []
    else
      var r := Firsts(raw, keys, n - 1);
      if IsFirst(keys, n - 1) then r + [raw[n - 1]] else r
  }

  /** The kept hits are the hits at the first-occurrence positions, in order. */
  lemma {:induction false} FirstsIndexed(raw: seq<Hit>, keys: seq<string>, n: nat)
    requires n <= |raw| == |keys|
    ensures |Firsts(raw, keys, n)| == |FirstIndices(keys, n)|
    ensures forall k | 0 <= k < |Firsts(raw, keys, n)| :: Firsts(raw, keys, n)[k] == raw[FirstIndices(keys, n)[k]]
    decreases n
  {
    if n > 0 {
      FirstsIndexed(raw, keys, n - 1);
      var r, idx := Firsts(raw, keys, n - 1), FirstIndices(keys, n - 1);
      if IsFirst(keys, n - 1) {
        assert Firsts(raw, keys, n) == r + [raw[n - 1]];
        assert FirstIndices(keys, n) == idx + [n - 1];
      } else {
        assert Firsts(raw, keys, n) == r;
        assert FirstIndices(keys, n) == idx;
      }
    }
  }

  lemma {:induction false} FirstsPrefix(raw: seq<Hit>, keys: seq<string>, m: nat, n: nat)
    requires m <= n <= |raw| == |keys|
    ensures |Firsts(raw, keys, m)| <= |Firsts(raw, keys, n)|
    ensures Firsts(raw, keys, n)[..|Firsts(raw, keys, m)|] == Firsts(raw, keys, m)
    decreases n - m
  {
    if m < n {
      FirstsPrefix(raw, keys, m, n - 1);
      var r, fm := Firsts(raw, keys, n - 1), Firsts(raw, keys, m);
      var more := if IsFirst(keys, n - 1) then [raw[n - 1]] else [];
      assert Firsts(raw, keys, n) == r + more;
      assert (r + more)[..|fm|] == r[..|fm|];
    }
  }

  /** The kept hits have non-empty, pairwise different keys. */
  lemma FirstsDistinct(raw: seq<Hit>, n: nat)
    requires n <= |raw|
    ensures var r := Firsts(raw, Keys(raw), n);
      && (forall k | 0 <= k < |r| :: NormKey(r[k]) != "")
      && (forall a, b | 0 <= a < b < |r| :: NormKey(r[a]) != NormKey(r[b]))
  {
    var keys := Keys(raw);
    var r := Firsts(raw, keys, n);
    var idx := FirstIndices(keys, n);
    FirstsIndexed(raw, keys, n);
    forall k | 0 <= k < |r| ensures NormKey(r[k]) != "" {
      assert keys[idx[k]] == NormKey(r[k]);
    }
    forall a, b | 0 <= a < b < |r| ensures NormKey(r[a]) != NormKey(r[b]) {
      assert idx[a] < idx[b] && IsFirst(keys, idx[b]);
      assert keys[idx[a]] == NormKey(r[a]) && keys[idx[b]] == NormKey(r[b]);
    }
  }

  /** The earliest position up to `i` holding `key`, given that position `i` holds it. */
  function EarliestWithKey(keys: seq<string>, key: string, i: nat, from: nat): (j: nat)
    requires from <= i < |keys| && keys[i] == key
    requires forall t | 0 <= t < from :: keys[t] != key
    ensures j <= i && keys[j] == key
    ensures forall t | 0 <= t < j :: keys[t] != key
    decreases i - from
  {
    if keys[from] == key then from else EarliestWithKey(keys, key, i, from + 1)
  }

  /** Every non-empty key among the first `n` hits is the key of a kept hit: nothing distinct is lost. */
  lemma FirstsCoverKeys(raw: seq<Hit>, n: nat, i: nat)
    requires i < n <= |raw| && NormKey(raw[i]) != ""
    ensures exists k | 0 <= k < |Firsts(raw, Keys(raw), n)| :: NormKey(Firsts(raw, Keys(raw), n)[k]) == NormKey(raw[i])
  {
    var keys := Keys(raw);
    assert keys[i] == NormKey(raw[i]);
    var j := EarliestWithKey(keys, keys[i], i, 0);
    assert IsFirst(keys, j);
    var idx := FirstIndices(keys, n);
    FirstsIndexed(raw, keys, n);
    var k :| 0 <= k < |idx| && idx[k] == j;
    assert Firsts(raw, keys, n)[k] == raw[j];
    assert keys[j] == NormKey(raw[j]);
  }

  /** The non-empty keys among the first `n`: the loop's `seen` set. */
  function SeenKeys(keys: seq<string>, n: nat): (r: set<string>)
    requires n <= |keys|
    ensures "" !in r
    decreases n
  {
    if n == 0 then {}
    else SeenKeys(keys, n - 1) + (if keys[n - 1] != "" then {keys[n - 1]} else {})
  }

  lemma {:induction false} SeenKeysHas(keys: seq<string>, n: nat, j: nat)
    requires j < n <= |keys| && keys[j] != ""
    ensures keys[j] in SeenKeys(keys, n)
    decreases n
  {
    if j < n - 1 {
      SeenKeysHas(keys, n - 1, j);
    }
  }

  lemma {:induction false} SeenKeysFrom(keys: seq<string>, n: nat, t: string)
    requires n <= |keys| && t in SeenKeys(keys, n)
    ensures exists j | 0 <= j < n :: keys[j] == t
    decreases n
  {
    if n > 0 && t != keys[n - 1] {
      SeenKeysFrom(keys, n - 1, t);
    }
  }

  /** The loop keeps key `n` exactly when it is non-empty and not yet seen. */
  lemma KeptIffUnseen(keys: seq<string>, n: nat)
    requires n < |keys|
    ensures IsFirst(keys, n) <==> keys[n] != "" && keys[n] !in SeenKeys(keys, n)
  {
    var t := keys[n];
    if t in SeenKeys(keys, n) {
      SeenKeysFrom(keys, n, t);
    }
    forall j | 0 <= j < n && keys[j] == t && t != "" ensures t in SeenKeys(keys, n) {
      SeenKeysHas(keys, n, j);
    }
  }

  /** Once 8 first occurrences are kept, or all hits are scanned, the kept hits are the first 8 of all. */
  lemma DedupStops(raw: seq<Hit>, keys: seq<string>, scanned: nat)
    requires scanned <= |raw| == |keys|
    requires scanned == |raw| || |Firsts(raw, keys, scanned)| == MAX_CONTEXT_HITS
    requires |Firsts(raw, keys, scanned)| <= MAX_CONTEXT_HITS
    ensures var all := Firsts(raw, keys, |raw|);
      Firsts(raw, keys, scanned) == all[..Min(MAX_CONTEXT_HITS, |all|)]
  {
    FirstsPrefix(raw, keys, scanned, |raw|);
  }

  /** One iteration of the scan: a hit with an empty or seen key is skipped, any other is kept and its key seen. */
  lemma DedupStep(raw: seq<Hit>, keys: seq<string>, n: nat, seen: set<string>)
    requires n < |raw| == |keys| && seen == SeenKeys(keys, n)
    ensures keys[n] == "" || keys[n] in seen ==>
      Firsts(raw, keys, n + 1) == Firsts(raw, keys, n) && SeenKeys(keys, n + 1) == seen
    ensures keys[n] != "" && keys[n] !in seen ==>
      Firsts(raw, keys, n + 1) == Firsts(raw, keys, n) + [raw[n]] && SeenKeys(keys, n + 1) == seen + {keys[n]}
  {
    KeptIffUnseen(keys, n);
  }

  /** The hits the loop keeps, at most `MAX_CONTEXT_HITS`. */
  const MAX_CONTEXT_HITS: nat := 8

  /**
   * The deduplicating scan of `ask`: skip hits whose key is empty or already seen,
   * keep the others, and stop once 8 are kept. `scanned` is how many raw hits the
   * loop consumed. The result is the first 8 first occurrences.
   */
  method Dedup(raw: seq<Hit>) returns (hits: seq<Hit>, scanned: nat)
    ensures scanned <= |raw|
    ensures hits == Firsts(raw, Keys(raw), scanned)
    ensures |hits| <= MAX_CONTEXT_HITS
    ensures scanned < |raw| ==> |hits| == MAX_CONTEXT_HITS
    ensures var all := Firsts(raw, Keys(raw), |raw|);
      hits == all[..Min(MAX_CONTEXT_HITS, |all|)]
  {
    ghost var keys := Keys(raw);
    var seen: set<string> := {};
    hits := [];
    scanned := 0;
    while scanned < |raw|
      invariant scanned <= |raw|
      invariant hits == Firsts(raw, keys, scanned)
      invariant |hits| < MAX_CONTEXT_HITS
      invariant seen == SeenKeys(keys, scanned)
    {
      var t := NormKey(raw[scanned]);
      assert t == keys[scanned];
      DedupStep(raw, keys, scanned, seen);
      if t == "" || t in seen {
        scanned := scanned + 1;
        continue;
      }
      seen := seen + {t};
      hits := hits + [raw[scanned]];
      scanned := scanned + 1;
      if |hits| >= MAX_CONTEXT_HITS {
        break;
      }
    }
    DedupStops(raw, keys, scanned);
  }

  // ---------------------------------------------------------------------------
  // ask: context, prompt and sources
  // ---------------------------------------------------------------------------

  /** `h.get('text', '')` inside an f-string: the text, or "None" when the key holds `None`. */
  function FieldText(h: Hit): string {
    match h.text
    case Some(t) => t
    case None => "None"
  }

  /** The `"[k] text"` entry for the hit at position `i`, numbered from 1. */
  function NumberedEntry(i: nat, h: Hit): string {
    "[" + Decimal(i + 1) + "] " + FieldText(h)
  }

  /** The numbered context of `ask`: the entries joined by a blank line. */
  function NumberedContext(hits: seq<Hit>): string {
    Join(seq(|hits|, i requires 0 <= i < |hits| => NumberedEntry(i, hits[i])), "\n\n")
  }

  /** The context is empty exactly when no hit is kept. */
  lemma NumberedContextEmptyIffNoHits(hits: seq<Hit>)
    ensures NumberedContext(hits) == "" <==> hits == []
  {
    var entries := seq(|hits|, i requires 0 <= i < |hits| => NumberedEntry(i, hits[i]));
    if |entries| > 0 {
      JoinContainsPart(entries, "\n\n", 0);
      var j :| 0 <= j <= |Join(entries, "\n\n")| && OccursAt(Join(entries, "\n\n"), entries[0], j);
      assert |entries[0]| > 0;
    }
  }

  /** A hit with a non-empty key has a text, which the context prints as it is. */
  lemma KeyedHitHasText(h: Hit)
    ensures NormKey(h) != "" ==> h.text.Some? && FieldText(h) == TextOf(h)
  {
    if h.text.None? {
      assert TextOf(h) == "";
    }
  }

  /** Each kept hit appears in the context under its number, with its own text. */
  lemma NumberedContextListsHits(hits: seq<Hit>, k: nat)
    requires k < |hits| && NormKey(hits[k]) != ""
    ensures Contains(NumberedContext(hits), "[" + Decimal(k + 1) + "] " + TextOf(hits[k]))
  {
    var entries := seq(|hits|, i requires 0 <= i < |hits| => NumberedEntry(i, hits[i]));
    KeyedHitHasText(hits[k]);
    JoinContainsPart(entries, "\n\n", k);
  }

  const ASK_SYSTEM: string := "You are a concise assistant. Answer using only the provided context."

  /** The fixed parts of the prompt of `ask`, with the four-space indentation of its source template. */
  const ASK_PROMPT_HEAD: string :=
    "Answer the question using ONLY the context. If the answer isn't in the context, say you don't know.\n\n    CONTEXT:\n    "
  const ASK_PROMPT_MIDDLE: string := "\n\n    QUESTION:\n    "
  const ASK_PROMPT_TAIL: string := "\n\n    Answer:"

  /** The prompt of `ask`: the fixed parts around the context and the question. */
  function AskPrompt(context: string, q: string): string {
    ASK_PROMPT_HEAD + context + ASK_PROMPT_MIDDLE + q + ASK_PROMPT_TAIL
  }

  /** The prompt quotes the context and the question verbatim. */
  lemma AskPromptQuotes(context: string, q: string)
    ensures Contains(AskPrompt(context, q), context)
    ensures Contains(AskPrompt(context, q), q)
  {
    var a, b := ASK_PROMPT_HEAD, ASK_PROMPT_MIDDLE;
    var p := AskPrompt(context, q);
    assert p[|a|..|a| + |context|] == context;
    ContainsAt(p, context, |a|);
    var o := |a| + |context| + |b|;
    assert p[o..o + |q|] == q;
    ContainsAt(p, q, o);
  }

  /**
   * The sources of `ask`: the hit's id, and `filename` and `chunk_index` read from the
   * hit's top level, where retrieved hits never carry them.
   */
  function AskSources(hits: seq<Hit>): (r: seq<Source>)
    ensures |r| == |hits|
    ensures forall i | 0 <= i < |r| :: r[i].id == hits[i].id && r[i].filename.None? && r[i].chunkIndex.None?
  {
    seq(|hits|, i requires 0 <= i < |hits| => Source(hits[i].id, None, None))
  }

  /** Unlike `_used_sources`, the sources of `ask` drop the metadata's filename. */
  lemma AskSourcesDropMetadata()
    ensures var h := Hit(Some("d:0"), Some("text"), Some(Metadata(Some("d"), Some(0), Some("a.pdf"))));
      && AskSources([h])[0].filename == None
      && UsedSources([h])[0].filename == Some("a.pdf")
  {
  }

  // ---------------------------------------------------------------------------
  // The endpoints
  // ---------------------------------------------------------------------------

  /** A response of the knowledge endpoints. `ServerError` is an exception that escapes the handler. */
  datatype Response =
    | Rejected(status: nat, detail: string)
    | PlainTextResponse(body: string)
    | Json(answer: Shaped, sources: seq<Source>)
    | ServerError

  datatype AskBody = AskBody(query: string, documentId: string, format: Option<Format>)

  /** `similarity_search(query, top_k, document_id)`. */
  type Search = (string, nat, string) -> seq<Hit>

  const ASK_TOP_K: nat := 12

  /** The kept hits of `ask` for the raw hits. */
  function DedupHits(raw: seq<Hit>): (r: seq<Hit>)
    ensures var all := Firsts(raw, Keys(raw), |raw|); r == all[..Min(MAX_CONTEXT_HITS, |all|)]
  {
    var all := Firsts(raw, Keys(raw), |raw|);
    all[..Min(MAX_CONTEXT_HITS, |all|)]
  }

  /**
   * The shaped response for an answer: raw text for "text", otherwise JSON with the
   * sources. A `None` answer renders as an empty text body, as `{"answer": null}` for
   * "plain", and makes `one_line` and `lines` raise (`re.sub` and `.splitlines()` on `None`).
   */
  function Respond(ans: Option<string>, format: Option<Format>, sources: seq<Source>): (r: Response)
    ensures format.GetOr(Plain) == AsText <==> r.PlainTextResponse?
    ensures r.PlainTextResponse? ==> r.body == ans.GetOr("")
    ensures r.Json? ==> r.sources == sources && (r.answer == Null <==> ans.None?)
    ensures r.ServerError? <==> ans.None? && (format.GetOr(Plain) == OneLine || format.GetOr(Plain) == Lines)
  {
    var fmt := format.GetOr(Plain);
    match fmt
    case AsText => PlainTextResponse(ans.GetOr(""))
    case Plain => Json(if ans.Some? then ShapeAnswer(ans.value, Plain) else Null, sources)
    case _ => if ans.Some? then Json(ShapeAnswer(ans.value, fmt), sources) else ServerError
  }

  /**
   * `ask(body)`: reject a blank query; otherwise search for the stripped query (12
   * results, filtered by the document), keep the first 8 distinct texts, build the
   * numbered context and prompt, and complete it with OpenAI falling back to Ollama.
   */
  function Ask(body: AskBody, search: Search, env: Env, openai: Provider, ollama: OllamaProvider): (r: Response)
    ensures IsBlank(body.query) <==> r == Rejected(400, "Empty query")
    ensures r.Json? ==> |r.sources| <= MAX_CONTEXT_HITS
  {
    var q := Strip(body.query);
    if q == "" then Rejected(400, "Empty query")
    else
      var hits := DedupHits(search(q, ASK_TOP_K, body.documentId));
      var prompt := AskPrompt(NumberedContext(hits), q);
      match CompleteWithFallback(prompt, Some(ASK_SYSTEM), None, env, openai, ollama).result
      case Threw(_) => ServerError
      case Answered(ans) => Respond(ans, body.format, AskSources(hits))
  }

  /**
   * An Ollama that answers with a JSON null (when OpenAI is not primary) reaches the
   * client as an empty text body, as `{"answer": null}`, or as a 500 from `one_line` and `lines`.
   */
  lemma AskNullReply(body: AskBody, search: Search, env: Env, openai: Provider, ollama: OllamaProvider)
    requires !IsBlank(body.query) && !UsesOpenAI(env)
    requires forall m, p, s :: ollama(m, p, s) == Answered(None)
    ensures var r := Ask(body, search, env, openai, ollama);
      var fmt := body.format.GetOr(Plain);
      && (fmt == AsText ==> r == PlainTextResponse(""))
      && (fmt == Plain ==> r.Json? && r.answer == Null)
      && (fmt == OneLine || fmt == Lines ==> r == ServerError)
  {
    var q := Strip(body.query);
    var hits := DedupHits(search(q, ASK_TOP_K, body.documentId));
    assert CompleteWithFallback(AskPrompt(NumberedContext(hits), q), Some(ASK_SYSTEM), None, env, openai, ollama).result
        == Answered(None);
  }

  /** A blank query is rejected before retrieval: no search or model changes the response. */
  lemma BlankQueryRejectedFirst(body: AskBody, s1: Search, s2: Search, env: Env,
                                o1: Provider, o2: Provider, l1: OllamaProvider, l2: OllamaProvider)
    requires IsBlank(body.query)
    ensures Ask(body, s1, env, o1, l1) == Ask(body, s2, env, o2, l2) == Rejected(400, "Empty query")
  {
  }

  /** Retrieval asks only for the stripped query, 12 results and the body's document. */
  lemma AskSearchesStrippedQuery(body: AskBody, s1: Search, s2: Search, env: Env, openai: Provider, ollama: OllamaProvider)
    requires s1(Strip(body.query), ASK_TOP_K, body.documentId) == s2(Strip(body.query), ASK_TOP_K, body.documentId)
    ensures Ask(body, s1, env, openai, ollama) == Ask(body, s2, env, openai, ollama)
  {
  }

  /** The JSON sources of `ask` are the kept hits, in order, and never name a filename. */
  lemma AskSourcesAreKeptHits(body: AskBody, search: Search, env: Env, openai: Provider, ollama: OllamaProvider)
    requires Ask(body, search, env, openai, ollama).Json?
    ensures var raw := search(Strip(body.query), ASK_TOP_K, body.documentId);
      var r := Ask(body, search, env, openai, ollama);
      && r.sources == AskSources(DedupHits(raw))
      && forall k | 0 <= k < |r.sources| :: r.sources[k].filename.None?
  {
  }

  datatype SummarizeBody = SummarizeBody(documentId: string, style: Option<string>, format: Option<Format>)

  const DEFAULT_SUMMARY_QUERY: string := "Summarize this document into clear sections and a one-line takeaway."

  /** At most this many chunks feed the summary. */
  const MAX_SUMMARY_CHUNKS: nat := 20

  /**
   * `summarize(body)` on what `get_chunks_by_document(document_id, limit=100)` read
   * from the store: 404 when there are no chunks, otherwise `answer_with_context` on
   * the first 20 chunks with the style, or the default instruction.
   */
  function Summarize(body: SummarizeBody, stored: GetResult, openaiKey: Option<string>,
                     openai: string -> ChatReply): (r: Response)
    ensures DocumentChunks(stored) == Some([]) <==> r == Rejected(404, "No chunks for document")
    ensures r.Json? ==> |r.sources| <= MAX_SUMMARY_CHUNKS
  {
    match DocumentChunks(stored)
    case None => ServerError
    case Some(chunks) =>
      if chunks == [] then Rejected(404, "No chunks for document")
      else
        var query := if Truthy(body.style) then body.style.value else DEFAULT_SUMMARY_QUERY;
        var ans := AnswerWithContext(query, chunks[..Min(MAX_SUMMARY_CHUNKS, |chunks|)], openaiKey, openai);
        Respond(Some(ans.text), body.format, ans.sources)
  }

  /**
   * A summary cites the first min(20, n) stored chunks, in order, with their metadata;
   * without a style (or with an empty one) it answers the default instruction.
   */
  lemma SummaryUsesFirstChunks(body: SummarizeBody, stored: GetResult, openaiKey: Option<string>,
                               openai: string -> ChatReply)
    requires DocumentChunks(stored).Some? && DocumentChunks(stored).value != []
    requires body.format != Some(AsText)
    ensures var chunks := DocumentChunks(stored).value;
      var first := chunks[..Min(MAX_SUMMARY_CHUNKS, |chunks|)];
      var query := if Truthy(body.style) then body.style.value else DEFAULT_SUMMARY_QUERY;
      var r := Summarize(body, stored, openaiKey, openai);
      && r.Json?
      && r.sources == UsedSources(first)
      && (!Truthy(openaiKey) ==> r.answer == ShapeAnswer(NoKeyAnswer(query, FormatContext(first)), body.format.GetOr(Plain)))
  {
  }
}

=== FILE: llm.dfy ===
/**
 * The answer service: the context string and source list built from retrieved hits,
 * the non-streaming answer with its no-key template, the staged streaming answer, and
 * the OpenAI-then-Ollama completion with quota fallback. Every call to a model is a
 * function parameter from the request it receives to the outcome it produces.
 */
module Llm {
  import opened Wrappers
  import opened Text
  import opened VectorStore
  import opened Providers

  /** One entry of the `sources` list: `{"id", "filename", "chunk_index"}`. */
  datatype Source = Source(id: Option<string>, filename: Option<string>, chunkIndex: Option<nat>)

  /** A non-streaming chat completion: the first choice's content, or the exception's text. */
  datatype ChatReply = Completed(content: Option<string>) | Failed(message: string)

  /** An answer and the sources it cites. */
  datatype Answer = Answer(text: string, sources: seq<Source>)

  // ---------------------------------------------------------------------------
  // Context and sources
  // ---------------------------------------------------------------------------

  /** `h.get("text") or ""`. */
  function TextOf(h: Hit): string {
    h.text.GetOr("")
  }

  /** The list `_format_context` joins: each truthy text cut to its first 1000 characters. */
  function ContextParts(hits: seq<Hit>): (r: seq<string>)
    ensures |r| <= |hits|
    ensures forall k | 0 <= k < |r| :: 1 <= |r[k]| <= 1000
    decreases |hits|
  {
    if |hits| == 0 then []
    else
      var t := TextOf(hits[0]);
      (if t != "" then [PySlice(t, 0, 1000)] else []) + ContextParts(hits[1..])
  }

  /** `_format_context(hits)`. */
  function FormatContext(hits: seq<Hit>): string {
    Join(ContextParts(hits), "\n\n")
  }

  /** Each hit with text has its first 1000 characters among the parts. */
  lemma {:induction false} ContextPartListed(hits: seq<Hit>, i: nat)
    requires i < |hits| && TextOf(hits[i]) != ""
    ensures PySlice(TextOf(hits[i]), 0, 1000) in ContextParts(hits)
    decreases i
  {
    if i > 0 {
      ContextPartListed(hits[1..], i - 1);
    }
  }

  /** The context contains the first 1000 characters of every hit with text. */
  lemma ContextHoldsEveryText(hits: seq<Hit>)
    ensures forall i | 0 <= i < |hits| && TextOf(hits[i]) != ""
      :: Contains(FormatContext(hits), PySlice(TextOf(hits[i]), 0, 1000))
  {
    var parts := ContextParts(hits);
    forall i | 0 <= i < |hits| && TextOf(hits[i]) != ""
      ensures Contains(Join(parts, "\n\n"), PySlice(TextOf(hits[i]), 0, 1000))
    {
      ContextPartListed(hits, i);
      var k :| 0 <= k < |parts| && parts[k] == PySlice(TextOf(hits[i]), 0, 1000);
      JoinContainsPart(parts, "\n\n", k);
    }
  }

  /** The parts are the hits' non-empty texts, in order, each cut to 1000 characters. */
  lemma {:induction false} ContextPartsAreTruncatedTexts(hits: seq<Hit>)
    ensures var texts := NonEmpty(seq(|hits|, i requires 0 <= i < |hits| => TextOf(hits[i])));
      var parts := ContextParts(hits);
      |parts| == |texts| && forall k | 0 <= k < |parts| :: parts[k] == PySlice(texts[k], 0, 1000)
    decreases |hits|
  {
    if |hits| > 0 {
      ContextPartsAreTruncatedTexts(hits[1..]);
      var texts := seq(|hits|, i requires 0 <= i < |hits| => TextOf(hits[i]));
      assert texts[1..] == seq(|hits| - 1, i requires 0 <= i < |hits| - 1 => TextOf(hits[1..][i]));
    }
  }

  /** The context is empty exactly when no hit has a non-empty text. */
  lemma ContextEmptyIffNoText(hits: seq<Hit>)
    ensures FormatContext(hits) == "" <==> forall i | 0 <= i < |hits| :: TextOf(hits[i]) == ""
  {
    var parts := ContextParts(hits);
    ContextPartsEmptyIffNoText(hits);
    if |parts| > 0 {
      JoinContainsPart(parts, "\n\n", 0);
      assert |parts[0]| >= 1;
    }
  }

  /** No part is left exactly when no hit has text. */
  lemma {:induction false} ContextPartsEmptyIffNoText(hits: seq<Hit>)
    ensures ContextParts(hits) == [] <==> forall i | 0 <= i < |hits| :: TextOf(hits[i]) == ""
    decreases |hits|
  {
    if |hits| > 0 {
      ContextPartsEmptyIffNoText(hits[1..]);
      assert forall i | 1 <= i < |hits| :: hits[i] == hits[1..][i - 1];
    }
  }

  /** `_used_sources`: one entry per hit, its id, and the filename and chunk index from its metadata. */
  function UsedSources(hits: seq<Hit>): (r: seq<Source>)
    ensures |r| == |hits|
    ensures forall i | 0 <= i < |r| :: r[i].id == hits[i].id
  {
    seq(|hits|, i requires 0 <= i < |hits| =>
      var md := hits[i].metadata.GetOr(Metadata(None, None, None));
      Source(hits[i].id, md.filename, md.chunkIndex))
  }

  /** A source names a filename (a chunk index) exactly when its hit's metadata holds one, and then the same one. */
  lemma UsedSourcesReadMetadata(hits: seq<Hit>, i: nat)
    requires i < |hits|
    ensures var s := UsedSources(hits)[i];
      && (s.filename.Some? <==> hits[i].metadata.Some? && hits[i].metadata.value.filename.Some?)
      && (s.chunkIndex.Some? <==> hits[i].metadata.Some? && hits[i].metadata.value.chunkIndex.Some?)
      && (hits[i].metadata.Some? ==> s.filename == hits[i].metadata.value.filename && s.chunkIndex == hits[i].metadata.value.chunkIndex)
  {
  }

  // ---------------------------------------------------------------------------
  // answer_with_context
  // ---------------------------------------------------------------------------

  const FALLBACK_PREFIX: string := "Summary (fallback): "
  const PREVIEW_HEADER: string := "\n\nContext preview:\n"
  const NO_CONTEXT: string := "(no context)"
  const ERROR_PREFIX: string := "(LLM error; fallback text) "

  /** The fixed text of the instructions both OpenAI calls of the answer service start with. */
  const INSTRUCTIONS_HEAD: string := "Return PLAIN TEXT only (no markdown). Use simple "
  const INSTRUCTIONS_TAIL: string :=
    " if helpful:\nSummary:\nResources:\nTopics:\nPeople:\nActions:\nOne-line takeaway:\nUse '- ' for bullets. No emojis.\n\n"
  const CONTEXT_LABEL: string := "Context:\n"
  const QUESTION_LABEL: string := "\n\nQuestion: "
  const ANSWER_LABEL: string := "\n\nAnswer:"

  /** The instructions, naming the labels with `labelWord`. */
  function Instructions(labelWord: string): string {
    INSTRUCTIONS_HEAD + labelWord + INSTRUCTIONS_TAIL
  }

  /** The user message of the non-streaming OpenAI call. */
  function AnswerPrompt(context: string, query: string): string {
    Instructions("sections") + CONTEXT_LABEL + context + QUESTION_LABEL + query + ANSWER_LABEL
  }

  /** The answer without a key: the stripped query and at most 400 characters of context. */
  function NoKeyAnswer(query: string, context: string): (r: string)
    ensures var head := FALLBACK_PREFIX + Strip(query) + PREVIEW_HEADER;
      && head <= r
      && |r| <= |head| + 400
      && (context == "" ==> r[|head|..] == NO_CONTEXT)
      && (context != "" ==> r[|head|..] != "" && r[|head|..] <= context)
      && (|context| <= 400 ==> context != "" ==> r[|head|..] == context)
  {
    FALLBACK_PREFIX + Strip(query) + PREVIEW_HEADER
    + (if context != "" then PySlice(context, 0, 400) else NO_CONTEXT)
  }

  /**
   * `answer_with_context(query, hits)`, where `openaiKey` is the configured key and
   * `openai` answers a prompt. Every path cites `_used_sources(hits)`.
   */
  function AnswerWithContext(query: string, hits: seq<Hit>, openaiKey: Option<string>,
                             openai: string -> ChatReply): (r: Answer)
    ensures r.sources == UsedSources(hits)
    ensures !Truthy(openaiKey) ==> r.text == NoKeyAnswer(query, FormatContext(hits))
  {
    var context := FormatContext(hits);
    var used := UsedSources(hits);
    if !Truthy(openaiKey) then Answer(NoKeyAnswer(query, context), used)
    else
      match openai(AnswerPrompt(context, query))
      case Completed(content) => Answer(content.GetOr(""), used)
      case Failed(e) => Answer(ERROR_PREFIX + e + "\n\n" + PySlice(context, 0, 500), used)
  }

  /**
   * Without a key no model is asked: the answer is the template, whatever `openai`
   * would say. It quotes the stripped query, then either the context's first
   * min(400, |context|) characters or, when no hit has text, "(no context)".
   */
  lemma NoKeyAnswerIsTemplate(query: string, hits: seq<Hit>, openaiKey: Option<string>,
                              openai1: string -> ChatReply, openai2: string -> ChatReply)
    requires !Truthy(openaiKey)
    ensures AnswerWithContext(query, hits, openaiKey, openai1) == AnswerWithContext(query, hits, openaiKey, openai2)
    ensures var text := AnswerWithContext(query, hits, openaiKey, openai1).text;
      var context := FormatContext(hits);
      var head := FALLBACK_PREFIX + Strip(query) + PREVIEW_HEADER;
      && text[..|head|] == head
      && ((forall i | 0 <= i < |hits| :: TextOf(hits[i]) == "") ==> text[|head|..] == NO_CONTEXT)
      && ((exists i | 0 <= i < |hits| :: TextOf(hits[i]) != "") ==>
            |text[|head|..]| == Min(400, |context|) && text[|head|..] == context[..Min(400, |context|)])
  {
    ContextEmptyIffNoText(hits);
  }

  function Min(a: int, b: int): int {
    if a <= b then a else b
  }

  /** With a key, a failed call answers with the error text and the first 500 characters of context. */
  lemma FailedCallAnswersWithError(query: string, hits: seq<Hit>, openaiKey: Option<string>,
                                   openai: string -> ChatReply)
    requires Truthy(openaiKey) && openai(AnswerPrompt(FormatContext(hits), query)).Failed?
    ensures var context := FormatContext(hits);
      var e := openai(AnswerPrompt(context, query)).message;
      AnswerWithContext(query, hits, openaiKey, openai).text
        == ERROR_PREFIX + e + "\n\n" + context[..Min(500, |context|)]
  {
  }

  // ---------------------------------------------------------------------------
  // stream_answer
  // ---------------------------------------------------------------------------

  /** One chunk of the OpenAI stream: its first choice's delta content, or an exception while reading it. */
  datatype Delta = Content(text: Option<string>) | Unreadable

  /** The chunks the OpenAI stream delivered, and whether it then raised. */
  datatype OpenAIStream = OpenAIStream(chunks: seq<Delta>, raised: bool)

  /** The lines Ollama delivered, and whether the request or the stream raised afterwards (or before any line). */
  datatype OllamaStream = OllamaStream(lines: seq<JsonLine>, raised: bool)

  /** The pieces a stage yielded, and whether it ended normally (and so ended the answer). */
  datatype Stage = Stage(pieces: seq<string>, finished: bool)

  /** The non-empty deltas, in order; an unreadable chunk counts as an empty one. */
  function DeltaPieces(chunks: seq<Delta>): (r: seq<string>)
    ensures |r| <= |chunks|
    ensures forall k | 0 <= k < |r| :: r[k] != ""
    decreases |chunks|
  {
    if |chunks| == 0 then []
    else
      var piece := match chunks[0] case Content(t) => t.GetOr("") case Unreadable => "";
      (if piece != "" then [piece] else []) + DeltaPieces(chunks[1..])
  }

  /** `(obj.get("message") or {}).get("content") or obj.get("response") or ""`. */
  function LineText(content: Field, response: Field): string {
    match Nonblank(content)
    case Some(t) => t
    case None => if response.JsonString? then response.s else ""
  }

  /**
   * The Ollama stage: each object line yields its text when non-empty; blank and
   * non-JSON lines are skipped; a non-object line raises (its `.get` fails), which
   * ends the stage like any other exception.
   */
  function OllamaRun(lines: seq<JsonLine>, raised: bool): (st: Stage)
    ensures forall k | 0 <= k < |st.pieces| :: st.pieces[k] != ""
    ensures (forall i | 0 <= i < |lines| :: !lines[i].NotAnObject?) ==> st.finished == !raised
    decreases |lines|
  {
    if |lines| == 0 then Stage([], !raised)
    else match lines[0]
      case NotAnObject => Stage([], false)
      case Object(c, r) =>
        var rest := OllamaRun(lines[1..], raised);
        var t := LineText(c, r);
        Stage((if t != "" then [t] else []) + rest.pieces, rest.finished)
      case _ => OllamaRun(lines[1..], raised)
  }

  /** `str(getattr(settings, "llm_provider", "openai")).lower()`; `None` when the setting does not exist. */
  function ProviderName(setting: Option<string>): string {
    Lower(setting.GetOr("openai"))
  }

  /** The user message of the streaming OpenAI call. */
  function StreamPrompt(context: string, query: string): string {
    Instructions("section labels") + CONTEXT_LABEL + context + QUESTION_LABEL + query
  }

  const OLLAMA_SYSTEM: string := "Return PLAIN TEXT only. Avoid markdown symbols. Use simple bullets '- ' if needed."

  function OllamaTask(context: string, query: string): string {
    "CONTEXT:\n" + context + "\n\nTASK: " + query
  }

  /** The last stage: the non-streaming answer cut into 64-character pieces. */
  function Slices64(ans: string): seq<string> {
    Windows(ans, 64, 64, 0)
  }

  /** The configuration and the models `stream_answer` consults. */
  datatype StreamEnv = StreamEnv(
    openaiKey: Option<string>,
    providerSetting: Option<string>,
    openaiStream: string -> OpenAIStream,
    ollamaStream: (string, string) -> OllamaStream,
    openaiReply: string -> ChatReply)

  function OpenAIStage(query: string, context: string, env: StreamEnv): (st: Stage)
    ensures !Truthy(env.openaiKey) ==> st == Stage([], false)
  {
    if !Truthy(env.openaiKey) then Stage([], false)
    else
      var s := env.openaiStream(StreamPrompt(context, query));
      Stage(DeltaPieces(s.chunks), !s.raised)
  }

  function OllamaStage(query: string, context: string, env: StreamEnv): (st: Stage)
    ensures ProviderName(env.providerSetting) != "ollama" ==> st == Stage([], false)
  {
    if ProviderName(env.providerSetting) != "ollama" then Stage([], false)
    else
      var s := env.ollamaStream(OLLAMA_SYSTEM, OllamaTask(context, query));
      OllamaRun(s.lines, s.raised)
  }

  /**
   * `stream_answer(query, hits)`: OpenAI streaming when a key is set, then Ollama when
   * the provider setting is "ollama", then the 64-character slices of the
   * non-streaming answer. A stage that raises keeps what it already yielded and hands
   * over to the next one; a stage that ends normally ends the answer.
   */
  function StreamAnswer(query: string, hits: seq<Hit>, env: StreamEnv): (pieces: seq<string>)
    ensures var a := OpenAIStage(query, FormatContext(hits), env); |a.pieces| <= |pieces| && pieces[..|a.pieces|] == a.pieces
  {
    var context := FormatContext(hits);
    var a := OpenAIStage(query, context, env);
    if a.finished then a.pieces
    else
      var b := OllamaStage(query, context, env);
      if b.finished then a.pieces + b.pieces
      else a.pieces + b.pieces + Slices64(AnswerWithContext(query, hits, env.openaiKey, env.openaiReply).text)
  }

  /**
   * The stage order: after the OpenAI pieces, nothing when that stage finished;
   * otherwise the Ollama pieces, followed, when Ollama did not finish either, by the
   * 64-character slices of `answer_with_context`. A raised stage keeps its pieces.
   */
  lemma StreamAnswerStages(query: string, hits: seq<Hit>, env: StreamEnv)
    ensures var context := FormatContext(hits);
      var a := OpenAIStage(query, context, env);
      var b := OllamaStage(query, context, env);
      var pieces := StreamAnswer(query, hits, env);
      && |a.pieces| <= |pieces| && pieces[..|a.pieces|] == a.pieces
      && (a.finished ==> pieces[|a.pieces|..] == [])
      && (!a.finished && b.finished ==> pieces[|a.pieces|..] == b.pieces)
      && (!a.finished && !b.finished ==>
            pieces[|a.pieces|..] == b.pieces + Slices64(AnswerWithContext(query, hits, env.openaiKey, env.openaiReply).text))
    ensures OpenAIStage(query, FormatContext(hits), env).finished
        <==> Truthy(env.openaiKey) && !env.openaiStream(StreamPrompt(FormatContext(hits), query)).raised
  {
    var context := FormatContext(hits);
    var a := OpenAIStage(query, context, env);
    var b := OllamaStage(query, context, env);
    var tail := Slices64(AnswerWithContext(query, hits, env.openaiKey, env.openaiReply).text);
    if !a.finished {
      if b.finished {
        assert (a.pieces + b.pieces)[|a.pieces|..] == b.pieces;
      } else {
        assert a.pieces + b.pieces + tail == a.pieces + (b.pieces + tail);
        assert (a.pieces + (b.pieces + tail))[|a.pieces|..] == b.pieces + tail;
      }
    }
  }

  /**
   * With the shipped settings, a keyed OpenAI stream that raises keeps the deltas it
   * delivered and is followed by the whole non-streaming answer in 64-character slices.
   */
  lemma RaisedStreamFallsBack(query: string, hits: seq<Hit>, env: StreamEnv)
    requires env.providerSetting.None? && Truthy(env.openaiKey)
    requires env.openaiStream(StreamPrompt(FormatContext(hits), query)).raised
    ensures StreamAnswer(query, hits, env)
         == DeltaPieces(env.openaiStream(StreamPrompt(FormatContext(hits), query)).chunks)
            + Slices64(AnswerWithContext(query, hits, env.openaiKey, env.openaiReply).text)
  {
    DefaultProviderIsNotOllama();
    var a := OpenAIStage(query, FormatContext(hits), env);
    assert a.pieces + [] == a.pieces;
  }

  /** An OpenAI stream that ends normally is the whole answer: neither Ollama nor the fallback is consulted. */
  lemma FinishedStreamIsWholeAnswer(query: string, hits: seq<Hit>, env: StreamEnv)
    requires Truthy(env.openaiKey) && !env.openaiStream(StreamPrompt(FormatContext(hits), query)).raised
    ensures StreamAnswer(query, hits, env) == DeltaPieces(env.openaiStream(StreamPrompt(FormatContext(hits), query)).chunks)
  {
  }

  /**
   * With the shipped settings there is no `llm_provider`, so the provider is "openai"
   * and Ollama never answers: the result is the same whatever the Ollama stream is.
   */
  lemma ShippedSettingsNeverStreamOllama(query: string, hits: seq<Hit>, env: StreamEnv,
                                         other: (string, string) -> OllamaStream)
    requires env.providerSetting.None?
    ensures StreamAnswer(query, hits, env) == StreamAnswer(query, hits, env.(ollamaStream := other))
    ensures !Truthy(env.openaiKey) ==>
      StreamAnswer(query, hits, env) == Slices64(NoKeyAnswer(query, FormatContext(hits)))
  {
    DefaultProviderIsNotOllama();
  }

  lemma DefaultProviderIsNotOllama()
    ensures ProviderName(None) != "ollama"
  {
    assert ProviderName(None)[1] == LowerChar('p') == 'p';
  }

  /** The fallback slices are at most 64 characters, all but the last exactly 64, and concatenate to the answer. */
  lemma Slices64Tile(ans: string)
    ensures Concat(Slices64(ans)) == ans
    ensures forall k | 0 <= k < |Slices64(ans)| :: 1 <= |Slices64(ans)[k]| <= 64
    ensures forall k | 0 <= k < |Slices64(ans)| - 1 :: |Slices64(ans)[k]| == 64
  {
    WindowsTile(ans, 64, 0);
    WindowsTileLengths(ans, 64);
  }

  // ---------------------------------------------------------------------------
  // complete_with_fallback
  // ---------------------------------------------------------------------------

  /** What OpenAI's `complete` did: returned a text, or raised with a message. */
  datatype Outcome = Ok(text: string) | Err(message: string)

  /**
   * What Ollama's `complete`, and so `complete_with_fallback`, did: returned a text or
   * `None` (a JSON null in `message.content` or `response`), or raised with a message.
   */
  datatype Completed = Answered(reply: Option<string>) | Threw(message: string)

  /** The environment variables the completion reads; `None` when unset. */
  datatype Env = Env(llmPrimary: Option<string>, openaiKey: Option<string>,
                     openaiModel: Option<string>, llmModel: Option<string>)

  /** OpenAI's `complete`, from (model, prompt, system) to its outcome. */
  type Provider = (string, string, Option<string>) -> Outcome

  /** Ollama's `complete`, from (model, prompt, system) to what it returned or raised. */
  type OllamaProvider = (string, string, Option<string>) -> Completed

  /**
   * The outcome of `complete_with_fallback` and the model each provider was asked
   * with, `None` for a provider that was not asked.
   */
  datatype Completion = Completion(result: Completed, openaiModel: Option<string>, ollamaModel: Option<string>)

  /** The first truthy of `a or b or default`. */
  function FirstTruthy(a: Option<string>, b: Option<string>, default: string): (r: string)
    ensures Truthy(a) ==> r == a.value
    ensures !Truthy(a) && Truthy(b) ==> r == b.value
    ensures !Truthy(a) && !Truthy(b) ==> r == default
  {
    if Truthy(a) then a.value else if Truthy(b) then b.value else default
  }

  /** `"429" in msg or "insufficient_quota" in msg`. */
  predicate IsQuota(msg: string) {
    Contains(msg, "429") || Contains(msg, "insufficient_quota")
  }

  /** `os.getenv("LLM_PRIMARY", "openai") == "openai" and os.getenv("OPENAI_API_KEY")`. */
  predicate UsesOpenAI(env: Env) {
    env.llmPrimary.GetOr("openai") == "openai" && Truthy(env.openaiKey)
  }

  function CompleteWithFallback(prompt: string, system: Option<string>, model: Option<string>, env: Env,
                                openai: Provider, ollama: OllamaProvider): (c: Completion)
    ensures c.openaiModel.Some? <==> UsesOpenAI(env)
    ensures c.ollamaModel.Some? <==>
      !UsesOpenAI(env) || (openai(c.openaiModel.value, prompt, system).Err? && IsQuota(openai(c.openaiModel.value, prompt, system).message))
  {
    var fallback := FirstTruthy(env.llmModel, model, "llama3.1:8b");
    if UsesOpenAI(env) then
      var m := FirstTruthy(env.openaiModel, model, "o4-mini");
      match openai(m, prompt, system)
      case Ok(t) => Completion(Answered(Some(t)), Some(m), None)
      case Err(e) =>
        if IsQuota(e) then Completion(ollama(fallback, prompt, system), Some(m), Some(fallback))
        else Completion(Threw(e), Some(m), None)
    else Completion(ollama(fallback, prompt, system), None, Some(fallback))
  }

  /**
   * Without the primary, or after its success or a non-quota failure, the result is
   * fixed before Ollama: another Ollama gives the same completion. A quota failure is
   * answered by Ollama alone, asked once.
   */
  lemma FallbackOnlyOnQuota(prompt: string, system: Option<string>, model: Option<string>, env: Env,
                            openai: Provider, ollama: OllamaProvider, other: OllamaProvider)
    requires UsesOpenAI(env)
    ensures var m := FirstTruthy(env.openaiModel, model, "o4-mini");
      var c := CompleteWithFallback(prompt, system, model, env, openai, ollama);
      && (openai(m, prompt, system).Ok? ==> c.result == Answered(Some(openai(m, prompt, system).text)))
      && (!(openai(m, prompt, system).Err? && IsQuota(openai(m, prompt, system).message)) ==>
            c == CompleteWithFallback(prompt, system, model, env, openai, other))
      && (openai(m, prompt, system).Err? && !IsQuota(openai(m, prompt, system).message) ==>
            c.result == Threw(openai(m, prompt, system).message))
      && (openai(m, prompt, system).Err? && IsQuota(openai(m, prompt, system).message) ==>
            c.result == ollama(FirstTruthy(env.llmModel, model, "llama3.1:8b"), prompt, system))
  {
  }

  /** Without the primary, the completion is Ollama's, whatever OpenAI would have said. */
  lemma NoPrimaryIsOllama(prompt: string, system: Option<string>, model: Option<string>, env: Env,
                          openai: Provider, ollama: OllamaProvider, other: Provider)
    requires !UsesOpenAI(env)
    ensures CompleteWithFallback(prompt, system, model, env, openai, ollama)
         == CompleteWithFallback(prompt, system, model, env, other, ollama)
    ensures CompleteWithFallback(prompt, system, model, env, openai, ollama).result
         == ollama(FirstTruthy(env.llmModel, model, "llama3.1:8b"), prompt, system)
  {
  }

  /** Messages that classify as quota errors, and one that does not. */
  lemma QuotaExamples()
    ensures IsQuota("Error code: 429 - rate limited")
    ensures IsQuota("insufficient_quota")
    ensures !IsQuota("invalid_api_key")
  {
    ContainsAt("Error code: 429 - rate limited", "429", 12);
    ContainsAt("insufficient_quota", "insufficient_quota", 0);
    NotContainedWithoutFirst("invalid_api_key", "429");
  }
}

=== FILE: providers.dfy ===
/**
 * The provider clients: how `OllamaProvider` builds its messages and its
 * `/api/generate` prompt, which endpoint it posts to (and the sticky switch to
 * `/api/generate` after a 404), which deltas its stream yields, and how
 * `OpenAIProvider.complete` shapes its input and picks its output text. The HTTP
 * replies and the OpenAI response are parameters.
 */
module Providers {
  import opened Wrappers
  import opened Text

  datatype Role = System | User

  /** `{"role": …, "content": …}`. */
  datatype Message = Message(role: Role, content: string)

  /** The system message first when `system` is truthy, then the user prompt. */
  function BuildMessages(prompt: string, system: Option<string>): (msgs: seq<Message>)
    ensures 1 <= |msgs| <= 2
    ensures msgs[|msgs| - 1] == Message(User, prompt)
    ensures msgs[0].role == System <==> Truthy(system)
    ensures Truthy(system) ==> msgs == [Message(System, system.value), Message(User, prompt)]
  {
    (if Truthy(system) then [Message(System, system.value)] else []) + [Message(User, prompt)]
  }

  /** No message before position `i` is a system one. */
  predicate NoSystemBefore(msgs: seq<Message>, i: nat)
    requires i <= |msgs|
  {
    forall j | 0 <= j < i :: msgs[j].role != System
  }

  /** The content of the first system message, if any (`next(...)` over the system messages). */
  function FirstSystem(msgs: seq<Message>): (r: Option<string>)
    ensures r.Some? ==> exists i | 0 <= i < |msgs| :: msgs[i] == Message(System, r.value) && NoSystemBefore(msgs, i)
    ensures r.None? <==> NoSystemBefore(msgs, |msgs|)
    decreases |msgs|
  {
    if |msgs| == 0 then None
    else if msgs[0].role == System then
      assert NoSystemBefore(msgs, 0);
      Some(msgs[0].content)
    else
      var r := FirstSystem(msgs[1..]);
      if r.Some? then
        var i :| 0 <= i < |msgs[1..]| && msgs[1..][i] == Message(System, r.value) && NoSystemBefore(msgs[1..], i);
        assert msgs[i + 1] == msgs[1..][i];
        assert NoSystemBefore(msgs, i + 1) by {
          forall j | 0 <= j < i + 1 ensures msgs[j].role != System {
            if j > 0 {
              assert msgs[j] == msgs[1..][j - 1];
            }
          }
        }
        r
      else
        assert NoSystemBefore(msgs, |msgs|) by {
          forall j | 0 <= j < |msgs| ensures msgs[j].role != System {
            if j > 0 {
              assert msgs[j] == msgs[1..][j - 1];
            }
          }
        }
        r
  }

  /** The contents of the user messages, stripped, in order. */
  function StrippedUserContents(msgs: seq<Message>): (r: seq<string>)
    ensures |r| <= |msgs|
    decreases |msgs|
  {
    if |msgs| == 0 then []
    else (if msgs[0].role == User then [Strip(msgs[0].content)] else []) + StrippedUserContents(msgs[1..])
  }

  /** `_compose_prompt(messages)`: the stripped system text and a blank line when it is truthy, then the stripped user texts joined by blank lines. */
  function ComposePrompt(msgs: seq<Message>): string {
    var sys := FirstSystem(msgs);
    (if Truthy(sys) then Strip(sys.value) + "\n\n" else "") + Join(StrippedUserContents(msgs), "\n\n")
  }

  /** The prompt begins with the first system text when it is truthy, and holds every user text. */
  lemma ComposePromptHoldsMessages(msgs: seq<Message>)
    ensures var r := ComposePrompt(msgs);
      && (Truthy(FirstSystem(msgs)) ==> Strip(FirstSystem(msgs).value) <= r)
      && (forall i | 0 <= i < |msgs| && msgs[i].role == User :: Contains(r, Strip(msgs[i].content)))
  {
    var sys := FirstSystem(msgs);
    PromptContainsUserTexts(if Truthy(sys) then Strip(sys.value) + "\n\n" else "", msgs);
  }

  /** Every user message's stripped text is among the stripped user contents. */
  lemma {:induction false} UserContentListed(msgs: seq<Message>, i: nat)
    requires i < |msgs| && msgs[i].role == User
    ensures Strip(msgs[i].content) in StrippedUserContents(msgs)
    decreases i
  {
    if i > 0 {
      UserContentListed(msgs[1..], i - 1);
    }
  }

  /** Whatever stands in front of the joined user texts, every user message's stripped text occurs in the prompt. */
  lemma PromptContainsUserTexts(head: string, msgs: seq<Message>)
    ensures forall i | 0 <= i < |msgs| && msgs[i].role == User
      :: Contains(head + Join(StrippedUserContents(msgs), "\n\n"), Strip(msgs[i].content))
  {
    var users := StrippedUserContents(msgs);
    forall i | 0 <= i < |msgs| && msgs[i].role == User
      ensures Contains(head + Join(users, "\n\n"), Strip(msgs[i].content))
    {
      UserContentListed(msgs, i);
      var k :| 0 <= k < |users| && users[k] == Strip(msgs[i].content);
      JoinContainsPart(users, "\n\n", k);
      ContainsAfterPrefix(head, Join(users, "\n\n"), users[k]);
    }
  }

  /** The `/api/generate` prompt of a built message list is the stripped system text, a blank line, and the stripped prompt. */
  lemma ComposeBuiltMessages(prompt: string, system: Option<string>)
    ensures ComposePrompt(BuildMessages(prompt, system))
         == (if Truthy(system) then Strip(system.value) + "\n\n" else "") + Strip(prompt)
  {
    var msgs := BuildMessages(prompt, system);
    if Truthy(system) {
      assert msgs[1..] == [Message(User, prompt)];
      assert StrippedUserContents(msgs) == StrippedUserContents(msgs[1..]);
      assert StrippedUserContents(msgs[1..]) == [Strip(prompt)] + StrippedUserContents([]);
    } else {
      assert StrippedUserContents(msgs) == [Strip(prompt)] + StrippedUserContents([]);
    }
  }

  /** `str(os.getenv("OLLAMA_USE_GENERATE", "")).lower() in ("1", "true", "yes")`. */
  predicate UseGenerateSetting(v: Option<string>) {
    Lower(v.GetOr("")) in {"1", "true", "yes"}
  }

  lemma UseGenerateSettingExamples()
    ensures UseGenerateSetting(Some("TRUE")) && UseGenerateSetting(Some("Yes")) && UseGenerateSetting(Some("1"))
    ensures !UseGenerateSetting(None) && !UseGenerateSetting(Some("on")) && !UseGenerateSetting(Some("0"))
  {
    assert Lower("TRUE") == "true";
    assert Lower("Yes") == "yes";
    assert Lower("1") == "1";
    assert Lower("on") == "on";
    assert Lower("0") == "0";
    assert Lower("") == "";
  }

  // ---------------------------------------------------------------------------
  // Ollama wire format
  // ---------------------------------------------------------------------------

  /** A JSON field: absent, `null`, or a string. */
  datatype Field = Missing | Null | JsonString(s: string)

  /**
   * One line of a streamed Ollama body (or a whole non-streamed body): blank, not
   * JSON, JSON whose `.get` chain fails (not an object, or a `message` that is not
   * one), or an object with its `message.content` and `response` fields.
   */
  datatype JsonLine = Blank | Invalid | NotAnObject | Object(content: Field, response: Field)

  /** The text of a field when it is a non-empty string. */
  function Nonblank(f: Field): Option<string> {
    if f.JsonString? && f.s != "" then Some(f.s) else None
  }

  /** An HTTP reply: its status and the lines of its body. */
  datatype HttpReply = HttpReply(status: nat, lines: seq<JsonLine>)

  /** `raise_for_status()` raises on a 4xx or 5xx status. */
  predicate IsHttpError(status: nat) {
    400 <= status < 600
  }

  datatype Request =
    | ChatRequest(model: string, messages: seq<Message>, stream: bool)
    | GenerateRequest(model: string, prompt: string, stream: bool)

  /** What one call posted, yielded and returned, and the `use_generate` flag it left behind. */
  datatype StreamCall = StreamCall(posted: seq<Request>, deltas: seq<string>, raised: bool, useGenerate: bool)

  /** Which field a streamed line's delta is read from. */
  datatype Endpoint = ApiChat | ApiGenerate

  function DeltaOf(line: JsonLine, ep: Endpoint): Option<string>
    requires line.Object?
  {
    match ep
    case ApiChat => Nonblank(line.content)
    case ApiGenerate => Nonblank(line.response)
  }

  /**
   * The deltas of a streamed body, and whether reading it raised: blank lines are
   * skipped, a line that does not parse (or is not an object) raises, and only
   * non-empty deltas are yielded.
   */
  function StreamDeltas(lines: seq<JsonLine>, ep: Endpoint): (r: (seq<string>, bool))
    ensures forall k | 0 <= k < |r.0| :: r.0[k] != ""
    ensures |r.0| <= |lines|
    decreases |lines|
  {
    if |lines| == 0 then ([], false)
    else match lines[0]
      case Blank => StreamDeltas(lines[1..], ep)
      case Object(_, _) =>
        var rest := StreamDeltas(lines[1..], ep);
        var d := DeltaOf(lines[0], ep);
        ((if d.Some? then [d.value] else []) + rest.0, rest.1)
      case _ => ([], true)
  }

  /** The text a line contributes to the stream: its delta, or nothing. */
  function LineDelta(line: JsonLine, ep: Endpoint): string {
    if line.Object? then DeltaOf(line, ep).GetOr("") else ""
  }

  /** A body whose lines all parse yields exactly the lines' non-empty deltas, in order, and does not raise. */
  lemma {:induction false} ParsedStreamYieldsDeltas(lines: seq<JsonLine>, ep: Endpoint)
    requires forall i | 0 <= i < |lines| :: lines[i].Blank? || lines[i].Object?
    ensures StreamDeltas(lines, ep) == (NonEmpty(seq(|lines|, i requires 0 <= i < |lines| => LineDelta(lines[i], ep))), false)
    decreases |lines|
  {
    if |lines| > 0 {
      ParsedStreamYieldsDeltas(lines[1..], ep);
      var texts := seq(|lines|, i requires 0 <= i < |lines| => LineDelta(lines[i], ep));
      assert texts[1..] == seq(|lines| - 1, i requires 0 <= i < |lines| - 1 => LineDelta(lines[1..][i], ep));
      assert NonEmpty(texts) == (if texts[0] == [] then [] else [texts[0]]) + NonEmpty(texts[1..]);
      var rest := StreamDeltas(lines[1..], ep);
      if lines[0].Object? {
        var d := DeltaOf(lines[0], ep);
        assert StreamDeltas(lines, ep) == ((if d.Some? then [d.value] else []) + rest.0, rest.1);
        assert d.Some? <==> texts[0] != [];
        assert d.Some? ==> d.value == texts[0];
      } else {
        assert lines[0].Blank? && texts[0] == "";
        assert NonEmpty(texts) == NonEmpty(texts[1..]);
        assert StreamDeltas(lines, ep) == rest;
      }
    }
  }

  /**
   * `OllamaProvider.stream(prompt, system)` with the instance's `use_generate` flag:
   * post to `/api/chat` unless the flag is set; a 404 there sets the flag and goes
   * on to `/api/generate` with the composed prompt.
   */
  function Stream(useGenerate: bool, model: string, prompt: string, system: Option<string>,
                  chat: HttpReply, generate: HttpReply): (c: StreamCall)
    ensures useGenerate ==> c.useGenerate
    ensures c.useGenerate <==> useGenerate || chat.status == 404
    ensures |c.posted| >= 1
    ensures c.posted[0].ChatRequest? <==> !useGenerate
    ensures c.posted[|c.posted| - 1].GenerateRequest? <==> c.useGenerate
  {
    var msgs := BuildMessages(prompt, system);
    var chatReq := ChatRequest(model, msgs, true);
    var genReq := GenerateRequest(model, ComposePrompt(msgs), true);
    if !useGenerate && chat.status != 404 then
      if IsHttpError(chat.status) then StreamCall([chatReq], [], true, false)
      else
        var (ds, raised) := StreamDeltas(chat.lines, ApiChat);
        StreamCall([chatReq], ds, raised, false)
    else
      var pre := if useGenerate then [] else [chatReq];
      if IsHttpError(generate.status) then StreamCall(pre + [genReq], [], true, true)
      else
        var (ds, raised) := StreamDeltas(generate.lines, ApiGenerate);
        StreamCall(pre + [genReq], ds, raised, true)
  }

  /** The HTTP replies one call receives. */
  datatype Exchange = Exchange(prompt: string, system: Option<string>, chat: HttpReply, generate: HttpReply)

  /** Successive `stream` calls on one instance, starting from flag `useGenerate`. */
  function StreamCalls(useGenerate: bool, model: string, xs: seq<Exchange>): (r: seq<StreamCall>)
    ensures |r| == |xs|
    decreases |xs|
  {
    if |xs| == 0 then []
    else
      var c := Stream(useGenerate, model, xs[0].prompt, xs[0].system, xs[0].chat, xs[0].generate);
      [c] + StreamCalls(c.useGenerate, model, xs[1..])
  }

  /**
   * The switch is sticky: once a call has set `use_generate`, every later call on the
   * instance keeps it and posts only to `/api/generate`.
   */
  lemma {:induction false} SwitchIsSticky(useGenerate: bool, model: string, xs: seq<Exchange>, i: nat, j: nat)
    requires i < j < |xs| && StreamCalls(useGenerate, model, xs)[i].useGenerate
    ensures var c := StreamCalls(useGenerate, model, xs)[j];
      c.useGenerate && |c.posted| == 1 && c.posted[0].GenerateRequest?
    decreases i
  {
    var r := StreamCalls(useGenerate, model, xs);
    var c0 := Stream(useGenerate, model, xs[0].prompt, xs[0].system, xs[0].chat, xs[0].generate);
    assert r[1..] == StreamCalls(c0.useGenerate, model, xs[1..]);
    if i > 0 {
      SwitchIsSticky(c0.useGenerate, model, xs[1..], i - 1, j - 1);
    } else {
      SwitchedStaysSwitched(model, xs[1..], j - 1);
    }
  }

  lemma {:induction false} SwitchedStaysSwitched(model: string, xs: seq<Exchange>, j: nat)
    requires j < |xs|
    ensures var c := StreamCalls(true, model, xs)[j];
      c.useGenerate && |c.posted| == 1 && c.posted[0].GenerateRequest?
    decreases j
  {
    var r := StreamCalls(true, model, xs);
    if j > 0 {
      assert r[1..] == StreamCalls(true, model, xs[1..]);
      SwitchedStaysSwitched(model, xs[1..], j - 1);
    }
  }

  /** The outcome of `complete`: a returned value (`None` for a JSON null) or an exception. */
  datatype CompleteResult = Returned(value: Option<string>) | Raised

  datatype CompleteCall = CompleteCall(posted: seq<Request>, result: CompleteResult, useGenerate: bool)

  /** `.get(key, "")` on a parsed body. */
  function GetOrEmpty(f: Field): Option<string> {
    match f
    case Missing => Some("")
    case Null => None
    case JsonString(s) => Some(s)
  }

  /** `r.json()` and the field `complete` returns; a body that is not a JSON object raises. */
  function BodyValue(body: seq<JsonLine>, ep: Endpoint): CompleteResult {
    if |body| != 1 || !body[0].Object? then Raised
    else match ep
      case ApiChat => Returned(GetOrEmpty(body[0].content))
      case ApiGenerate => Returned(GetOrEmpty(body[0].response))
  }

  /** `OllamaProvider.complete(prompt, system)`: the same endpoint choice as `stream`, without streaming. */
  function Complete(useGenerate: bool, model: string, prompt: string, system: Option<string>,
                    chat: HttpReply, generate: HttpReply): (c: CompleteCall)
    ensures c.useGenerate <==> useGenerate || chat.status == 404
    ensures |c.posted| >= 1 && (c.posted[0].ChatRequest? <==> !useGenerate)
    ensures c.posted[|c.posted| - 1].GenerateRequest? <==> c.useGenerate
  {
    var msgs := BuildMessages(prompt, system);
    var chatReq := ChatRequest(model, msgs, false);
    var genReq := GenerateRequest(model, ComposePrompt(msgs), false);
    if !useGenerate && chat.status != 404 then
      CompleteCall([chatReq], if IsHttpError(chat.status) then Raised else BodyValue(chat.lines, ApiChat), false)
    else
      var pre := if useGenerate then [] else [chatReq];
      CompleteCall(pre + [genReq], if IsHttpError(generate.status) then Raised else BodyValue(generate.lines, ApiGenerate), true)
  }

  /** After a 404 from `/api/chat`, the generate request carries the composed prompt. */
  lemma NotFoundFallsBackToGenerate(model: string, prompt: string, system: Option<string>, chat: HttpReply, generate: HttpReply)
    requires chat.status == 404
    ensures var c := Complete(false, model, prompt, system, chat, generate);
      && c.posted == [ChatRequest(model, BuildMessages(prompt, system), false),
                      GenerateRequest(model, (if Truthy(system) then Strip(system.value) + "\n\n" else "") + Strip(prompt), false)]
      && c.useGenerate
  {
    ComposeBuiltMessages(prompt, system);
  }

  // ---------------------------------------------------------------------------
  // OpenAIProvider.complete
  // ---------------------------------------------------------------------------

  /** The `input` of `responses.create`: two structured messages, or the raw prompt. */
  datatype OpenAIInput = Structured(messages: seq<Message>) | RawPrompt(prompt: string)

  function OpenAIInputFor(prompt: string, system: Option<string>): (i: OpenAIInput)
    ensures i.Structured? <==> Truthy(system)
    ensures i.Structured? ==> i.messages == [Message(System, system.value), Message(User, prompt)]
    ensures i.RawPrompt? ==> i.prompt == prompt
  {
    if Truthy(system) then Structured(BuildMessages(prompt, system)) else RawPrompt(prompt)
  }

  /** One content part of a response output item. */
  datatype ContentPart = ContentPart(kind: string, text: string)

  /** The fields `complete` reads from the response: `output` (each item's `content`) and `output_text`. */
  datatype OpenAIResponse = OpenAIResponse(output: seq<seq<ContentPart>>, outputText: string)

  /** The parts in reading order. */
  function Flatten(output: seq<seq<ContentPart>>): seq<ContentPart>
    decreases |output|
  {
    if |output| == 0 then [] else output[0] + Flatten(output[1..])
  }

  /** The text of the first part of kind `output_text`, scanning items then parts. */
  function FirstOutputText(output: seq<seq<ContentPart>>): Option<string>
    decreases |output|
  {
    if |output| == 0 then None
    else match FirstOfKind(output[0])
      case Some(t) => Some(t)
      case None => FirstOutputText(output[1..])
  }

  function FirstOfKind(parts: seq<ContentPart>): (r: Option<string>)
    decreases |parts|
  {
    if |parts| == 0 then None
    else if parts[0].kind == "output_text" then Some(parts[0].text)
    else FirstOfKind(parts[1..])
  }

  /** The first `output_text` part's text, else `resp.output_text`. */
  function OpenAIOutput(resp: OpenAIResponse): string {
    FirstOutputText(resp.output).GetOr(resp.outputText)
  }

  /** Position `i` holds the first part of kind `output_text`. */
  predicate IsFirstOutputText(parts: seq<ContentPart>, i: nat) {
    i < |parts| && parts[i].kind == "output_text" && forall j | 0 <= j < i :: parts[j].kind != "output_text"
  }

  lemma {:induction false} FirstOfKindSpec(parts: seq<ContentPart>)
    ensures FirstOfKind(parts).Some? ==>
      exists i: nat | i < |parts| :: IsFirstOutputText(parts, i) && parts[i].text == FirstOfKind(parts).value
    ensures FirstOfKind(parts).None? ==> forall j | 0 <= j < |parts| :: parts[j].kind != "output_text"
    decreases |parts|
  {
    if |parts| > 0 && parts[0].kind != "output_text" {
      FirstOfKindSpec(parts[1..]);
      if FirstOfKind(parts).Some? {
        var i: nat :| i < |parts| - 1 && IsFirstOutputText(parts[1..], i) && parts[1..][i].text == FirstOfKind(parts).value;
        forall j | 0 <= j < i + 1 ensures parts[j].kind != "output_text" {
          if j > 0 {
            assert parts[j] == parts[1..][j - 1];
          }
        }
        assert IsFirstOutputText(parts, i + 1);
      } else {
        forall j | 0 <= j < |parts| ensures parts[j].kind != "output_text" {
          if j > 0 {
            assert parts[j] == parts[1..][j - 1];
          }
        }
      }
    } else if |parts| > 0 {
      assert IsFirstOutputText(parts, 0);
    }
  }

  lemma {:induction false} FirstOfKindAppend(a: seq<ContentPart>, b: seq<ContentPart>)
    ensures FirstOfKind(a + b) == if FirstOfKind(a).Some? then FirstOfKind(a) else FirstOfKind(b)
    decreases |a|
  {
    if |a| == 0 {
      assert a + b == b;
    } else {
      assert (a + b)[1..] == a[1..] + b;
      FirstOfKindAppend(a[1..], b);
    }
  }

  /** Scanning item by item and part by part finds the first `output_text` part of the flattened parts. */
  lemma {:induction false} NestedScanIsFlatScan(output: seq<seq<ContentPart>>)
    ensures FirstOutputText(output) == FirstOfKind(Flatten(output))
    decreases |output|
  {
    if |output| > 0 {
      NestedScanIsFlatScan(output[1..]);
      FirstOfKindAppend(output[0], Flatten(output[1..]));
    }
  }

  /**
   * The returned text is that of the first `output_text` part in reading order, or,
   * when there is none, `output_text`.
   */
  lemma OpenAIOutputIsFirstText(resp: OpenAIResponse)
    ensures var flat := Flatten(resp.output);
      && ((exists i: nat | i < |flat| :: flat[i].kind == "output_text") ==>
            exists i: nat | i < |flat| :: IsFirstOutputText(flat, i) && OpenAIOutput(resp) == flat[i].text)
      && ((forall j | 0 <= j < |flat| :: flat[j].kind != "output_text") ==> OpenAIOutput(resp) == resp.outputText)
  {
    NestedScanIsFlatScan(resp.output);
    FirstOfKindSpec(Flatten(resp.output));
  }
}

=== FILE: sse.dfy ===
/**
 * Server-sent events as the chat endpoints write them, and a decoder that reads an
 * event stream the way section 9.2.6 of the WHATWG HTML standard ("Interpreting an
 * event stream") prescribes: lines end at CRLF, LF or CR; an empty line dispatches the
 * buffered event; `event` sets the type and every `data` line appends its value and a
 * line feed to the data buffer. Bytes are modelled as characters (the UTF-8 encoding
 * and decoding cancel out).
 */
module ServerSentEvents {
  import opened Text

  /** One dispatched event: its type and its data. */
  datatype Event = Event(name: string, data: string)

  /** `sse(event, data)`: the frame the chat endpoints write for one event. */
  function Frame(name: string, data: string): (r: string)
    ensures NoEol(name) && NoEol(data) ==> StreamLines(r) == FrameLineList(name, data)
  {
    var r := "event: " + name + "\ndata: " + data + "\n\n";
    FrameTextIsLines(name, data);
    if NoEol(name) && NoEol(data) then
      FieldLineNoEol("event", name);
      FieldLineNoEol("data", data);
      StreamLinesOfTerminated(FrameLineList(name, data));
      r
    else r
  }

  /** The text of a stream of events, framed one after the other. */
  function Wire(events: seq<Event>): string
    decreases |events|
  {
    if |events| == 0 then [] else Frame(events[0].name, events[0].data) + Wire(events[1..])
  }

  predicate IsEol(c: char) {
    c == '\r' || c == '\n'
  }

  /** Neither line-ending character occurs in `s`. */
  predicate NoEol(s: string) {
    forall i | 0 <= i < |s| :: !IsEol(s[i])
  }

  /** The first line end at or after `i`, or `|s|`. */
  function FirstEol(s: string, i: nat): (k: nat)
    requires i <= |s|
    ensures i <= k <= |s|
    ensures forall j | i <= j < k :: !IsEol(s[j])
    ensures k < |s| ==> IsEol(s[k])
    decreases |s| - i
  {
    if i == |s| || IsEol(s[i]) then i else FirstEol(s, i + 1)
  }

  /** The width of the line end at `e`: two for CRLF, one for a lone CR or LF. */
  function EolWidth(s: string, e: nat): (w: nat)
    requires e < |s| && IsEol(s[e])
    ensures 1 <= w <= 2 && e + w <= |s|
  {
    if s[e] == '\r' && e + 1 < |s| && s[e + 1] == '\n' then 2 else 1
  }

  /** The complete lines of a stream; text after the last line end is not a line yet. */
  function StreamLines(s: string): (r: seq<string>)
    ensures forall k | 0 <= k < |r| :: NoEol(r[k])
    decreases |s|
  {
    var e := FirstEol(s, 0);
    if e == |s| then [] else [s[..e]] + StreamLines(s[e + EolWidth(s, e)..])
  }

  /** Lines each followed by a line feed. */
  function Terminated(lines: seq<string>): string
    decreases |lines|
  {
    if |lines| == 0 then [] else lines[0] + "\n" + Terminated(lines[1..])
  }

  /** The index of the first `c` in `s`, or `|s|`. */
  function IndexOf(s: string, c: char): (k: nat)
    ensures k <= |s|
    ensures forall j | 0 <= j < k :: s[j] != c
    ensures k < |s| ==> s[k] == c
    decreases |s|
  {
    if |s| == 0 || s[0] == c then 0 else 1 + IndexOf(s[1..], c)
  }

  /** A field line split at its first colon; one space after the colon is dropped. */
  function ParseField(line: string): (string, string) {
    var k := IndexOf(line, ':');
    if k == |line| then (line, [])
    else
      var v := line[k + 1..];
      (line[..k], if |v| > 0 && v[0] == ' ' then v[1..] else v)
  }

  /** The decoder's buffers and the events dispatched so far. */
  datatype Decoder = Decoder(name: string, data: string, events: seq<Event>)

  const Initial := Decoder([], [], [])

  /** The decoder after one line. */
  function Step(st: Decoder, line: string): Decoder {
    if line == [] then
      if st.data == [] then Decoder([], [], st.events)
      else
        var name := if st.name == [] then "message" else st.name;
        Decoder([], [], st.events + [Event(name, st.data[..|st.data| - 1])])
    else if line[0] == ':' then st
    else
      var (field, value) := ParseField(line);
      if field == "event" then st.(name := value)
      else if field == "data" then st.(data := st.data + value + "\n")
      else st
  }

  function Run(st: Decoder, lines: seq<string>): Decoder
    decreases |lines|
  {
    if |lines| == 0 then st else Run(Step(st, lines[0]), lines[1..])
  }

  /** The events a client reads from the stream `s`. */
  function Decode(s: string): seq<Event> {
    Run(Initial, StreamLines(s)).events
  }

  lemma {:induction false} RunAppend(st: Decoder, a: seq<string>, b: seq<string>)
    ensures Run(st, a + b) == Run(Run(st, a), b)
    decreases |a|
  {
    if |a| > 0 {
      assert (a + b)[0] == a[0];
      assert (a + b)[1..] == a[1..] + b;
      assert Run(st, a + b) == Run(Step(st, a[0]), a[1..] + b);
      RunAppend(Step(st, a[0]), a[1..], b);
    } else {
      assert a + b == b;
    }
  }

  /** Dispatched events are never taken back. */
  lemma {:induction false} RunKeepsEvents(st: Decoder, lines: seq<string>)
    ensures st.events <= Run(st, lines).events
    decreases |lines|
  {
    if |lines| > 0 {
      RunKeepsEvents(Step(st, lines[0]), lines[1..]);
    }
  }

  lemma TerminatedAppend(a: seq<string>, b: seq<string>)
    ensures Terminated(a + b) == Terminated(a) + Terminated(b)
    decreases |a|
  {
    if |a| > 0 {
      assert (a + b)[0] == a[0];
      assert (a + b)[1..] == a[1..] + b;
      TerminatedAppend(a[1..], b);
      calc {
        Terminated(a + b);
        a[0] + "\n" + Terminated(a[1..] + b);
        a[0] + "\n" + (Terminated(a[1..]) + Terminated(b));
        (a[0] + "\n" + Terminated(a[1..])) + Terminated(b);
      }
    } else {
      assert a + b == b;
    }
  }

  /** Lines without line-ending characters, each ended by LF, read back as the same lines. */
  lemma {:induction false} StreamLinesOfTerminated(lines: seq<string>)
    requires forall k | 0 <= k < |lines| :: NoEol(lines[k])
    ensures StreamLines(Terminated(lines)) == lines
    decreases |lines|
  {
    if |lines| > 0 {
      var l, s := lines[0], Terminated(lines);
      assert s == l + "\n" + Terminated(lines[1..]);
      assert s[|l|] == '\n';
      var e := FirstEol(s, 0);
      assert forall j | 0 <= j < |l| :: s[j] == l[j] && !IsEol(s[j]);
      assert e == |l|;
      assert EolWidth(s, e) == 1;
      assert s[..e] == l;
      assert s[e + 1..] == Terminated(lines[1..]);
      StreamLinesOfTerminated(lines[1..]);
    }
  }

  /** The line `key: value`. */
  function FieldLine(key: string, value: string): string {
    key + ": " + value
  }

  /** The three lines of one frame. */
  function FrameLineList(name: string, data: string): seq<string> {
    [FieldLine("event", name), FieldLine("data", data), []]
  }

  /** A frame is its three lines, each ended by LF. */
  lemma FrameIsLines(name: string, data: string)
    ensures Frame(name, data) == Terminated(FrameLineList(name, data))
  {
    FrameTextIsLines(name, data);
  }

  /** The frame text, written out, is its three lines each ended by LF. */
  lemma FrameTextIsLines(name: string, data: string)
    ensures "event: " + name + "\ndata: " + data + "\n\n" == Terminated(FrameLineList(name, data))
  {
    var ls := FrameLineList(name, data);
    assert Terminated(ls[2..]) == "\n";
    assert Terminated(ls[1..]) == FieldLine("data", data) + "\n" + "\n";
    assert Terminated(ls) == FieldLine("event", name) + "\n" + (FieldLine("data", data) + "\n" + "\n");
  }

  /** The field line parses back into its key and value. */
  lemma ParseFieldLine(key: string, value: string)
    requires ':' !in key
    ensures ParseField(FieldLine(key, value)) == (key, value)
  {
    var line := FieldLine(key, value);
    assert forall j | 0 <= j < |key| :: line[j] == key[j] && line[j] != ':';
    assert line[|key|] == ':';
    var k := IndexOf(line, ':');
    assert k == |key|;
    assert line[k + 1..] == " " + value;
    assert line[..k] == key;
  }

  lemma StepEvent(st: Decoder, name: string)
    ensures Step(st, FieldLine("event", name)) == st.(name := name)
  {
    ParseFieldLine("event", name);
    assert FieldLine("event", name)[0] == 'e';
  }

  lemma StepData(st: Decoder, data: string)
    ensures Step(st, FieldLine("data", data)) == st.(data := st.data + data + "\n")
  {
    ParseFieldLine("data", data);
    assert FieldLine("data", data)[0] == 'd';
  }

  /** The empty line dispatches `data` without its final line feed. */
  lemma StepDispatch(name: string, data: string, evs: seq<Event>)
    requires name != []
    ensures Step(Decoder(name, data + "\n", evs), []) == Decoder([], [], evs + [Event(name, data)])
  {
    assert (data + "\n")[..|data|] == data;
  }

  lemma RunCons(st: Decoder, line: string, rest: seq<string>)
    ensures Run(st, [line] + rest) == Run(Step(st, line), rest)
  {
    assert ([line] + rest)[0] == line;
    assert ([line] + rest)[1..] == rest;
  }

  /** The state after a whole frame. */
  lemma RunFrame(evs: seq<Event>, name: string, data: string)
    requires name != []
    ensures Run(Decoder([], [], evs), FrameLineList(name, data)) == Decoder([], [], evs + [Event(name, data)])
  {
    var l0, l1 := FieldLine("event", name), FieldLine("data", data);
    var st0, st1, st2 := Decoder([], [], evs), Decoder(name, [], evs), Decoder(name, data + "\n", evs);
    assert FrameLineList(name, data) == [l0] + ([l1] + [[]]);
    RunCons(st0, l0, [l1] + [[]]);
    StepEvent(st0, name);
    RunCons(st1, l1, [[]]);
    StepData(st1, data);
    assert [] + data + "\n" == data + "\n";
    var none: seq<string> := [];
    RunCons(st2, [], none);
    assert [[]] + none == [[]];
    StepDispatch(name, data, evs);
  }

  /** The lines of the frames of `events`. */
  function FramesLines(events: seq<Event>): seq<string>
    decreases |events|
  {
    if |events| == 0 then [] else FrameLineList(events[0].name, events[0].data) + FramesLines(events[1..])
  }

  /** Every event has a non-empty single-line type and single-line data. */
  predicate SingleLineEvents(events: seq<Event>) {
    forall k | 0 <= k < |events| :: events[k].name != [] && NoEol(events[k].name) && NoEol(events[k].data)
  }

  lemma {:induction false} WireIsFramesLines(events: seq<Event>)
    ensures Wire(events) == Terminated(FramesLines(events))
    decreases |events|
  {
    if |events| > 0 {
      var e := events[0];
      FrameIsLines(e.name, e.data);
      WireIsFramesLines(events[1..]);
      TerminatedAppend(FrameLineList(e.name, e.data), FramesLines(events[1..]));
    }
  }

  /** A field line has a line end only where its value has one. */
  lemma FieldLineNoEol(key: string, value: string)
    requires NoEol(key) && NoEol(value)
    ensures NoEol(FieldLine(key, value))
  {
    var line := FieldLine(key, value);
    forall i | 0 <= i < |line|
      ensures !IsEol(line[i])
    {
      if i < |key| {
        assert line[i] == key[i];
      } else if i >= |key| + 2 {
        assert line[i] == value[i - |key| - 2];
      }
    }
  }

  lemma {:induction false} FramesLinesHaveNoEol(events: seq<Event>)
    requires SingleLineEvents(events)
    ensures forall k | 0 <= k < |FramesLines(events)| :: NoEol(FramesLines(events)[k])
    decreases |events|
  {
    if |events| > 0 {
      var e := events[0];
      assert NoEol(e.name) && NoEol(e.data);
      FieldLineNoEol("event", e.name);
      FieldLineNoEol("data", e.data);
      var head := FrameLineList(e.name, e.data);
      assert forall k | 0 <= k < |head| :: NoEol(head[k]);
      FramesLinesHaveNoEol(events[1..]);
    }
  }

  lemma {:induction false} RunFramesLines(evs: seq<Event>, events: seq<Event>)
    requires SingleLineEvents(events)
    ensures Run(Decoder([], [], evs), FramesLines(events)) == Decoder([], [], evs + events)
    decreases |events|
  {
    if |events| > 0 {
      var e, rest := events[0], events[1..];
      assert evs + [e] + rest == evs + events by {
        assert events == [e] + rest;
      }
      var head := FrameLineList(e.name, e.data);
      assert FramesLines(events) == head + FramesLines(rest);
      assert SingleLineEvents(rest) by {
        forall k | 0 <= k < |rest|
          ensures rest[k].name != [] && NoEol(rest[k].name) && NoEol(rest[k].data)
        {
          assert rest[k] == events[k + 1];
        }
      }
      RunAppend(Decoder([], [], evs), head, FramesLines(rest));
      RunFrame(evs, e.name, e.data);
      RunFramesLines(evs + [e], rest);
    }
  }

  /**
   * A client reads back exactly the events written, provided every type is non-empty
   * and no type or data holds a line-ending character.
   */
  lemma WireRoundTrip(events: seq<Event>)
    requires SingleLineEvents(events)
    ensures Decode(Wire(events)) == events
  {
    WireIsFramesLines(events);
    FramesLinesHaveNoEol(events);
    StreamLinesOfTerminated(FramesLines(events));
    RunFramesLines([], events);
  }

  /** A payload with a line feed in it makes the frame four lines long. */
  lemma FrameWithLineFeed(name: string, a: string, b: string)
    ensures Frame(name, a + "\n" + b) == Terminated([FieldLine("event", name), FieldLine("data", a), b, []])
  {
    var ls := [FieldLine("event", name), FieldLine("data", a), b, []];
    assert Terminated(ls[3..]) == "\n";
    assert Terminated(ls[2..]) == b + "\n" + "\n";
    assert Terminated(ls[1..]) == FieldLine("data", a) + "\n" + (b + "\n" + "\n");
    assert Terminated(ls) == FieldLine("event", name) + "\n" + (FieldLine("data", a) + "\n" + (b + "\n" + "\n"));
  }

  /** A line that is not a comment and names neither `event` nor `data`. */
  predicate IgnoredLine(line: string) {
    line != [] && line[0] != ':' && ParseField(line).0 != "event" && ParseField(line).0 != "data"
  }

  /**
   * The framing as written loses data: a payload holding a line feed is cut at it, and
   * what follows becomes a line of its own, which the decoder ignores when it does not
   * happen to look like a field.
   */
  lemma MultiLineDataIsCut(name: string, a: string, b: string)
    requires name != [] && NoEol(name) && NoEol(a) && NoEol(b) && IgnoredLine(b)
    ensures Decode(Frame(name, a + "\n" + b)) == [Event(name, a)]
  {
    var lines := [FieldLine("event", name), FieldLine("data", a), b, []];
    FrameWithLineFeed(name, a, b);
    FieldLineNoEol("event", name);
    FieldLineNoEol("data", a);
    StreamLinesOfTerminated(lines);
    RunCutFrame(name, a, b);
  }

  /** The decoder reads the lines of a cut frame as one event holding the first part. */
  lemma RunCutFrame(name: string, a: string, b: string)
    requires name != [] && IgnoredLine(b)
    ensures Run(Initial, [FieldLine("event", name), FieldLine("data", a), b, []]) == Decoder([], [], [Event(name, a)])
  {
    var l0, l1 := FieldLine("event", name), FieldLine("data", a);
    var st1, st2 := Decoder(name, [], []), Decoder(name, a + "\n", []);
    var none: seq<string> := [];
    assert [l0, l1, b, []] == [l0] + ([l1] + ([b] + [[]]));
    RunCons(Initial, l0, [l1] + ([b] + [[]]));
    StepEvent(Initial, name);
    RunCons(st1, l1, [b] + [[]]);
    StepData(st1, a);
    assert [] + a + "\n" == a + "\n";
    RunCons(st2, b, [[]]);
    assert Step(st2, b) == st2;
    RunCons(st2, [], none);
    assert [[]] + none == [[]];
    StepDispatch(name, a, []);
    assert [] + [Event(name, a)] == [Event(name, a)];
  }

  /** The token `"a\nb"` reaches the client as `"a"`. */
  lemma MultiLineTokenExample()
    ensures Decode(Frame("token", "a\nb")) == [Event("token", "a")]
  {
    assert NoEol("token") && NoEol("a") && NoEol("b");
    assert ParseField("b") == ("b", []);
    MultiLineDataIsCut("token", "a", "b");
    assert "a" + "\n" + "b" == "a\nb";
  }

  /** One `data` line per line of the payload. */
  function DataLines(pieces: seq<string>): (r: seq<string>)
    ensures |r| == |pieces|
    decreases |pieces|
  {
    if |pieces| == 0 then [] else [FieldLine("data", pieces[0])] + DataLines(pieces[1..])
  }

  lemma {:induction false} DataLinesAt(pieces: seq<string>, k: nat)
    requires k < |pieces|
    ensures DataLines(pieces)[k] == FieldLine("data", pieces[k])
    decreases |pieces|
  {
    if k > 0 {
      DataLinesAt(pieces[1..], k - 1);
    }
  }

  /** The lines of the corrected frame: the payload split at line feeds, one data line each. */
  function MultiLineList(name: string, data: string): seq<string> {
    [FieldLine("event", name)] + DataLines(SplitAt(data, '\n')) + [[]]
  }

  /** The corrected frame. */
  function FrameMultiLine(name: string, data: string): string {
    Terminated(MultiLineList(name, data))
  }

  /** A stream of events, each in the corrected frame. */
  function WireMultiLine(events: seq<Event>): string
    decreases |events|
  {
    if |events| == 0 then [] else FrameMultiLine(events[0].name, events[0].data) + WireMultiLine(events[1..])
  }

  /** Every event has a non-empty single-line type and data without a carriage return. */
  predicate LineFeedEvents(events: seq<Event>) {
    forall k | 0 <= k < |events| :: events[k].name != [] && NoEol(events[k].name) && '\r' !in events[k].data
  }

  lemma {:induction false} TerminatedIsJoin(pieces: seq<string>)
    requires |pieces| >= 1
    ensures Terminated(pieces) == Join(pieces, "\n") + "\n"
    decreases |pieces|
  {
    if |pieces| > 1 {
      TerminatedIsJoin(pieces[1..]);
    }
  }

  lemma {:induction false} RunDataLines(st: Decoder, pieces: seq<string>)
    ensures Run(st, DataLines(pieces)) == st.(data := st.data + Terminated(pieces))
    decreases |pieces|
  {
    if |pieces| > 0 {
      var p, rest := pieces[0], pieces[1..];
      var next := st.(data := st.data + p + "\n");
      assert st.data + p + "\n" + Terminated(rest) == st.data + Terminated(pieces) by {
        assert Terminated(pieces) == p + "\n" + Terminated(rest);
      }
      var ls := DataLines(pieces);
      assert ls == [FieldLine("data", p)] + DataLines(rest);
      StepData(st, p);
      assert Run(st, ls) == Run(next, DataLines(rest));
      RunDataLines(next, rest);
    } else {
      assert st.data + [] == st.data;
    }
  }

  lemma DataLinesHaveNoEol(data: string)
    requires '\r' !in data
    ensures forall k | 0 <= k < |SplitAt(data, '\n')| :: NoEol(FieldLine("data", SplitAt(data, '\n')[k]))
  {
    var pieces := SplitAt(data, '\n');
    forall k | 0 <= k < |pieces|
      ensures NoEol(FieldLine("data", pieces[k]))
    {
      forall i | 0 <= i < |pieces[k]|
        ensures !IsEol(pieces[k][i])
      {
        SplitAtPieces(data, '\n', k, i);
      }
      FieldLineNoEol("data", pieces[k]);
    }
  }

  lemma MultiLineListNoEol(name: string, data: string)
    requires NoEol(name) && '\r' !in data
    ensures forall k | 0 <= k < |MultiLineList(name, data)| :: NoEol(MultiLineList(name, data)[k])
  {
    var pieces := SplitAt(data, '\n');
    var lines := MultiLineList(name, data);
    DataLinesHaveNoEol(data);
    FieldLineNoEol("event", name);
    forall k | 0 <= k < |lines|
      ensures NoEol(lines[k])
    {
      if 1 <= k < |lines| - 1 {
        assert lines[k] == DataLines(pieces)[k - 1];
        DataLinesAt(pieces, k - 1);
      }
    }
  }

  /** The state after a whole corrected frame: the payload comes back whole, line feeds included. */
  lemma RunMultiLine(evs: seq<Event>, name: string, data: string)
    requires name != []
    ensures Run(Decoder([], [], evs), MultiLineList(name, data)) == Decoder([], [], evs + [Event(name, data)])
  {
    var pieces := SplitAt(data, '\n');
    var head := [FieldLine("event", name)] + DataLines(pieces);
    var st0 := Decoder([], [], evs);
    StepEvent(st0, name);
    var st1 := Decoder(name, [], evs);
    RunAppend(st0, head, [[]]);
    RunAppend(st0, [FieldLine("event", name)], DataLines(pieces));
    assert Run(st0, [FieldLine("event", name)]) == st1;
    RunDataLines(st1, pieces);
    TerminatedIsJoin(pieces);
    JoinSplitAt(data, '\n');
    assert [] + Terminated(pieces) == data + "\n";
    StepDispatch(name, data, evs);
    assert Run(Decoder(name, data + "\n", evs), [[]]) == Step(Decoder(name, data + "\n", evs), []);
  }

  /** The lines of the corrected frames of `events`. */
  function MultiFramesLines(events: seq<Event>): seq<string>
    decreases |events|
  {
    if |events| == 0 then [] else MultiLineList(events[0].name, events[0].data) + MultiFramesLines(events[1..])
  }

  lemma {:induction false} WireMultiLineIsLines(events: seq<Event>)
    ensures WireMultiLine(events) == Terminated(MultiFramesLines(events))
    decreases |events|
  {
    if |events| > 0 {
      var e := events[0];
      WireMultiLineIsLines(events[1..]);
      TerminatedAppend(MultiLineList(e.name, e.data), MultiFramesLines(events[1..]));
    }
  }

  lemma {:induction false} MultiFramesLinesHaveNoEol(events: seq<Event>)
    requires LineFeedEvents(events)
    ensures forall k | 0 <= k < |MultiFramesLines(events)| :: NoEol(MultiFramesLines(events)[k])
    decreases |events|
  {
    if |events| > 0 {
      var e := events[0];
      assert NoEol(e.name) && '\r' !in e.data;
      MultiLineListNoEol(e.name, e.data);
      assert LineFeedEvents(events[1..]) by {
        forall k | 0 <= k < |events[1..]|
          ensures events[1..][k].name != [] && NoEol(events[1..][k].name) && '\r' !in events[1..][k].data
        {
          assert events[1..][k] == events[k + 1];
        }
      }
      MultiFramesLinesHaveNoEol(events[1..]);
    }
  }

  /** Every event has a type. */
  predicate Named(events: seq<Event>) {
    forall k | 0 <= k < |events| :: events[k].name != []
  }

  lemma {:induction false} RunMultiFramesLines(evs: seq<Event>, events: seq<Event>)
    requires Named(events)
    ensures Run(Decoder([], [], evs), MultiFramesLines(events)) == Decoder([], [], evs + events)
    decreases |events|
  {
    if |events| > 0 {
      var e, rest := events[0], events[1..];
      assert evs + [e] + rest == evs + events by {
        assert events == [e] + rest;
      }
      var head := MultiLineList(e.name, e.data);
      assert MultiFramesLines(events) == head + MultiFramesLines(rest);
      assert Named(rest) by {
        forall k | 0 <= k < |rest|
          ensures rest[k].name != []
        {
          assert rest[k] == events[k + 1];
        }
      }
      RunAppend(Decoder([], [], evs), head, MultiFramesLines(rest));
      RunMultiLine(evs, e.name, e.data);
      RunMultiFramesLines(evs + [e], rest);
    }
  }

  /**
   * With the corrected framing a client reads back exactly the events written,
   * multi-line payloads included, provided no payload holds a carriage return.
   */
  lemma WireMultiLineRoundTrip(events: seq<Event>)
    requires LineFeedEvents(events)
    ensures Decode(WireMultiLine(events)) == events
  {
    WireMultiLineIsLines(events);
    MultiFramesLinesHaveNoEol(events);
    StreamLinesOfTerminated(MultiFramesLines(events));
    RunMultiFramesLines([], events);
  }

  /** One event in the corrected frame comes back whole. */
  lemma FrameMultiLineRoundTrip(name: string, data: string)
    requires name != [] && NoEol(name) && '\r' !in data
    ensures Decode(FrameMultiLine(name, data)) == [Event(name, data)]
  {
    var events := [Event(name, data)];
    assert WireMultiLine(events) == FrameMultiLine(name, data) + WireMultiLine([]);
    assert FrameMultiLine(name, data) + [] == FrameMultiLine(name, data);
    WireMultiLineRoundTrip(events);
  }

  /** For a payload without a line feed the corrected frame is the frame `sse` writes. */
  lemma FrameMultiLineAgrees(name: string, data: string)
    requires '\n' !in data
    ensures FrameMultiLine(name, data) == Frame(name, data)
  {
    SplitOnRun(data, x => x == '\n', |data|);
    assert data[..|data|] == data;
    assert SplitAt(data, '\n') == [data];
    assert DataLines([data]) == [FieldLine("data", data)];
    assert MultiLineList(name, data) == FrameLineList(name, data);
    FrameIsLines(name, data);
  }
}

=== FILE: store.dfy ===
/**
 * The vector store's pure parts: the query request `similarity_search` builds, and the
 * reshaping of the store's column-wise results into one hit per row, for both
 * `similarity_search` and `get_chunks_by_document`. The store itself is a parameter.
 */
module VectorStore {
  import opened Wrappers
  import opened Embedder

  /** A chunk's metadata as stored at upload; an absent key reads as `None`. */
  datatype Metadata = Metadata(documentId: Option<string>, chunkIndex: Option<nat>, filename: Option<string>)

  /** One retrieved row: `{"id": …, "text": …, "metadata": …}`. A `None` metadata stands for a missing or empty mapping. */
  datatype Hit = Hit(id: Option<string>, text: Option<string>, metadata: Option<Metadata>)

  /** The arguments of `_collection.query`: one query vector, `n_results` and the `where` filter. */
  datatype Query = Query(embedding: seq<nat>, nResults: nat, documentFilter: Option<string>)

  /**
   * The column-wise answer of `_collection.query`: one inner list per query vector. A
   * missing or `None` column is `None`.
   */
  datatype QueryResult = QueryResult(
    ids: Option<seq<seq<string>>>,
    documents: Option<seq<seq<Option<string>>>>,
    metadatas: Option<seq<seq<Option<Metadata>>>>)

  /** The column-wise answer of `_collection.get`. */
  datatype GetResult = GetResult(
    ids: Option<seq<string>>,
    documents: Option<seq<Option<string>>>,
    metadatas: Option<seq<Option<Metadata>>>)

  /** `{"document_id": document_id} if document_id else None`. */
  function DocumentFilter(documentId: Option<string>): (w: Option<string>)
    ensures w.Some? <==> documentId.Some? && documentId.value != ""
    ensures w.Some? ==> w == documentId
  {
    match documentId
    case Some(d) => if d != "" then Some(d) else None
    case None => None
  }

  /** The request `similarity_search(query, top_k, document_id)` sends to the store. */
  function SearchQuery(query: string, topK: nat, documentId: Option<string>): (q: Query)
    ensures |q.embedding| == EMBED_DIM
    ensures q.nResults == topK
    ensures q.documentFilter.Some? <==> documentId.Some? && documentId.value != ""
  {
    Query(HashEmbedBatch([Some(query)], EMBED_DIM)[0], topK, DocumentFilter(documentId))
  }

  /** The query vector is the query's own embedding. */
  lemma SearchQueryEmbedsQuery(query: string, topK: nat, documentId: Option<string>)
    ensures SearchQuery(query, topK, documentId).embedding == HashEmbed(Some(query), EMBED_DIM)
  {
  }

  /** `res.get("ids")` is truthy. */
  predicate HasIds(res: QueryResult) {
    res.ids.Some? && res.ids.value != []
  }

  /**
   * The loop over `res["ids"][0]` reads row `i` of the first document and metadata
   * columns: it completes iff those columns are present and at least as long.
   */
  predicate RowsReadable(res: QueryResult)
    requires HasIds(res)
  {
    var n := |res.ids.value[0]|;
    n == 0 ||
    (&& res.documents.Some? && res.documents.value != [] && |res.documents.value[0]| >= n
     && res.metadatas.Some? && res.metadatas.value != [] && |res.metadatas.value[0]| >= n)
  }

  /**
   * The hits of `similarity_search`: `None` when the loop raises (a column shorter than
   * the ids, or missing); no hits when `ids` is falsy.
   */
  function SearchHits(res: QueryResult): (r: Option<seq<Hit>>)
    ensures !HasIds(res) ==> r == Some([])
    ensures HasIds(res) ==> (r.Some? <==> RowsReadable(res))
    ensures r.Some? && HasIds(res) ==> |r.value| == |res.ids.value[0]|
  {
    if !HasIds(res) then Some([])
    else
      var ids := res.ids.value[0];
      if |ids| == 0 then Some([])
      else if !RowsReadable(res) then None
      else
        var docs, metas := res.documents.value[0], res.metadatas.value[0];
        Some(seq(|ids|, i requires 0 <= i < |ids| => Hit(Some(ids[i]), docs[i], metas[i])))
  }

  /** Hit `i` pairs the `i`-th id, document and metadata of the first query's columns. */
  lemma SearchHitsArePositional(res: QueryResult, i: nat)
    requires HasIds(res) && RowsReadable(res) && i < |res.ids.value[0]|
    ensures SearchHits(res).Some?
    ensures SearchHits(res).value[i]
         == Hit(Some(res.ids.value[0][i]), res.documents.value[0][i], res.metadatas.value[0][i])
  {
  }

  /** `x or []` for a column of `_collection.get`. */
  function Column<T>(c: Option<seq<T>>): (r: seq<T>)
    ensures c.None? ==> r == []
    ensures c.Some? ==> r == c.value
  {
    c.GetOr([])
  }

  /**
   * The hits of `get_chunks_by_document`: one per id, missing columns read as empty
   * lists; `None` when a document or metadata column is shorter than the ids (the loop
   * raises).
   */
  function DocumentChunks(res: GetResult): (r: Option<seq<Hit>>)
    ensures r.Some? <==> |Column(res.documents)| >= |Column(res.ids)| && |Column(res.metadatas)| >= |Column(res.ids)|
    ensures r.Some? ==> |r.value| == |Column(res.ids)|
    ensures r.Some? ==> forall i | 0 <= i < |r.value| ::
      r.value[i] == Hit(Some(Column(res.ids)[i]), Column(res.documents)[i], Column(res.metadatas)[i])
  {
    var ids, docs, metas := Column(res.ids), Column(res.documents), Column(res.metadatas);
    if |docs| >= |ids| && |metas| >= |ids| then
      Some(seq(|ids|, i requires 0 <= i < |ids| => Hit(Some(ids[i]), docs[i], metas[i])))
    else None
  }

  /** A result without ids gives no chunks, whatever the other columns hold. */
  lemma NoIdsNoChunks(res: GetResult)
    requires res.ids.None? || res.ids == Some([])
    ensures DocumentChunks(res) == Some([])
  {
  }
}

=== FILE: text.dfy ===
/**
 * Character classes and string operations of Python that the pipeline relies on:
 * `str.isspace`/`\s`, `strip`, ASCII `lower`, `join`, `splitlines`-style splitting,
 * slicing with Python's index clamping, and `str(n)` for naturals.
 */
module Text {
  import opened Wrappers

  /** Python truthiness of an optional string: present and non-empty. */
  predicate Truthy(s: Option<string>) {
    s.Some? && s.value != ""
  }

  /** A character for which Python's `str.isspace()` holds; `re`'s `\s` matches the same set. */
  predicate IsSpace(c: char) {
    || c == ' '
    || '\t' <= c <= '\r'
    || '\U{1C}' <= c <= '\U{1F}'
    || c == '\U{85}' || c == '\U{A0}' || c == '\U{1680}'
    || '\U{2000}' <= c <= '\U{200A}'
    || c == '\U{2028}' || c == '\U{2029}' || c == '\U{202F}' || c == '\U{205F}' || c == '\U{3000}'
  }

  /** A character at which `str.splitlines()` ends a line. */
  predicate IsLineBreak(c: char) {
    || c == '\n' || c == '\r' || c == '\U{B}' || c == '\U{C}'
    || c == '\U{1C}' || c == '\U{1D}' || c == '\U{1E}'
    || c == '\U{85}' || c == '\U{2028}' || c == '\U{2029}'
  }

  lemma LineBreakIsSpace(c: char)
    requires IsLineBreak(c)
    ensures IsSpace(c)
  {
  }

  predicate IsBlank(s: string) {
    forall i | 0 <= i < |s| :: IsSpace(s[i])
  }

  /** The characters of `s` that are not whitespace, in order. */
  function NonSpace(s: string): string {
    if |s| == 0 then []
    else (if IsSpace(s[0]) then [] else [s[0]]) + NonSpace(s[1..])
  }

  lemma {:induction false} NonSpaceAppend(a: string, b: string)
    ensures NonSpace(a + b) == NonSpace(a) + NonSpace(b)
    decreases |a|
  {
    if |a| > 0 {
      assert (a + b)[0] == a[0];
      assert (a + b)[1..] == a[1..] + b;
      NonSpaceAppend(a[1..], b);
    } else {
      assert a + b == b;
    }
  }

  lemma {:induction false} NonSpaceOfBlank(s: string)
    ensures IsBlank(s) <==> NonSpace(s) == []
    decreases |s|
  {
    if |s| > 0 {
      NonSpaceOfBlank(s[1..]);
    }
  }

  /** Replacing either half of a concatenation by text with the same non-whitespace characters keeps them. */
  lemma NonSpaceCongruence(x: string, y: string, a: string, b: string)
    requires NonSpace(x) == NonSpace(y) && NonSpace(a) == NonSpace(b)
    ensures NonSpace(x + a) == NonSpace(y + b)
  {
    NonSpaceAppend(x, a);
    NonSpaceAppend(y, b);
  }

  /** Cutting `s[start..]` at a blank piece `s[i..e]` drops only whitespace. */
  lemma CutKeepsText(s: string, start: nat, i: nat, e: nat, rest: seq<string>)
    requires start <= i <= e <= |s| && IsBlank(s[i..e])
    requires NonSpace(Concat(rest)) == NonSpace(s[e..])
    ensures NonSpace(Concat([s[start..i]] + rest)) == NonSpace(s[start..])
  {
    var head, mid, tail := s[start..i], s[i..e], s[e..];
    assert Concat([head] + rest) == head + Concat(rest);
    assert s[start..] == head + (mid + tail);
    NonSpaceOfBlank(mid);
    NonSpaceAppend(mid, tail);
    NonSpaceCongruence(head, head, Concat(rest), mid + tail);
  }

  /** The first index at or after `i` holding a non-whitespace character, or `|s|`. */
  function FirstNonSpace(s: string, i: nat): (k: nat)
    requires i <= |s|
    ensures i <= k <= |s|
    ensures forall j | i <= j < k :: IsSpace(s[j])
    ensures k == |s| || !IsSpace(s[k])
    decreases |s| - i
  {
    if i == |s| || !IsSpace(s[i]) then i else FirstNonSpace(s, i + 1)
  }

  /** One past the last index before `j` holding a non-whitespace character, or 0. */
  function LastNonSpaceEnd(s: string, j: nat): (k: nat)
    requires j <= |s|
    ensures k <= j
    ensures forall t | k <= t < j :: IsSpace(s[t])
    ensures k == 0 || !IsSpace(s[k - 1])
    decreases j
  {
    if j == 0 || !IsSpace(s[j - 1]) then j else LastNonSpaceEnd(s, j - 1)
  }

  /** Where the stripped text starts inside `s`. */
  function StripStart(s: string): (k: nat)
    ensures k <= |s|
  {
    FirstNonSpace(s, 0)
  }

  /** Where the stripped text ends inside `s`. */
  function StripEnd(s: string): (e: nat)
    ensures StripStart(s) <= e <= |s|
  {
    var k := StripStart(s);
    if k == |s| then k else LastNonSpaceEnd(s, |s|)
  }

  /** Python's `s.strip()`: the infix of `s` left after dropping whitespace at both ends. */
  function Strip(s: string): (r: string)
    ensures r == s[StripStart(s)..StripEnd(s)]
    ensures forall j | 0 <= j < StripStart(s) :: IsSpace(s[j])
    ensures forall j | StripEnd(s) <= j < |s| :: IsSpace(s[j])
    ensures r == [] || (!IsSpace(r[0]) && !IsSpace(r[|r| - 1]))
    ensures r == [] <==> IsBlank(s)
  {
    s[StripStart(s)..StripEnd(s)]
  }

  lemma StripKeepsNonSpace(s: string)
    ensures NonSpace(Strip(s)) == NonSpace(s)
  {
    var a := StripStart(s);
    var r := Strip(s);
    var pre, suf := s[..a], s[StripEnd(s)..];
    assert IsBlank(pre);
    assert IsBlank(suf);
    assert s == pre + r + suf;
    NonSpaceAppend(pre + r, suf);
    NonSpaceAppend(pre, r);
    NonSpaceOfBlank(pre);
    NonSpaceOfBlank(suf);
  }

  lemma StripOfStripped(s: string)
    requires s == [] || (!IsSpace(s[0]) && !IsSpace(s[|s| - 1]))
    ensures Strip(s) == s
  {
  }

  /** `[p.strip() for p in pieces if p.strip()]`. */
  function StrippedNonBlank(pieces: seq<string>): (r: seq<string>)
    ensures forall k | 0 <= k < |r| :: r[k] != [] && !IsSpace(r[k][0]) && !IsSpace(r[k][|r[k]| - 1])
    decreases |pieces|
  {
    if |pieces| == 0 then []
    else
      var q, tail := Strip(pieces[0]), StrippedNonBlank(pieces[1..]);
      if q == [] then tail else [q] + tail
  }

  /** Stripping the pieces and dropping the blank ones loses no non-whitespace character. */
  lemma {:induction false} StrippedNonBlankKeepText(pieces: seq<string>)
    ensures NonSpace(Concat(StrippedNonBlank(pieces))) == NonSpace(Concat(pieces))
    decreases |pieces|
  {
    if |pieces| > 0 {
      var p, rest := pieces[0], pieces[1..];
      var head := if Strip(p) == [] then [] else [Strip(p)];
      var tail := StrippedNonBlank(rest);
      assert StrippedNonBlank(pieces) == head + tail;
      assert Concat(pieces) == p + Concat(rest);
      ConcatAppend(head, tail);
      StrippedNonBlankKeepText(rest);
      NonSpaceAppend(Concat(head), Concat(tail));
      NonSpaceAppend(p, Concat(rest));
      StripKeepsNonSpace(p);
      if head == [] {
        assert IsBlank(p);
        NonSpaceOfBlank(p);
        assert NonSpace(Concat(head)) == [];
      } else {
        assert head[1..] == [];
        assert Concat(head) == Strip(p) + [];
        assert Strip(p) + [] == Strip(p);
      }
    }
  }

  /** ASCII case folding; Python's `lower()` restricted to ASCII letters. */
  function LowerChar(c: char): char {
    if 'A' <= c <= 'Z' then (c as int + 32) as char else c
  }

  function Lower(s: string): (r: string)
    ensures |r| == |s|
    ensures forall i | 0 <= i < |s| :: r[i] == LowerChar(s[i])
  {
    seq(|s|, i requires 0 <= i < |s| => LowerChar(s[i]))
  }

  /** `sub` occurs in `s` starting at index `i`. */
  predicate OccursAt(s: string, sub: string, i: nat) {
    i + |sub| <= |s| && s[i..i + |sub|] == sub
  }

  /** Python's `sub in s`. */
  predicate Contains(s: string, sub: string) {
    exists i | 0 <= i <= |s| :: OccursAt(s, sub, i)
  }

  lemma ContainsAt(s: string, sub: string, i: nat)
    requires OccursAt(s, sub, i)
    ensures Contains(s, sub)
  {
  }

  /** A string lacking the first character of `sub` does not contain `sub`. */
  lemma NotContainedWithoutFirst(s: string, sub: string)
    requires |sub| > 0 && sub[0] !in s
    ensures !Contains(s, sub)
  {
    forall i | 0 <= i <= |s| ensures !OccursAt(s, sub, i) {
      if i + |sub| <= |s| {
        assert s[i..i + |sub|][0] == s[i];
      }
    }
  }

  /** `sep.join(parts)`. */
  function Join(parts: seq<string>, sep: string): string
    decreases |parts|
  {
    if |parts| == 0 then []
    else if |parts| == 1 then parts[0]
    else parts[0] + sep + Join(parts[1..], sep)
  }

  lemma {:induction false} JoinSnoc(parts: seq<string>, sep: string, x: string)
    requires |parts| >= 1
    ensures Join(parts + [x], sep) == Join(parts, sep) + sep + x
    decreases |parts|
  {
    if |parts| > 1 {
      assert (parts + [x])[1..] == parts[1..] + [x];
      JoinSnoc(parts[1..], sep, x);
    }
  }

  /** Every part occurs, contiguously, inside the joined string. */
  lemma {:induction false} JoinContainsPart(parts: seq<string>, sep: string, k: nat)
    requires k < |parts|
    ensures Contains(Join(parts, sep), parts[k])
    decreases |parts|
  {
    var j := Join(parts, sep);
    if |parts| == 1 {
      assert j[0..|parts[k]|] == parts[k];
      ContainsAt(j, parts[k], 0);
    } else if k == 0 {
      assert j[0..|parts[0]|] == parts[0];
      ContainsAt(j, parts[k], 0);
    } else {
      JoinContainsPart(parts[1..], sep, k - 1);
      var rest := Join(parts[1..], sep);
      var i :| 0 <= i <= |rest| && OccursAt(rest, parts[k], i);
      var off := |parts[0]| + |sep|;
      assert j == parts[0] + sep + rest;
      assert j[off + i..off + i + |parts[k]|] == rest[i..i + |parts[k]|];
      ContainsAt(j, parts[k], off + i);
    }
  }

  /** Whatever a string contains, the string with anything in front of it contains too. */
  lemma ContainsAfterPrefix(p: string, s: string, sub: string)
    requires Contains(s, sub)
    ensures Contains(p + s, sub)
  {
    var i :| 0 <= i <= |s| && OccursAt(s, sub, i);
    assert (p + s)[|p|..] == s;
    assert (p + s)[|p| + i..|p| + i + |sub|] == s[i..i + |sub|];
    ContainsAt(p + s, sub, |p| + i);
  }

  /** Concatenation of all parts (`"".join(parts)`). */
  function Concat(parts: seq<string>): string
    decreases |parts|
  {
    if |parts| == 0 then [] else parts[0] + Concat(parts[1..])
  }

  lemma {:induction false} ConcatAppend(a: seq<string>, b: seq<string>)
    ensures Concat(a + b) == Concat(a) + Concat(b)
    decreases |a|
  {
    if |a| == 0 {
      assert a + b == b;
    } else {
      assert (a + b)[0] == a[0];
      assert (a + b)[1..] == a[1..] + b;
      ConcatAppend(a[1..], b);
    }
  }

  lemma ConcatCons(x: string, xs: seq<string>)
    ensures Concat([x] + xs) == x + Concat(xs)
  {
    assert ([x] + xs)[1..] == xs;
  }

  /**
   * Splits `s` at every character satisfying `isSep`, keeping empty pieces:
   * Python's `re.split` on a one-character class.
   */
  function SplitOn(s: string, isSep: char -> bool): (r: seq<string>)
    ensures |r| >= 1
    decreases |s|
  {
    if |s| == 0 then [[]]
    else
      var rest := SplitOn(s[1..], isSep);
      if isSep(s[0]) then [[]] + rest else [[s[0]] + rest[0]] + rest[1..]
  }

  lemma {:induction false} SplitOnPiecesHaveNoSeparator(s: string, isSep: char -> bool, k: nat, i: nat)
    requires k < |SplitOn(s, isSep)| && i < |SplitOn(s, isSep)[k]|
    ensures !isSep(SplitOn(s, isSep)[k][i])
    decreases |s|
  {
    if |s| > 0 {
      var rest := SplitOn(s[1..], isSep);
      if isSep(s[0]) {
        SplitOnPiecesHaveNoSeparator(s[1..], isSep, k - 1, i);
      } else if k == 0 && i == 0 {
      } else if k == 0 {
        SplitOnPiecesHaveNoSeparator(s[1..], isSep, 0, i - 1);
      } else {
        SplitOnPiecesHaveNoSeparator(s[1..], isSep, k, i);
      }
    }
  }

  /** Splitting a string whose first `e` characters are not separators and whose `e`-th one is (or which ends there). */
  lemma {:induction false} SplitOnRun(s: string, isSep: char -> bool, e: nat)
    requires e <= |s|
    requires forall t | 0 <= t < e :: !isSep(s[t])
    requires e == |s| || isSep(s[e])
    ensures SplitOn(s, isSep) == [s[..e]] + (if e == |s| then [] else SplitOn(s[e + 1..], isSep))
    decreases e
  {
    if e > 0 {
      SplitOnRun(s[1..], isSep, e - 1);
      assert s[1..][..e - 1] == s[1..e];
      assert [s[0]] + s[1..e] == s[..e];
      if e < |s| {
        assert s[1..][e..] == s[e + 1..];
      }
    }
  }

  /** `s.split(c)`: the pieces between occurrences of `c`, empty ones included. */
  function SplitAt(s: string, c: char): (r: seq<string>)
    ensures |r| >= 1
  {
    SplitOn(s, x => x == c)
  }

  /** Every character of a piece is a character of the string. */
  lemma {:induction false} SplitOnPieceCharsOccur(s: string, isSep: char -> bool, k: nat, i: nat)
    requires k < |SplitOn(s, isSep)| && i < |SplitOn(s, isSep)[k]|
    ensures SplitOn(s, isSep)[k][i] in s
    decreases |s|
  {
    if |s| > 0 {
      var rest := SplitOn(s[1..], isSep);
      if isSep(s[0]) {
        if k > 0 {
          SplitOnPieceCharsOccur(s[1..], isSep, k - 1, i);
        }
      } else if k == 0 {
        if i > 0 {
          SplitOnPieceCharsOccur(s[1..], isSep, 0, i - 1);
        }
      } else {
        SplitOnPieceCharsOccur(s[1..], isSep, k, i);
      }
    }
  }

  /** The pieces of `s.split(c)` hold no `c`, and only characters of `s`. */
  lemma SplitAtPieces(s: string, c: char, k: nat, i: nat)
    requires k < |SplitAt(s, c)| && i < |SplitAt(s, c)[k]|
    ensures SplitAt(s, c)[k][i] != c && SplitAt(s, c)[k][i] in s
  {
    SplitOnPiecesHaveNoSeparator(s, x => x == c, k, i);
    SplitOnPieceCharsOccur(s, x => x == c, k, i);
  }

  /** Splitting at `c` and joining with `c` gives back the string. */
  lemma {:induction false} JoinSplitAt(s: string, c: char)
    ensures Join(SplitAt(s, c), [c]) == s
    decreases |s|
  {
    if |s| > 0 {
      var rest := SplitAt(s[1..], c);
      JoinSplitAt(s[1..], c);
      if s[0] == c {
        assert SplitAt(s, c) == [[]] + rest;
        if |rest| == 1 {
        } else {
          assert ([[]] + rest)[1..] == rest;
        }
      } else {
        var r := SplitAt(s, c);
        assert r == [[s[0]] + rest[0]] + rest[1..];
        if |rest| > 1 {
          assert r[1..] == rest[1..];
          assert Join(rest, [c]) == rest[0] + [c] + Join(rest[1..], [c]);
        }
      }
    }
  }

  /** The non-empty elements of `parts`, in order. */
  function NonEmpty(parts: seq<string>): (r: seq<string>)
    ensures |r| <= |parts|
    ensures forall i | 0 <= i < |r| :: r[i] != []
    decreases |parts|
  {
    if |parts| == 0 then []
    else (if parts[0] == [] then [] else [parts[0]]) + NonEmpty(parts[1..])
  }

  /** Python's index clamping for a slice bound `i` of a sequence of length `n`. */
  function PyIndex(i: int, n: nat): (k: nat)
    ensures k <= n
    ensures 0 <= i <= n ==> k == i
    ensures i > n ==> k == n
  {
    if i < 0 then (if n + i < 0 then 0 else n + i)
    else if i > n then n
    else i
  }

  /** Python's `s[lo:hi]`, including negative and out-of-range bounds. */
  function PySlice(s: string, lo: int, hi: int): (r: string)
    ensures 0 <= lo <= hi <= |s| ==> r == s[lo..hi]
    ensures 0 <= lo <= |s| <= hi ==> r == s[lo..]
  {
    var a := PyIndex(lo, |s|);
    var b := PyIndex(hi, |s|);
    if a < b then s[a..b] else []
  }

  /** `[s[i:i+width] for i in range(start, len(s), step)]`. */
  function Windows(s: string, width: int, step: nat, start: nat): seq<string>
    requires step >= 1
    decreases |s| - start
  {
    if start >= |s| then []
    else [PySlice(s, start, start + width)] + Windows(s, width, step, start + step)
  }

  /** `k * step` as repeated addition, which keeps the window proofs linear. */
  function Times(k: nat, step: nat): nat
    decreases k
  {
    if k == 0 then 0 else Times(k - 1, step) + step
  }

  lemma {:induction false} TimesIsProduct(k: nat, step: nat)
    ensures Times(k, step) == k * step
    decreases k
  {
    if k > 0 {
      TimesIsProduct(k - 1, step);
      assert (k - 1) * step + step == k * step;
    }
  }

  lemma WindowsCons(s: string, width: int, step: nat, start: nat)
    requires step >= 1 && start < |s|
    ensures Windows(s, width, step, start) == [PySlice(s, start, start + width)] + Windows(s, width, step, start + step)
  {
  }

  /** The k-th window is the first window of the run that starts k steps later. */
  lemma {:induction false} WindowsDrop(s: string, width: int, step: nat, start: nat, k: nat)
    requires step >= 1 && k < |Windows(s, width, step, start)|
    ensures start + Times(k, step) < |s|
    ensures Windows(s, width, step, start)[k] == Windows(s, width, step, start + Times(k, step))[0]
    decreases k
  {
    if k == 0 {
      WindowsCons(s, width, step, start);
    } else {
      WindowsTail(s, width, step, start, k);
      WindowsDrop(s, width, step, start + step, k - 1);
      assert start + step + Times(k - 1, step) == start + Times(k, step);
    }
  }

  /** Past the first window, the windows are those of the run one step later. */
  lemma WindowsTail(s: string, width: int, step: nat, start: nat, k: nat)
    requires step >= 1 && 0 < k < |Windows(s, width, step, start)|
    ensures k - 1 < |Windows(s, width, step, start + step)|
    ensures Windows(s, width, step, start)[k] == Windows(s, width, step, start + step)[k - 1]
  {
    WindowsCons(s, width, step, start);
  }

  /** The k-th window is the slice at offset start + k * step. */
  lemma WindowAt(s: string, width: int, step: nat, start: nat, k: nat)
    requires step >= 1 && k < |Windows(s, width, step, start)|
    ensures start + Times(k, step) < |s|
    ensures Windows(s, width, step, start)[k] == PySlice(s, start + Times(k, step), start + Times(k, step) + width)
  {
    WindowsDrop(s, width, step, start, k);
    WindowsCons(s, width, step, start + Times(k, step));
  }

  /** The windows reach the end of the text. */
  lemma {:induction false} WindowsReachEnd(s: string, width: int, step: nat, start: nat)
    requires step >= 1
    ensures start + Times(|Windows(s, width, step, start)|, step) >= |s|
    decreases |s| - start
  {
    if start < |s| {
      var w := Windows(s, width, step, start);
      var w' := Windows(s, width, step, start + step);
      assert |w| == 1 + |w'|;
      WindowsReachEnd(s, width, step, start + step);
      assert Times(|w|, step) == Times(|w'|, step) + step;
    }
  }

  /** Closed form of the windows: the k-th starts at `start + k*step`, and there is one per start before `|s|`. */
  lemma WindowsClosedForm(s: string, width: int, step: nat, start: nat)
    requires step >= 1
    ensures var w := Windows(s, width, step, start);
      && (forall k | 0 <= k < |w| :: start + k * step < |s| && w[k] == PySlice(s, start + k * step, start + k * step + width))
      && start + |w| * step >= |s|
  {
    var w := Windows(s, width, step, start);
    forall k | 0 <= k < |w|
      ensures start + k * step < |s| && w[k] == PySlice(s, start + k * step, start + k * step + width)
    {
      WindowAt(s, width, step, start, k);
      TimesIsProduct(k, step);
    }
    WindowsReachEnd(s, width, step, start);
    TimesIsProduct(|w|, step);
  }

  /** Every position at or after `start` falls in the first `step` characters of some window. */
  lemma {:induction false} WindowCovering(s: string, width: int, step: nat, start: nat, j: nat) returns (m: nat)
    requires step >= 1 && start <= j < |s|
    ensures m < |Windows(s, width, step, start)|
    ensures start + Times(m, step) <= j < start + Times(m, step) + step
    decreases |s| - start
  {
    WindowsCons(s, width, step, start);
    if j < start + step {
      m := 0;
    } else {
      var m' := WindowCovering(s, width, step, start + step, j);
      m := m' + 1;
      assert Times(m, step) == Times(m', step) + step;
    }
  }

  /** Non-overlapping windows (width equal to the step) concatenate back to the text. */
  lemma {:induction false} WindowsTile(s: string, width: nat, start: nat)
    requires width >= 1 && start <= |s|
    ensures Concat(Windows(s, width, width, start)) == s[start..]
    decreases |s| - start
  {
    if start < |s| {
      WindowsTile(s, width, if start + width <= |s| then start + width else |s|);
      if start + width > |s| {
        assert Windows(s, width, width, start + width) == [];
      }
    }
  }

  /** One non-overlapping window: non-empty, at most `width` long, and exactly `width` unless it is the last. */
  lemma WindowLength(s: string, width: nat, k: nat)
    requires width >= 1 && k < |Windows(s, width, width, 0)|
    ensures 1 <= |Windows(s, width, width, 0)[k]| <= width
    ensures k < |Windows(s, width, width, 0)| - 1 ==> |Windows(s, width, width, 0)[k]| == width
  {
    WindowAt(s, width, width, 0, k);
    SliceLength(s, Times(k, width), width);
    if k < |Windows(s, width, width, 0)| - 1 {
      WindowAt(s, width, width, 0, k + 1);
    }
  }

  /** Non-overlapping windows: each is non-empty and at most `width` long, and all but the last are exactly `width` long. */
  lemma WindowsTileLengths(s: string, width: nat)
    requires width >= 1
    ensures var w := Windows(s, width, width, 0);
      && (forall k | 0 <= k < |w| :: 1 <= |w[k]| <= width)
      && (forall k | 0 <= k < |w| - 1 :: |w[k]| == width)
  {
    var w := Windows(s, width, width, 0);
    forall k | 0 <= k < |w|
      ensures 1 <= |w[k]| <= width
      ensures k < |w| - 1 ==> |w[k]| == width
    {
      WindowLength(s, width, k);
    }
  }

  lemma SliceLength(s: string, lo: nat, width: nat)
    requires lo < |s| && width >= 1
    ensures 1 <= |PySlice(s, lo, lo + width)| <= width
    ensures lo + width <= |s| ==> |PySlice(s, lo, lo + width)| == width
  {
  }

  /** The decimal digit for `d`. */
  function Digit(d: nat): char
    requires d < 10
  {
    ('0' as int + d) as char
  }

  function DigitValue(c: char): nat {
    if '0' <= c <= '9' then c as int - '0' as int else 0
  }

  /** Python's `str(n)` for a natural number. */
  function Decimal(n: nat): (r: string)
    ensures 1 <= |r|
    ensures forall i | 0 <= i < |r| :: '0' <= r[i] <= '9'
    decreases n
  {
    if n < 10 then [Digit(n)] else Decimal(n / 10) + [Digit(n % 10)]
  }

  /** Python's `int(s)` on a string of decimal digits. */
  function ParseDecimal(s: string): nat
    decreases |s|
  {
    if |s| == 0 then 0 else ParseDecimal(s[..|s| - 1]) * 10 + DigitValue(s[|s| - 1])
  }

  lemma {:induction false} DecimalRoundTrip(n: nat)
    ensures ParseDecimal(Decimal(n)) == n
    decreases n
  {
    if n >= 10 {
      DecimalRoundTrip(n / 10);
      var d := Decimal(n);
      assert d[..|d| - 1] == Decimal(n / 10);
    }
  }

  /** The characters of `s` other than `c`, in order (`s.replace(c, "")`). */
  function Remove(s: string, c: char): (r: string)
    ensures c !in r
    ensures |r| <= |s|
    decreases |s|
  {
    if |s| == 0 then [] else (if s[0] == c then [] else [s[0]]) + Remove(s[1..], c)
  }

  lemma {:induction false} RemoveAppend(a: string, b: string, c: char)
    ensures Remove(a + b, c) == Remove(a, c) + Remove(b, c)
    decreases |a|
  {
    if |a| == 0 {
      assert a + b == b;
    } else {
      var head := if a[0] == c then [] else [a[0]];
      assert (a + b)[0] == a[0];
      assert (a + b)[1..] == a[1..] + b;
      RemoveAppend(a[1..], b, c);
      calc {
        Remove(a + b, c);
        head + Remove(a[1..] + b, c);
        head + (Remove(a[1..], c) + Remove(b, c));
        (head + Remove(a[1..], c)) + Remove(b, c);
      }
    }
  }

  /** Whitespace-only text is exactly the text with no non-whitespace character. */
  lemma {:induction false} NonBlankHasNonSpace(s: string)
    requires !IsBlank(s)
    ensures NonSpace(s) != []
    decreases |s|
  {
    if IsSpace(s[0]) {
      assert !IsBlank(s[1..]) by {
        var i :| 0 <= i < |s| && !IsSpace(s[i]);
        assert s[1..][i - 1] == s[i];
      }
      NonBlankHasNonSpace(s[1..]);
    }
  }

  /** Lower-casing twice is lower-casing once. */
  lemma LowerIdempotent(s: string)
    ensures Lower(Lower(s)) == Lower(s)
  {
  }

  /** The index of the last `c` in `s`: Python's `s.rfind(c)`, `None` for -1. */
  function LastIndex(s: string, c: char): (r: Option<nat>)
    ensures r.None? <==> c !in s
    ensures r.Some? ==> r.value < |s| && s[r.value] == c && forall j | r.value < j < |s| :: s[j] != c
    decreases |s|
  {
    if |s| == 0 then None
    else if s[|s| - 1] == c then Some(|s| - 1)
    else
      var r := LastIndex(s[..|s| - 1], c);
      assert forall j | 0 <= j < |s| - 1 :: s[..|s| - 1][j] == s[j];
      r
  }

  /** In `a + [c] + b` with no `c` in `b`, the last `c` is the one after `a`. */
  lemma {:induction false} LastIndexJoin(a: string, c: char, b: string)
    requires c !in b
    ensures LastIndex(a + [c] + b, c) == Some(|a|)
    decreases |b|
  {
    var s := a + [c] + b;
    if |b| == 0 {
      assert s == a + [c];
    } else {
      var b' := b[..|b| - 1];
      assert b[|b| - 1] in b;
      assert s[|s| - 1] == b[|b| - 1];
      assert s[..|s| - 1] == a + [c] + b';
      assert c !in b' by {
        forall j | 0 <= j < |b'| ensures b'[j] != c {
          assert b'[j] == b[j];
        }
      }
      LastIndexJoin(a, c, b');
    }
  }
}

=== FILE: wrappers.dfy ===
/** Optional values: Python's `None` versus a present value. */
module Wrappers {

  datatype Option<+T> = None | Some(value: T) {

    /** The value, or `default` when absent, as `os.getenv(name, default)` reads a setting: a present value, even an empty one, is kept. */
    function GetOr(default: T): T {
      match this
      case Some(v) => v
      case None => default
    }
  }
}
